=== FILE: README.md ===
# gclog core, modelled in Dafny

gclog reads a JDK 8 garbage-collection log and prints a report. The report
has these parts:

- the JDK banner;
- the physical memory;
- the JVM's GC settings;
- the longest pause;
- a table that summarises the pauses by name;
- tuning recommendations.

This project models the logic behind that report as pure Dafny functions
and proves properties of them. It has one module per Rust file:

- `Exec`: the line loop of `exec`. It reads the three header kinds, gathers
  multi-line records in a buffer, decides when a buffer is complete
  (`is_log_finished`) and parses single-line records.
- `Pauses` and `PauseScan`: `has_gc`, `get_gc_resizing`, the
  character-by-character scanner of `parse_gc_pause`, and
  `parse_full_gc_pause`.
- `Aggregate`: `generate_gc_name`, the summaries that
  `generate_pause_table` collects, and the choice that
  `show_max_pause_times` makes.
- `Flags` and `G1Gc`: the GC settings taken from the "CommandLine flags:"
  line, with the JDK 8 defaults derived from physical memory.
- `JvmStats`: the "Memory:" and JDK banner lines.
- `Recommendations`: the counting pass of `generate_recommendations`, the
  rules that decide which paragraphs print, and the region-size advice.
- `Convert` and `Human`: unit conversion and the unit choices of the
  human-readable formatters.

The helper modules are:

- `Common`: `Option`, and `Result`. A Rust panic is `Result.Panic`.
- `Strings`: split, join, trim and integer parsing, with their round trips.
- `StringOrder`: the byte-wise order of Rust `String`s and an insertion
  sort.

Modelling conventions:

- Floating-point values are exact `real`s.
- Two parts of the program are parameters rather than definitions:
  parsing a float and parsing a timestamp, given as `Pauses.Parsers`, and
  the text of each recommendation paragraph, the `show` parameter of
  `Recommendations.RecommendationText`. What "## Left out" lists is not
  modelled at all.
- Fixed-width integer casts, and the overflow checks of a debug build, are
  written out where they matter.

## Model

| member | source | states |
|---|---|---|
| `Common.TruncDiv` | src/human.rs:104-111 | Integer division rounds the quotient toward zero, so the remainder takes the sign of the dividend. |
| `Common.CastReal` | src/glog/recommendations.rs:72 | A float-to-integer `as` cast drops the fraction toward zero and saturates at the type's bounds. |
| `Convert.BytesToMb` | src/glog/convert.rs:15-17 | The result times 2^20 is the byte count: it is non-negative, and zero only for zero bytes. |
| `Convert.BytesToGb` | src/glog/convert.rs:18-20 | The result times 2^30 is the byte count: it is non-negative, and zero only for zero bytes. |
| `Convert.GbIsMbOver1024` | src/glog/convert.rs:15-20 | The two conversions of one byte count differ by exactly a factor of 1024. |
| `Convert.ConvertExamples` | src/glog/convert.rs:28-50 | 2^30 bytes is 1 GiB; 104857 bytes is 0.1 MiB to within 0.01; 0 bytes is 0 in both units. |
| `Human.ByteCascade` | src/human.rs:56-102 | The unit is the largest whose scale the count strictly exceeds, otherwise plain bytes; the value times the unit's scale is the count. |
| `Human.CascadeQuotientInRange` | src/human.rs:56-102 | Below the top unit and above plain bytes, the shown value lies in (1, 1024] or (1, 1000]; in terabytes it exceeds 1. |
| `Human.CascadeMonotone` | src/human.rs:56-102 | A larger byte count never gets a smaller unit. |
| `Human.I128AgreesWithI64` | src/human.rs:56-86 | `human_bytes_i128` and `human_bytes` give the same unit and value for every `i64`. |
| `Human.ByteBoundaries` | src/human.rs:72-102 | The thresholds are strict: 1024 bytes stays in bytes and 1025 is kilobytes; 128,000,000,000 bytes is 128 decimal gigabytes. |
| `Human.HumanDuration` | src/human.rs:22-34 | The unit is the largest the millisecond count strictly exceeds; the value times the unit's length gives back the count. |
| `Human.DurationBoundaries` | src/human.rs:22-34 | 1000 ms stays in milliseconds, 1001 ms is seconds, and 90000 ms is 1.5 minutes. |
| `Human.HumanMetric` | src/human.rs:104-111 | A name ending in "BYTES_READ" gives bytes; otherwise a name ending in "_NS" gives milliseconds, rounded toward zero; any other name gives nothing. |
| `Human.MetricTruncatesTowardZero` | src/human.rs:104-111 | -1,500,000 ns shows as -1 ms, not -2; a name with neither suffix shows nothing. |
| `JvmStats.ParseMemory` | src/glog/jvmstats.rs:21-34 | On success the byte count is the fifth token's kilobyte figure times 1000, and the display is its decimal-unit form. It aborts exactly when the token is missing, is not an `i64`, or the product overflows `i64`. |
| `JvmStats.MemoryLineFifthToken` | src/glog/jvmstats.rs:22-27 | In a "Memory:" header, the fifth space-separated token is the size, followed by "k(" and the free count. |
| `JvmStats.KilobyteToken` | src/glog/jvmstats.rs:23-27 | Cutting that token at '(' and dropping the trailing 'k' leaves the size digits. |
| `JvmStats.ParseMemoryLine` | src/glog/jvmstats.rs:21-34 | Reading back a header written with k kilobytes gives k * 1000 bytes, whenever that fits in an `i64`. |
| `JvmStats.ParseMemoryExample` | src/glog/jvmstats.rs:45-52 | The header in the memory test reads as 128,000,000,000 bytes, shown as 128 decimal gigabytes. |
| `JvmStats.ParseJdkStats` | src/glog/jvmstats.rs:36-39 | The banner line is kept verbatim. |
| `G1Gc.TargetMillis` | src/glog/g1gc.rs:17-28 | Without a "-XX:MaxGCPauseMillis=" flag the goal is 200. With one, it succeeds exactly when the first such flag's value parses as an `i32`, and then it is that value. |
| `G1Gc.TargetMillisFirstFlag` | src/glog/g1gc.rs:17-28 | The first pause-goal flag decides, whatever flags follow it. |
| `G1Gc.TargetMillisDefault` | src/glog/g1gc.rs:88-98 | A flag list without a pause-goal flag gives 200 ms. |
| `G1Gc.RegionForHeap` | src/glog/g1gc.rs:58-77 | The region size is always one of 1, 2, 4, 8, 16 or 32 MiB. |
| `G1Gc.RoundDownUnique` | src/glog/g1gc.rs:58-77 | At most one supported size is the round-down of a raw size. |
| `G1Gc.RegionForHeapRoundsDown` | src/glog/g1gc.rs:58-77 | Except at the four exact boundaries, the bucket table rounds heapGb/2 MiB down to a supported size, with 32 as the ceiling. |
| `G1Gc.RegionForHeapBoundaries` | src/glog/g1gc.rs:58-77 | Heaps of exactly 4, 8, 16 and 32 GiB get 32 MiB, where rounding down would give the boundary itself. |
| `G1Gc.RegionForHeapExamples` | src/glog/g1gc.rs:126-135 | The table's values for 1, 4.01, 8.01, 16.01, 32.01, 64.01 and 128.01 GiB heaps. |
| `G1Gc.RegionSizeMb` | src/glog/g1gc.rs:29-40 | Without a "-XX:G1HeapRegionSize=" flag the size is the heap's bucket. With one, it succeeds exactly when the value parses as a `u64`, and then it is that many bytes in MiB. |
| `G1Gc.RegionSizeFlagWins` | src/glog/g1gc.rs:29-40 | An explicit region size wins over the heap size, whatever the heap. |
| `G1Gc.RegionSizeExamples` | src/glog/g1gc.rs:100-124 | 33554432 bytes is 32 MiB; 32000000 bytes stays at about 30.51 MiB, not snapped to a power of two. |
| `Flags.CollectorOf` | src/glog/flags.rs:81-98 | A flag is recognised only as one of the six exact selector strings, and as the collector that string selects. |
| `Flags.CollectorOfSelectingFlag` | src/glog/flags.rs:81-98 | Each selector string is recognised as its own collector. |
| `Flags.FirstSelector` | src/glog/flags.rs:81-98 | Finds the index of the first selector flag, with no selector before it; or none, when no flag is a selector. |
| `Flags.GetCollector` | src/glog/flags.rs:81-98 | The collector is Unknown exactly when no flag is a selector; otherwise it is the collector of the first selector in list order. |
| `Flags.GetCollectorFirst` | src/glog/flags.rs:403-419 | The first selector decides, whatever selectors follow it. |
| `Flags.MinHeapSizeGb` | src/glog/flags.rs:100-122 | With a "-XX:InitialHeapSize=" flag: it succeeds exactly when the value parses as a `u64`, and is that many bytes in GiB. Without one: max(physical/64, 8 MiB), in GiB. |
| `Flags.MaxHeapSizeGb` | src/glog/flags.rs:124-146 | With a "-XX:MaxHeapSize=" flag: it succeeds exactly when the value parses as a `u64`, and is that many bytes in GiB. Without one: max(physical/4, 1 GiB), in GiB. |
| `Flags.MaxDirectMemoryGb` | src/glog/flags.rs:182-217 | With a "-XX:MaxDirectMemorySize=" flag: it succeeds exactly when the value parses as an `i64`, and is that many bytes in GiB. Without one: the maximum heap. |
| `Flags.DefaultSizes` | src/glog/flags.rs:228-281 | The default initial heap is 1 GiB for 64 GiB of memory and 8 MiB for 256 MiB. The default maximum heap is 60 GiB for 240 GiB of memory and exactly 1 GiB for 2 GiB. The direct memory follows the heap. |
| `Flags.ExplicitSizes` | src/glog/flags.rs:228-281 | An explicit size flag wins over the physical memory. |
| `Flags.FlagTokens` | src/glog/flags.rs:151-159 | The flags are every single-space-separated token after the first two, in order, empty ones included. |
| `Flags.FlagTokensOfLine` | src/glog/flags.rs:151-159 | A "CommandLine flags:" line written from space-free flags splits back into exactly those flags. |
| `Flags.InferFlags` | src/glog/flags.rs:160-180 | Each setting is its reader's value: collector, maximum heap, initial heap, direct memory, and, for G1 only, region size from the maximum heap and pause goal. Otherwise the region size and goal are zero. It aborts exactly when one of those readers does. |
| `Flags.ParseGcFlags` | src/glog/flags.rs:148-180 | On success the settings keep the line's flag tokens as the full flag list. |
| `Flags.NonG1IgnoresG1Settings` | src/glog/flags.rs:166-169 | For a collector other than G1, the region size and pause goal stay zero even when flags set them. |
| `Flags.G1FlagLineInferred` | src/glog/flags.rs:160-180 | The 22 flags of the test's line, with any five figures for the region size, initial heap, direct memory, pause goal and maximum heap, read back each setting from its own flag. |
| `Flags.G1FlagLineParses` | src/glog/flags.rs:148-180 | Those 22 flags written out as a "CommandLine flags: " line parse to the same settings, the list itself kept as all the flags. |
| `Flags.SampleFlagsInferred` | src/glog/flags.rs:421-430 | The test's 22-flag "CommandLine flags: " line, read through the line parser with 128 decimal gigabytes of memory, is G1 with a 32 MiB region, a 16 GiB maximum heap, about 1.907 GiB initial and a 500 ms goal. |
| `Pauses.HasGcPhrases` | src/glog/pauses.rs:40-42 | A line holding "GC pause", "GC (" or "Full GC " anywhere is a collection line. |
| `Pauses.HasGcMentionsGc` | src/glog/pauses.rs:40-42 | Every collection line contains "GC ". |
| `Pauses.ZeroExpansionWins` | src/glog/pauses.rs:164-178 | A record reporting a zero or absent expansion amount is no resize, whatever else it reports. |
| `Pauses.ExpansionAndShrinking` | src/glog/pauses.rs:164-178 | Either expansion phrase means expansion, unless a "nothing expanded" phrase is present. The shrink phrase means shrinking only when no other phrase is present. |
| `Pauses.AttemptWithZeroAmount` | src/glog/pauses.rs:518-532 | An attempted expansion whose computed amount is 0 bytes is no resize. |
| `Pauses.ParseRecordLine` | src/glog/pauses.rs:180-305 | A well-formed record line reads back as written: the timestamp, whether the collection word is "Full", the attributes that pass the digit filter in order (the first is the type unless the GC is full) and the seconds token. |
| `Pauses.ParseGcPause` | src/glog/pauses.rs:180-305 | Kept attributes never mention a digit unless they name G1. |
| `Pauses.ParseHumongousExample` | src/glog/pauses.rs:534-544 | The humongous-allocation record reads as type "G1 Humongous Allocation", attributes young and initial-mark, not full, with its seconds and timestamp. |
| `Pauses.ParseCauseRecord` | src/glog/pauses.rs:271-279 | In a "[GC (cause)..." record the cause is the type, and the other kept attributes follow. |
| `Pauses.ParseErgonomicsRecord` | src/glog/pauses.rs:518-532 | Commas inside nested sub-records do not start the seconds token: the type is the cause, the one attribute survives, and the seconds are the final ones. |
| `Pauses.ParseNoDatetimeExample` | src/glog/pauses.rs:546-555 | The heap-size attribute is dropped, so the type is the cause and no attribute is left; a timestamp that is not a datetime gives epoch 0. |
| `Pauses.HeapSizeDropped` | src/glog/pauses.rs:250 | A heap-size attribute such as "26456064K" fails the digit filter. |
| `Pauses.FirstGcLine` | src/glog/pauses.rs:47-49 | Finds the index of the first line that mentions a collection, or none when no line does. |
| `Pauses.RemoveAll` | src/glog/pauses.rs:50-57 | The result holds every other element as many times as the list did, and no copy of the one removed; a list without it is returned unchanged. |
| `Pauses.RemoveAllKeepsRepeats` | src/glog/pauses.rs:50-57 | Removing "before full gc" from young, before full gc, young leaves young twice. |
| `Pauses.FullGcSecondsFromClosingLine` | src/glog/pauses.rs:59-106 | Any seconds other than the default 0 come from some line that ends in " secs]". |
| `Pauses.ClosingLineSeconds` | src/glog/pauses.rs:80-105 | A closing line "<text>, <seconds> secs]" yields exactly the seconds its token parses to, and fails when the token does not parse. |
| `Pauses.SkipHistogram` | src/glog/pauses.rs:65-70 | Inside a histogram dump every line up to and including the first "Total" line is passed over, brackets and all. |
| `Pauses.UnbalancedFirstLine` | src/glog/pauses.rs:76 | A first line with more ']' than '[' aborts, because the bracket difference is an unsigned subtraction. |
| `Pauses.HistogramRecordSeconds` | src/glog/pauses.rs:59-106 | For a record with a class histogram, the seconds are those of the record's closing line; the dump's own brackets never count. |
| `Pauses.ParseOpenRecordLine` | src/glog/pauses.rs:180-305 | The first line of a multi-line record gives its timestamp, collection word and attributes, and no seconds. |
| `Pauses.ParseFullGcPause` | src/glog/pauses.rs:44-116 | It succeeds exactly when the line loop does, and takes its seconds from that loop. The kind, timestamp and attributes come from the first collection line; the attributes lose every "before full gc" and keep every other attribute with its number of occurrences. "Full GC" anywhere marks a full collection, and resizing is looked for in the whole buffer. |
| `Pauses.ParseHistogramLines` | src/glog/pauses.rs:44-116 | A histogram record whose first line names the collection parses to that line's kind, timestamp and attributes, less "before full gc", with the seconds of the closing line. |
| `Pauses.ParseHistogramRecord` | src/glog/pauses.rs:557-597 | The full collection with a class histogram reads as "Full GC", full, with the first line's timestamp, its cause and other attributes without "before full gc", and the closing seconds. |
| `Pauses.BufferOfLines` | src/glog/pauses.rs:44-49 | Newline-free lines joined into a buffer split back into those lines, and the first of them is the first collection line. |
| `Pauses.FullGcPauseOfLines` | src/glog/pauses.rs:44-116 | When the first line names the collection, the pause is built from that line and the loop's seconds. |
| `PauseScan.Step` | src/glog/pauses.rs:209-270 | One character raises the bracket counts by its own bracket. The scanner stops only on the closing bracket that balances, or on the space after the seconds token. An attribute is kept only at ')' and only if it passes the digit filter. |
| `PauseScan.ScanFrom` | src/glog/pauses.rs:209-270 | Once stopped the scan stays unchanged. It only appends attributes, and only ones that pass the filter. |
| `PauseScan.ScanFromAppend` | src/glog/pauses.rs:209-270 | Scanning two texts in turn is scanning their concatenation. |
| `PauseScan.StoppedStaysStopped` | src/glog/pauses.rs:209-270 | Once the scan breaks out, text after that point never changes the result. |
| `PauseScan.ReadGroups` | src/glog/pauses.rs:240-262 | A run of attribute groups leaves exactly the kept attributes, in order, and raises both bracket counts by the number of nested pairs. |
| `PauseScan.NestedGroupIgnored` | src/glog/pauses.rs:209-270 | Characters inside a nested bracket pair are ignored: only the bracket counts move. |
| `PauseScan.ScanWellFormedRecord` | src/glog/pauses.rs:209-279 | A well-formed record scans to its collection word, the kept attributes in order, and its seconds token, then stops; nothing after the token matters. |
| `PauseScan.ScanOpenRecord` | src/glog/pauses.rs:209-279 | The first line of a multi-line record scans to its word and kept attributes, with no seconds token. |
| `PauseScan.GroupsBrackets` | src/glog/pauses.rs:209-270 | Well-formed groups hold one '[' and one ']' per nested pair. |
| `Aggregate.Wrap` | src/glog/pauses.rs:338-348 | Each attribute is put in parentheses, in the given order. |
| `Aggregate.WrapPermutation` | src/glog/pauses.rs:338-348 | Wrapping commutes with reordering. |
| `Aggregate.GcNameOrderFree` | src/glog/pauses.rs:338-348 | A pause's name does not depend on the order its attributes were logged in. |
| `Aggregate.GcNameShowsAttributes` | src/glog/pauses.rs:338-348 | With attributes, the name starts with the type and " - ", and shows every attribute in parentheses. |
| `Aggregate.GcNameTwo` | src/glog/pauses.rs:338-348 | Two attributes already in order are shown in that order. |
| `Aggregate.GcNameExample` | src/glog/pauses.rs:432-446 | Both orders of "to-space exhausted" and "young" give "G1 Humongous Allocation - (to-space exhausted)(young)". |
| `Aggregate.GcNameBare` | src/glog/pauses.rs:338-348 | A pause without attributes is named by its type alone. |
| `Aggregate.Keyed` | src/glog/pauses.rs:372-373 | Each pause is keyed by its name and seconds, in log order. |
| `Aggregate.AddPause` | src/glog/pauses.rs:379-403 | Folding in a pause adds its name to the keys and leaves every other summary unchanged. |
| `Aggregate.Longest` | src/glog/pauses.rs:380-382 | The reference maximum belongs to the list and bounds it from above. |
| `Aggregate.Shortest` | src/glog/pauses.rs:383-385 | The reference minimum belongs to the list and bounds it from below. |
| `Aggregate.SummaryStep` | src/glog/pauses.rs:379-403 | One more duration moves the reference total, maximum and minimum exactly as the strict comparisons of the fold do. |
| `Aggregate.GroupSummarises` | src/glog/pauses.rs:370-404 | The map holds one summary per distinct name; each counts, totals and bounds exactly the entries of that name. |
| `Aggregate.PauseTableSummarises` | src/glog/pauses.rs:370-404 | The table has a summary for exactly the names the pauses carry, and each one summarises the pauses of that name. |
| `Aggregate.SummaryBounds` | src/glog/pauses.rs:370-404 | Every pause lies between its name's shortest and longest pause, and the count is at least one. |
| `Aggregate.PermutedAttributesShareSummary` | src/glog/pauses.rs:448-494 | Two pauses of one type whose attributes differ only in order share one summary of two. |
| `Aggregate.DistinctNames` | src/glog/pauses.rs:406-415 | The names in order of first appearance: each name once, and exactly the names present. |
| `Aggregate.EnumerationOrderFree` | src/glog/pauses.rs:406-416 | Every repeat-free listing of the names sorts to the same sequence, so the hash map's iteration order cannot be seen. |
| `Aggregate.SortedNames` | src/glog/pauses.rs:416 | The sorted names are exactly the names, each once. |
| `Aggregate.RowsAscending` | src/glog/pauses.rs:416 | The rows are strictly ascending by name. |
| `Aggregate.RowsSummarise` | src/glog/pauses.rs:406-416 | Every row holds the summary of its own name. |
| `Aggregate.RowsComplete` | src/glog/pauses.rs:406-416 | Every name has a row. |
| `Aggregate.FirstLongestUnique` | src/glog/pauses.rs:353-357 | At most one pause is the first of the longest. |
| `Aggregate.MaxPauseIndex` | src/glog/pauses.rs:349-358 | The search lands on the first of the longest pauses, and on none exactly when no pause is longer than zero. |
| `Aggregate.ShowMaxPauseTimes` | src/glog/pauses.rs:349-368 | With no pause longer than zero there is no report. Otherwise the report shows the first of the longest pauses, and aborts exactly when its epoch times 1000 overflows an `i64`. |
| `StringOrder.Insert` | src/glog/pauses.rs:416 | Inserting adds the element to the multiset and keeps a sorted list sorted. |
| `StringOrder.Sort` | src/glog/pauses.rs:416 | The result is a sorted permutation of the input. |
| `StringOrder.SortedUnique` | src/glog/pauses.rs:416 | Two sorted permutations of one multiset are equal. |
| `StringOrder.SortOrderFree` | src/glog/pauses.rs:416 | Permutations of a list sort alike. |
| `StringOrder.SortDistinct` | src/glog/pauses.rs:416 | Sorting a repeat-free list keeps it repeat-free. |
| `StringOrder.BelowTotal` | src/glog/pauses.rs:416 | The string order is total. |
| `Exec.IsLogFinishedPlain` | src/glog/exec.rs:31-52 | Without a class histogram, a buffer is finished exactly when it holds as many '[' as ']'. |
| `Exec.FinishedOfLines` | src/glog/exec.rs:31-52 | A buffer joined from newline-free lines is finished exactly when the bracket count over those lines balances. |
| `Exec.HistogramRecordFinishes` | src/glog/exec.rs:154-177 | A full collection with a class histogram stays unfinished until its closing line, and is finished with it, whatever balanced lines follow. |
| `Exec.OpenBufferUnfinished` | src/glog/exec.rs:31-52 | The buffer of a record that is still one bracket open is unfinished. |
| `Exec.ClosedBufferFinished` | src/glog/exec.rs:31-52 | The closing line balances the buffer. |
| `Exec.FeedRecord` | src/glog/exec.rs:93-116 | The record branches of the loop change only the buffer, the multi-line flag and the pause list. |
| `Exec.FeedAllAppend` | src/glog/exec.rs:79-121 | Feeding two stretches of lines is feeding one after the other, and the loop stops at the first line that fails. |
| `Exec.RunLast` | src/glog/exec.rs:79-121 | A successful run succeeded on every line before the last, and the last line continues from there. |
| `Exec.RunPrefix` | src/glog/exec.rs:79-121 | A successful run succeeded on every prefix, and the rest of the run continues from it. |
| `Exec.HeaderExclusive` | src/glog/exec.rs:82-92 | A line is a header of at most one kind. |
| `Exec.FeedParsed` | src/glog/exec.rs:82-92 | A header kind becomes read exactly when a line of that kind arrives; nothing else marks or unmarks it. |
| `Exec.RunParsed` | src/glog/exec.rs:79-121 | After the run, a header kind has been read exactly when the log holds a line of that kind. |
| `Exec.FeedKeepsHeaders` | src/glog/exec.rs:82-92 | A header value, once read, is never replaced by a later line. |
| `Exec.FeedAllKeepsHeaders` | src/glog/exec.rs:79-121 | A header value, once read, is never replaced for the rest of the run. |
| `Exec.FirstHeaderRead` | src/glog/exec.rs:79-121 | The first line of a header kind arrives while that kind is still unread. |
| `Exec.RunFlags` | src/glog/exec.rs:82-84 | The settings are those of the first "CommandLine flags: " line, read with the physical memory known when that line arrived. |
| `Exec.RunMemory` | src/glog/exec.rs:85-87 | The memory statistics are those of the first "Memory: " line. |
| `Exec.RunJdk` | src/glog/exec.rs:88-92 | The JDK banner is the first line that starts with "OpenJDK " or "Java". |
| `Exec.FeedKeepsMemory` | src/glog/exec.rs:79-121 | Only a "Memory: " line sets the memory statistics. |
| `Exec.MemoryUnset` | src/glog/exec.rs:68-71 | Before any "Memory: " line the physical memory is zero. |
| `Exec.FlagsWithoutMemory` | src/glog/exec.rs:82-87 | A flags line that comes before any "Memory: " line infers the heap defaults from zero physical memory. |
| `Exec.FeedSingle` | src/glog/exec.rs:109-120 | Outside a record, a balanced line adds its pause when it names a collection, and is passed over otherwise. |
| `Exec.FeedOpens` | src/glog/exec.rs:109-116 | Outside a record, a line that leaves brackets open starts a buffer with that line. |
| `Exec.FeedGathers` | src/glog/exec.rs:93-108 | Inside a record, a line that does not finish it joins the buffer. |
| `Exec.FeedCloses` | src/glog/exec.rs:93-108 | A line with a ']' that finishes the buffer parses it as one record. The pause is kept unless it is the histogram's "after full gc", and the buffer is emptied. |
| `Exec.SingleLines` | src/glog/exec.rs:109-120 | Outside a record, balanced non-header lines add the pauses of those naming a collection, in order, and change nothing else. |
| `Exec.GatherLines` | src/glog/exec.rs:93-108 | A record's later lines join the buffer one by one. |
| `Exec.PlainRecordPause` | src/glog/pauses.rs:44-116 | A record without a histogram parses to the closing line's seconds and the first line's type, attributes and timestamp. |
| `Exec.PlainRecordSeconds` | src/glog/pauses.rs:59-106 | The seconds of a record without a histogram are those of its closing line. |
| `Exec.RecordGathered` | src/glog/exec.rs:93-116 | A record's first and later lines leave it gathered in the buffer. |
| `Exec.RecordCloses` | src/glog/exec.rs:93-108 | The closing line of a gathered record finishes and parses it, and returns the reader to outside a record. |
| `Exec.MultilineRecord` | src/glog/exec.rs:93-116 | A multi-line record without a histogram adds one pause: the closing seconds, and the first line's type, attributes and timestamp. A type of "after full gc" adds nothing. The reader ends outside a record with nothing else changed. |
| `Recommendations.CountPausesExact` | src/glog/recommendations.rs:33-54 | The pass counts, sums and maximises exactly the pauses of each class: resizes up and down, to-space exhaustion, humongous allocations, and full collections that are not humongous. |
| `Recommendations.OccurrencesBounded` | src/glog/recommendations.rs:33-54 | No class outnumbers the pauses. A pause is at most one of humongous and full, and at most one of sized up and sized down. |
| `Recommendations.LongestWhereIsMax` | src/glog/recommendations.rs:33-54 | A class's maximum bounds every pause of the class, and is 0 or one of those pauses. |
| `Recommendations.CountPausesBounded` | src/glog/recommendations.rs:33-54 | The counts are bounded by the number of pauses, as the percentages need. |
| `Recommendations.OccurrencesAppend` | src/glog/recommendations.rs:33-54 | The counts, sums and maxima of two stretches combine. |
| `Recommendations.CountPausesSwap` | src/glog/recommendations.rs:33-54 | Counting two stretches in either order gives the same counts. |
| `Recommendations.NextPowerOfTwo` | src/glog/recommendations.rs:72 | The result is a power of two, at least n, and below 2n for n ≥ 1. |
| `Recommendations.NextPowerOfTwoLeast` | src/glog/recommendations.rs:72 | It is the least power of two at or above n. |
| `Recommendations.PowerOfTwoWidth` | src/glog/recommendations.rs:72 | A `u32` holds the next power of two of n exactly when n is at most 2^31. |
| `Recommendations.AdviseRegion` | src/glog/recommendations.rs:65-74 | Within 0.02 MiB of 32 the region is already at the maximum. Otherwise the advice is a power of two above the region's whole MiB. It aborts exactly when the region is at least 2^31 MiB. |
| `Recommendations.RegionAdviceExamples` | src/glog/recommendations.rs:126-264 | 1, 2, 4, 8 and 16 MiB regions suggest the next power of two; 32 MiB is the maximum. |
| `Recommendations.CollectorNotesRules` | src/glog/recommendations.rs:55-90 | G1 gets the to-space paragraph when a pause exhausted to-space and the humongous paragraph when one was humongous. Any other collector gets its one advisory. Only the region advice can fail. |
| `Recommendations.TrailingNotesRules` | src/glog/recommendations.rs:92-104 | The full-collection paragraph prints when there was a full collection and the collector is not Parallel. The resize paragraph prints when some pause resized the heap and the maximum and initial heap differ by more than 0.01 GiB. |
| `Recommendations.RecommendRules` | src/glog/recommendations.rs:20-108 | Each paragraph kind appears at most once, in the order collector, to-space, humongous, full, resize, and exactly when its rule fires. Only the region advice can fail. |
| `Recommendations.RecommendFigures` | src/glog/recommendations.rs:55-104 | The paragraphs print the counting pass's figures: to-space and humongous shares as percentages, full-collection and resize shares as fractions, with their totals and maxima. |
| `Recommendations.ToSpaceFigure` | src/glog/recommendations.rs:59-62 | The to-space paragraph shows the share in percent, the total and the longest such pause. |
| `Recommendations.HumongousFigure` | src/glog/recommendations.rs:63-78 | The humongous paragraph shows the share in percent, the total and the region advice. |
| `Recommendations.FullGcFigure` | src/glog/recommendations.rs:92-94 | The full-collection paragraph shows the fraction, the total and the longest such pause. |
| `Recommendations.ResizeFigure` | src/glog/recommendations.rs:96-104 | The resize paragraph shows the fraction of resizes and the counts up and down. |
| `Recommendations.CollectorFigure` | src/glog/recommendations.rs:55-90 | The advisory is the one for the configured collector. |
| `Recommendations.RecommendationText` | src/glog/recommendations.rs:106-114 | The output is empty exactly when no paragraph fires; otherwise it starts with the heading and its underline. |
| `Recommendations.G1WithoutPauses` | src/glog/recommendations.rs:266-281 | A G1 log without pauses gets no recommendations at all. |
| `Recommendations.OtherCollectorsAdvised` | src/glog/recommendations.rs:283-387 | Every collector other than G1 gets its advisory first, so the output is never empty. |
| `Recommendations.ToSpaceExample` | src/glog/recommendations.rs:389-425 | Two 30-second to-space pauses under G1 give 100% of pauses, 60 seconds in all and 30 at most. |
| `Recommendations.HumongousExample` | src/glog/recommendations.rs:126-227 | Two 3.1-second humongous allocations with 1 MiB regions give 100%, 6.2 seconds and a 2 MiB suggestion. |

## Left out

- PauseScan.AnyDigit: the attribute filter at src/glog/pauses.rs:250 uses `char::is_numeric`, which accepts every Unicode numeric character. The model accepts only the ASCII digits, so an attribute such as "(²)" is kept by the model but dropped by the program.
- Pauses.FullGcSeconds: the `usize` subtraction at src/glog/pauses.rs:76/80 aborts on underflow, as in a debug build. A release build wraps and carries on.
- JvmStats.ParseMemory: `total_ram_k * 1000` at src/glog/jvmstats.rs:28 aborts on `i64` overflow, as in a debug build; a release build wraps.
- JvmStats.ParseMemory: the display string's "Total System RAM:    " prefix (src/glog/jvmstats.rs:31) is left out. The display is kept as a unit and value.
- Aggregate.ShowMaxPauseTimes: `time_epoch * 1000` at src/glog/pauses.rs:363-364 aborts on `i64` overflow, as in a debug build; a release build wraps. The report is the chosen pause's figures, not the formatted line.
- Recommendations.AdviseRegion: `+ 1_u32` and `next_power_of_two` at src/glog/recommendations.rs:72 abort on overflow, as in a debug build. A release build wraps to 0 and then returns 1.
- Pauses.Parsers: `f64::from_str` and `get_epoch` (src/glog/pauses.rs:151-162, which parses the timestamp with the `time` crate's `OffsetDateTime::parse`) are parameters, not defined. The `.unwrap()` on the parsed format description inside `get_epoch` (src/glog/pauses.rs:152-154) is abstracted along with it.
- Floating point: every `f64` and `f32` is an exact `real`, so there is no NaN, infinity or rounding. This affects the comparisons at src/glog/pauses.rs:353-357 and 381-388 and the `f32` settings of src/glog/flags.rs:24-28.
- Error kinds: a returned `Err` and a panic both appear as `Result.Panic`, since both end the run.
- File I/O and the report: opening and reading the file (src/glog/exec.rs:53-55, 79-80) is left out; the model is given the lines. Joining the report parts (src/glog/exec.rs:122-143) is left out too.
- Text rendering: the `Display` of the settings (src/glog/flags.rs:32-68) and the `{:.2}`-style number formatting are left out. So are the table rendering and the `println!` at src/glog/pauses.rs:285-292. Each paragraph's `format!` is the `show` parameter of `Recommendations.RecommendationText`.
- The p50 and p99 columns of `generate_pause_table` (src/glog/pauses.rs:409-410) are left out, along with the histogram they read. The histogram calls at src/glog/pauses.rs:375-377 (a new histogram's `increment(..).expect`), 389-391 (an existing one's `increment(..).unwrap()`) and 409-410 (`percentile(..).unwrap()`) are assumed not to abort; the model never panics there.
- `human_time` and `human_percentage` (src/human.rs:36-54) are left out. They only format a timestamp through the `time` crate's `OffsetDateTime` and `format_description`, and a float.
- Human.HumanBytes, Human.HumanBytesI128 and Human.HumanBytesBase1k are each stated through `Human.ByteCascade` and `Human.I128AgreesWithI64`, not through contracts of their own.
- The full-collection and resize shares are fractions of the pause count, not percentages, though their text says "%" (src/glog/recommendations.rs:92-104). They are modelled as written.

=== FILE: aggregate.dfy ===
/** What the report makes of the parsed pauses (src/glog/pauses.rs,
    `generate_gc_name`, `generate_pause_table` and `show_max_pause_times`):
    a name per kind of pause, one summary per name, and the single longest
    pause.
 */
module Aggregate {
  import opened Common
  import opened Strings
  import opened StringOrder
  import opened Pauses
  import opened Human

  // ---------------------------------------------------------------------
  // Names
  // ---------------------------------------------------------------------

  /** Each attribute in parentheses, in the order given. */
  function Wrap(attrs: seq<string>): (r: seq<string>)
    decreases |attrs|
    ensures |r| == |attrs|
    ensures forall i :: 0 <= i < |attrs| ==> r[i] == "(" + attrs[i] + ")"
  {
    if |attrs| == 0 then [] else ["(" + attrs[0] + ")"] + Wrap(attrs[1..])
  }

  /** One attribute in parentheses. */
  function Parenthesised(a: string): string {
    "(" + a + ")"
  }

  /** `f` applied to every element. */
  function MapSeq<A, B>(f: A -> B, xs: seq<A>): (r: seq<B>)
    ensures |r| == |xs|
    ensures forall i :: 0 <= i < |xs| ==> r[i] == f(xs[i])
  {
    seq(|xs|, i requires 0 <= i < |xs| => f(xs[i]))
  }

  lemma WrapIsMap(attrs: seq<string>)
    ensures Wrap(attrs) == MapSeq(Parenthesised, attrs)
  {
  }

  /** Removing one position removes one copy of its element. */
  lemma RemoveAt<T>(ys: seq<T>, i: nat)
    requires i < |ys|
    ensures multiset(ys) == multiset(ys[..i] + ys[i + 1..]) + multiset{ys[i]}
  {
    assert ys == ys[..i] + [ys[i]] + ys[i + 1..];
  }

  /** Mapping commutes with removing a position. */
  lemma MapRemoveAt<A, B>(f: A -> B, ys: seq<A>, i: nat)
    requires i < |ys|
    ensures multiset(MapSeq(f, ys)) == multiset(MapSeq(f, ys[..i] + ys[i + 1..])) + multiset{f(ys[i])}
  {
    var ws := MapSeq(f, ys);
    var rest := ys[..i] + ys[i + 1..];
    RemoveAt(ws, i);
    assert ws[..i] + ws[i + 1..] == MapSeq(f, rest) by {
      forall k | 0 <= k < |rest|
        ensures (ws[..i] + ws[i + 1..])[k] == MapSeq(f, rest)[k]
      {
        if k < i {
          assert rest[k] == ys[k];
        } else {
          assert rest[k] == ys[k + 1];
          assert (ws[..i] + ws[i + 1..])[k] == ws[k + 1];
        }
      }
    }
  }

  lemma MapHead<A, B>(f: A -> B, xs: seq<A>)
    requires |xs| > 0
    ensures multiset(MapSeq(f, xs)) == multiset(MapSeq(f, xs[1..])) + multiset{f(xs[0])}
  {
    var ws := MapSeq(f, xs);
    assert ws == [f(xs[0])] + MapSeq(f, xs[1..]);
  }

  lemma CancelAddition<T>(a: multiset<T>, b: multiset<T>, m: multiset<T>)
    requires a + m == b + m
    ensures a == b
  {
    forall e
      ensures a[e] == b[e]
    {
      assert (a + m)[e] == (b + m)[e];
    }
  }

  /** Mapping commutes with reordering. */
  lemma {:induction false} MapPermutation<A, B>(f: A -> B, xs: seq<A>, ys: seq<A>)
    requires multiset(xs) == multiset(ys)
    ensures multiset(MapSeq(f, xs)) == multiset(MapSeq(f, ys))
    decreases |xs|
  {
    if |xs| == 0 {
      assert |ys| == |multiset(ys)| == 0;
    } else {
      var x := xs[0];
      assert x in multiset(ys) by {
        assert x in xs;
      }
      var i :| 0 <= i < |ys| && ys[i] == x;
      var rest := ys[..i] + ys[i + 1..];
      assert multiset(xs[1..]) == multiset(rest) by {
        assert multiset(ys) == multiset(rest) + multiset{x} by {
          RemoveAt(ys, i);
        }
        assert multiset(xs) == multiset(xs[1..]) + multiset{x} by {
          assert xs == [x] + xs[1..];
        }
        CancelAddition(multiset(xs[1..]), multiset(rest), multiset{x});
      }
      MapPermutation(f, xs[1..], rest);
      assert multiset(MapSeq(f, ys)) == multiset(MapSeq(f, rest)) + multiset{f(x)} by {
        MapRemoveAt(f, ys, i);
      }
      assert multiset(MapSeq(f, xs)) == multiset(MapSeq(f, xs[1..])) + multiset{f(x)} by {
        MapHead(f, xs);
      }
      SameAddition(multiset(MapSeq(f, xs)), multiset(MapSeq(f, ys)),
        multiset(MapSeq(f, xs[1..])), multiset(MapSeq(f, rest)), multiset{f(x)});
    }
  }

  lemma SameAddition<T>(a: multiset<T>, b: multiset<T>, c: multiset<T>, d: multiset<T>, m: multiset<T>)
    requires a == c + m && b == d + m && c == d
    ensures a == b
  {
  }

  /** Wrapping commutes with reordering. */
  lemma WrapPermutation(xs: seq<string>, ys: seq<string>)
    requires multiset(xs) == multiset(ys)
    ensures multiset(Wrap(xs)) == multiset(Wrap(ys))
  {
    WrapIsMap(xs);
    WrapIsMap(ys);
    MapPermutation(Parenthesised, xs, ys);
  }

  /** `generate_gc_name`: the collection type alone when the pause has no
      attributes, else the type, " - " and the attributes in parentheses,
      sorted and run together. */
  function GcName(p: GcPause): string {
    if |p.attributes| == 0 then p.gcType
    else p.gcType + " - " + Join(Sort(Wrap(p.attributes)), "")
  }

  /** A pause's name does not depend on the order its attributes were
      logged in. */
  lemma GcNameOrderFree(p: GcPause, q: GcPause)
    requires p.gcType == q.gcType
    requires multiset(p.attributes) == multiset(q.attributes)
    ensures GcName(p) == GcName(q)
  {
    if |p.attributes| > 0 {
      assert |q.attributes| == |multiset(q.attributes)| == |multiset(p.attributes)| > 0;
    }
    WrapPermutation(p.attributes, q.attributes);
    SortOrderFree(Wrap(p.attributes), Wrap(q.attributes));
  }

  /** The name starts with the collection type and, when there are
      attributes, shows every one of them in parentheses. */
  lemma GcNameShowsAttributes(p: GcPause, a: string)
    requires a in p.attributes
    ensures StartsWith(GcName(p), p.gcType + " - ")
    ensures Contains(GcName(p), "(" + a + ")")
  {
    var sorted := Sort(Wrap(p.attributes));
    var k :| 0 <= k < |p.attributes| && p.attributes[k] == a;
    assert "(" + a + ")" in multiset(sorted) by {
      assert Wrap(p.attributes)[k] == "(" + a + ")";
    }
    var j :| 0 <= j < |sorted| && sorted[j] == "(" + a + ")";
    JoinContains(sorted, "", j);
    ContainsRight(p.gcType + " - ", Join(sorted, ""), "(" + a + ")");
    assert (p.gcType + " - " + Join(sorted, ""))[..|p.gcType + " - "|] == p.gcType + " - ";
  }

  /** Two attributes already in order are shown in that order. */
  lemma GcNameTwo(p: GcPause, a: string, b: string)
    requires p.attributes == [a, b]
    requires Below("(" + a + ")", "(" + b + ")")
    ensures GcName(p) == p.gcType + " - " + (("(" + a + ")") + ("(" + b + ")"))
  {
    TwoWrapped(a, b);
  }

  lemma TwoWrapped(a: string, b: string)
    requires Below("(" + a + ")", "(" + b + ")")
    ensures Join(Sort(Wrap([a, b])), "") == ("(" + a + ")") + ("(" + b + ")")
  {
    var wa, wb := "(" + a + ")", "(" + b + ")";
    var w := Wrap([a, b]);
    assert w == [wa, wb];
    SortSorted(w);
    JoinTwo(wa, wb);
  }

  lemma JoinTwo(x: string, y: string)
    ensures Join([x, y], "") == x + y
  {
    assert [x, y][1..] == [y];
    assert x + "" + y == x + y;
  }

  /** The literal facts the example needs: the two wrapped attributes are
      in order, and the pieces spell the expected name. */
  lemma ExampleOrder()
    ensures Below("(to-space exhausted)", "(young)")
  {
    assert Below("to-space exhausted)", "young)");
  }

  lemma ExampleSpelling()
    ensures "G1 Humongous Allocation" + " - " + (("(" + "to-space exhausted" + ")") + ("(" + "young" + ")"))
      == "G1 Humongous Allocation - (to-space exhausted)(young)"
  {
  }

  /** The name of a humongous-allocation pause that exhausted to-space,
      whichever order its two attributes came in. */
  lemma GcNameExample(p: GcPause, q: GcPause)
    requires p.gcType == q.gcType == "G1 Humongous Allocation"
    requires p.attributes == ["to-space exhausted", "young"]
    requires q.attributes == ["young", "to-space exhausted"]
    ensures GcName(p) == "G1 Humongous Allocation - (to-space exhausted)(young)"
    ensures GcName(q) == GcName(p)
  {
    ExampleOrder();
    ExampleSpelling();
    GcNameTwo(p, "to-space exhausted", "young");
    assert multiset(q.attributes) == multiset(p.attributes);
    GcNameOrderFree(p, q);
  }

  /** A pause without attributes is named by its type alone. */
  lemma GcNameBare(p: GcPause)
    requires |p.attributes| == 0
    ensures GcName(p) == p.gcType
  {
  }


  // ---------------------------------------------------------------------
  // The summary table
  // ---------------------------------------------------------------------

  /** A pause as the table sees it: its name and its duration. */
  datatype Timed = Timed(name: string, seconds: real)

  /** Each pause keyed by its name, in log order. */
  function Keyed(ps: seq<GcPause>): (r: seq<Timed>)
    ensures |r| == |ps|
    ensures forall i :: 0 <= i < |ps| ==> r[i] == Timed(GcName(ps[i]), ps[i].pauseSeconds)
  {
    seq(|ps|, i requires 0 <= i < |ps| => Timed(GcName(ps[i]), ps[i].pauseSeconds))
  }

  /** `GCSummary` without its latency histogram. */
  datatype Summary = Summary(count: nat, total: real, longest: real, shortest: real)

  /** One pause folded into the table: an existing summary takes the pause
      by strict comparisons, a new name starts a summary of one. */
  function AddPause(table: map<string, Summary>, t: Timed): (r: map<string, Summary>)
    ensures r.Keys == table.Keys + {t.name}
    ensures forall n :: n in table && n != t.name ==> r[n] == table[n]
  {
    var s := t.seconds;
    if t.name in table then
      var prior := table[t.name];
      table[t.name := Summary(
        prior.count + 1,
        prior.total + s,
        if s > prior.longest then s else prior.longest,
        if s < prior.shortest then s else prior.shortest)]
    else
      table[t.name := Summary(1, s, s, s)]
  }

  /** The map the loop builds, entry by entry. */
  function Group(ts: seq<Timed>): map<string, Summary>
    decreases |ts|
  {
    if |ts| == 0 then map[] else AddPause(Group(ts[..|ts| - 1]), Last(ts))
  }

  /** The hash map `generate_pause_table` builds. */
  function PauseTable(ps: seq<GcPause>): map<string, Summary> {
    Group(Keyed(ps))
  }

  /** The names the entries carry. */
  ghost function Names(ts: seq<Timed>): set<string> {
    set i | 0 <= i < |ts| :: ts[i].name
  }

  /** The durations of the entries with a given name, in log order. */
  function Durations(ts: seq<Timed>, name: string): seq<real>
    decreases |ts|
  {
    if |ts| == 0 then []
    else Durations(ts[..|ts| - 1], name) + (if Last(ts).name == name then [Last(ts).seconds] else [])
  }

  /** Every entry of the name contributes its duration. */
  lemma {:induction false} DurationsHas(ts: seq<Timed>, i: nat)
    requires i < |ts|
    ensures ts[i].seconds in Durations(ts, ts[i].name)
    decreases |ts|
  {
    if i < |ts| - 1 {
      var pre := ts[..|ts| - 1];
      assert pre[i] == ts[i];
      DurationsHas(pre, i);
    }
  }

  /** A name no entry carries has no durations. */
  lemma {:induction false} DurationsEmpty(ts: seq<Timed>, name: string)
    requires name !in Names(ts)
    ensures Durations(ts, name) == []
    decreases |ts|
  {
    if |ts| > 0 {
      var pre := ts[..|ts| - 1];
      assert name !in Names(pre) by {
        assert forall i :: 0 <= i < |pre| ==> pre[i] == ts[i];
      }
      DurationsEmpty(pre, name);
      assert ts[|ts| - 1].name in Names(ts);
    }
  }

  lemma NamesSnoc(ts: seq<Timed>)
    requires |ts| > 0
    ensures Names(ts) == Names(ts[..|ts| - 1]) + {Last(ts).name}
  {
    var pre := ts[..|ts| - 1];
    assert forall i :: 0 <= i < |pre| ==> pre[i] == ts[i];
    assert ts[|ts| - 1].name in Names(ts);
  }

  function Sum(xs: seq<real>): real
    decreases |xs|
  {
    if |xs| == 0 then 0.0 else Sum(xs[..|xs| - 1]) + Last(xs)
  }

  /** The largest element. */
  function Longest(xs: seq<real>): (r: real)
    requires |xs| > 0
    decreases |xs|
    ensures r in xs
    ensures forall x :: x in xs ==> x <= r
  {
    if |xs| == 1 then xs[0]
    else
      var pre := xs[..|xs| - 1];
      var m := Longest(pre);
      assert forall x :: x in xs <==> x in pre || x == Last(xs) by {
        assert xs == pre + [Last(xs)];
      }
      if Last(xs) > m then Last(xs) else m
  }

  /** The smallest element. */
  function Shortest(xs: seq<real>): (r: real)
    requires |xs| > 0
    decreases |xs|
    ensures r in xs
    ensures forall x :: x in xs ==> r <= x
  {
    if |xs| == 1 then xs[0]
    else
      var pre := xs[..|xs| - 1];
      var m := Shortest(pre);
      assert forall x :: x in xs <==> x in pre || x == Last(xs) by {
        assert xs == pre + [Last(xs)];
      }
      if Last(xs) < m then Last(xs) else m
  }

  /** The summary the table should hold for a name: how many entries carry
      it, their total, the longest and the shortest. */
  predicate Summarises(ts: seq<Timed>, name: string, s: Summary) {
    var d := Durations(ts, name);
    && |d| > 0
    && s == Summary(|d|, Sum(d), Longest(d), Shortest(d))
  }

  /** One more duration extends the reference summary as the fold does. */
  lemma SummaryStep(d: seq<real>, s: real)
    requires |d| > 0
    ensures Sum(d + [s]) == Sum(d) + s
    ensures Longest(d + [s]) == if s > Longest(d) then s else Longest(d)
    ensures Shortest(d + [s]) == if s < Shortest(d) then s else Shortest(d)
  {
    assert (d + [s])[..|d|] == d;
  }

  /** The step of the fold for the name of the newest entry. */
  lemma SummarisesLast(ts: seq<Timed>)
    requires |ts| > 0
    requires var pre := ts[..|ts| - 1];
      && Group(pre).Keys == Names(pre)
      && (Last(ts).name in Group(pre) ==> Summarises(pre, Last(ts).name, Group(pre)[Last(ts).name]))
    ensures Summarises(ts, Last(ts).name, Group(ts)[Last(ts).name])
  {
    var pre := ts[..|ts| - 1];
    var t := Last(ts);
    var d := Durations(pre, t.name);
    assert Durations(ts, t.name) == d + [t.seconds];
    if t.name in Group(pre) {
      SummaryStep(d, t.seconds);
    } else {
      SummarisesFirst(ts);
    }
  }

  /** A name seen for the first time starts a summary of one. */
  lemma SummarisesFirst(ts: seq<Timed>)
    requires |ts| > 0
    requires var pre := ts[..|ts| - 1];
      Group(pre).Keys == Names(pre) && Last(ts).name !in Group(pre)
    ensures Summarises(ts, Last(ts).name, Group(ts)[Last(ts).name])
  {
    var pre := ts[..|ts| - 1];
    var t := Last(ts);
    DurationsEmpty(pre, t.name);
    assert Durations(ts, t.name) == [] + [t.seconds];
    assert Group(ts)[t.name] == Summary(1, t.seconds, t.seconds, t.seconds);
    assert [] + [t.seconds] == [t.seconds];
    assert Sum([t.seconds]) == t.seconds by {
      assert [t.seconds][..0] == [];
    }
  }

  /** The step of the fold for every other name. */
  lemma SummarisesOther(ts: seq<Timed>, n: string)
    requires |ts| > 0 && n != Last(ts).name
    requires n in Group(ts[..|ts| - 1])
    requires Summarises(ts[..|ts| - 1], n, Group(ts[..|ts| - 1])[n])
    ensures n in Group(ts) && Summarises(ts, n, Group(ts)[n])
  {
    var pre := ts[..|ts| - 1];
    var d := Durations(pre, n);
    assert Durations(ts, n) == d by {
      assert d + [] == d;
    }
    assert Group(ts)[n] == Group(pre)[n];
  }

  /** The map holds one summary per distinct name, and each summary counts,
      totals and bounds exactly the entries of that name. */
  lemma {:induction false} GroupSummarises(ts: seq<Timed>)
    ensures Group(ts).Keys == Names(ts)
    ensures forall n :: n in Group(ts) ==> Summarises(ts, n, Group(ts)[n])
    decreases |ts|
  {
    if |ts| > 0 {
      var pre := ts[..|ts| - 1];
      GroupSummarises(pre);
      NamesSnoc(ts);
      forall n | n in Group(ts)
        ensures Summarises(ts, n, Group(ts)[n])
      {
        if n == Last(ts).name {
          SummarisesLast(ts);
        } else {
          SummarisesOther(ts, n);
        }
      }
    }
  }

  /** The table has a summary for exactly the names the pauses carry, and
      each counts, totals and bounds the pauses of its name. */
  lemma PauseTableSummarises(ps: seq<GcPause>)
    ensures forall n :: n in PauseTable(ps) <==> exists i :: 0 <= i < |ps| && GcName(ps[i]) == n
    ensures forall n :: n in PauseTable(ps) ==> Summarises(Keyed(ps), n, PauseTable(ps)[n])
  {
    GroupSummarises(Keyed(ps));
    forall n
      ensures n in Names(Keyed(ps)) <==> exists i :: 0 <= i < |ps| && GcName(ps[i]) == n
    {
      if n in Names(Keyed(ps)) {
        var i :| 0 <= i < |ps| && Keyed(ps)[i].name == n;
        assert GcName(ps[i]) == n;
      }
      if exists i :: 0 <= i < |ps| && GcName(ps[i]) == n {
        var i :| 0 <= i < |ps| && GcName(ps[i]) == n;
        assert Keyed(ps)[i].name == n;
      }
    }
  }

  /** Every pause lies between its name's shortest and longest, and the
      shortest is at most the longest. */
  lemma SummaryBounds(ps: seq<GcPause>, i: nat)
    requires i < |ps|
    ensures GcName(ps[i]) in PauseTable(ps)
    ensures var s := PauseTable(ps)[GcName(ps[i])];
      && 1 <= s.count
      && s.shortest <= ps[i].pauseSeconds <= s.longest
      && s.shortest <= s.longest
  {
    var ts := Keyed(ps);
    GroupSummarises(ts);
    assert ts[i].name in Names(ts);
    DurationsHas(ts, i);
  }

  /** Two entries of one name make one summary of two. */
  lemma GroupPair(a: Timed, b: Timed)
    requires a.name == b.name
    ensures Group([a, b]) == map[a.name := Summary(
      2,
      a.seconds + b.seconds,
      if b.seconds > a.seconds then b.seconds else a.seconds,
      if b.seconds < a.seconds then b.seconds else a.seconds)]
  {
    assert [a][..0] == [];
    assert Group([a]) == map[a.name := Summary(1, a.seconds, a.seconds, a.seconds)];
    assert [a, b][..1] == [a];
    assert Group([a, b]) == AddPause(Group([a]), b);
  }

  /** Two pauses of one type whose attributes differ only in order land in
      one summary of two, as the two "G1 Evacuation Pause" pauses logged
      with "young" and "to-space exhausted" in either order do. */
  lemma PermutedAttributesShareSummary(p: GcPause, q: GcPause)
    requires p.gcType == q.gcType
    requires multiset(p.attributes) == multiset(q.attributes)
    ensures PauseTable([p, q]) == map[GcName(p) := Summary(
      2,
      p.pauseSeconds + q.pauseSeconds,
      if q.pauseSeconds > p.pauseSeconds then q.pauseSeconds else p.pauseSeconds,
      if q.pauseSeconds < p.pauseSeconds then q.pauseSeconds else p.pauseSeconds)]
  {
    GcNameOrderFree(p, q);
    var ts := Keyed([p, q]);
    assert ts == [Timed(GcName(p), p.pauseSeconds), Timed(GcName(q), q.pauseSeconds)];
    GroupPair(ts[0], ts[1]);
  }

  // ---------------------------------------------------------------------
  // The rows
  // ---------------------------------------------------------------------

  /** A table row without the 50th and 99th percentile columns. */
  datatype SummaryRow = SummaryRow(name: string, summary: Summary)

  /** The names in order of first appearance. */
  function DistinctNames(ts: seq<Timed>): (r: seq<string>)
    decreases |ts|
    ensures Distinct(r)
    ensures forall n :: n in r <==> n in Names(ts)
  {
    if |ts| == 0 then []
    else
      var prev := DistinctNames(ts[..|ts| - 1]);
      NamesSnoc(ts);
      if Last(ts).name in prev then prev else prev + [Last(ts).name]
  }

  /** The row order does not depend on how the table is enumerated: every
      repeat-free listing of the names sorts to the same sequence, so the
      hash map's iteration order is invisible. */
  lemma EnumerationOrderFree(ts: seq<Timed>, names: seq<string>)
    requires Distinct(names)
    requires forall n :: n in names <==> n in Names(ts)
    ensures Sort(names) == Sort(DistinctNames(ts))
  {
    DistinctSameElements(names, DistinctNames(ts));
    SortOrderFree(names, DistinctNames(ts));
  }

  /** The sorted names, each with its summary. */
  function Rows(ts: seq<Timed>): seq<SummaryRow> {
    var names := Sort(DistinctNames(ts));
    var table := Group(ts);
    seq(|names|, i requires 0 <= i < |names| =>
      SummaryRow(names[i], if names[i] in table then table[names[i]] else Summary(0, 0.0, 0.0, 0.0)))
  }

  /** The sorted names are exactly the names, each once. */
  lemma SortedNames(ts: seq<Timed>)
    ensures Distinct(Sort(DistinctNames(ts)))
    ensures forall n :: n in Sort(DistinctNames(ts)) <==> n in Names(ts)
  {
    SortDistinct(DistinctNames(ts));
    forall n
      ensures n in Sort(DistinctNames(ts)) <==> n in Names(ts)
    {
      assert n in Sort(DistinctNames(ts)) <==> n in multiset(DistinctNames(ts));
    }
  }

  /** The rows are strictly ascending by name. */
  lemma RowsAscending(ts: seq<Timed>)
    ensures var r := Rows(ts);
      forall i, j :: 0 <= i < j < |r| ==> r[i].name != r[j].name && Below(r[i].name, r[j].name)
  {
    SortedNames(ts);
  }

  /** Every row holds the summary of its name. */
  lemma RowsSummarise(ts: seq<Timed>)
    ensures var r := Rows(ts);
      forall i :: 0 <= i < |r| ==> r[i].name in Names(ts) && Summarises(ts, r[i].name, r[i].summary)
  {
    SortedNames(ts);
    GroupSummarises(ts);
  }

  /** Every name has a row. */
  lemma RowsComplete(ts: seq<Timed>)
    ensures var r := Rows(ts);
      forall n :: n in Names(ts) ==> exists i :: 0 <= i < |r| && r[i].name == n
  {
    var names := Sort(DistinctNames(ts));
    var r := Rows(ts);
    SortedNames(ts);
    forall n | n in Names(ts)
      ensures exists i :: 0 <= i < |r| && r[i].name == n
    {
      var i :| 0 <= i < |names| && names[i] == n;
      assert r[i].name == n;
    }
  }

  /** `generate_pause_table` before rendering. */
  function PauseRows(ps: seq<GcPause>): seq<SummaryRow> {
    Rows(Keyed(ps))
  }

  // ---------------------------------------------------------------------
  // The longest pause
  // ---------------------------------------------------------------------

  /** `i` is the first of the longest pauses. */
  ghost predicate FirstLongest(ps: seq<GcPause>, i: nat) {
    && i < |ps|
    && (forall j :: 0 <= j < i ==> ps[j].pauseSeconds < ps[i].pauseSeconds)
    && (forall j :: 0 <= j < |ps| ==> ps[j].pauseSeconds <= ps[i].pauseSeconds)
  }

  /** At most one pause is the first of the longest. */
  lemma FirstLongestUnique(ps: seq<GcPause>, i: nat, k: nat)
    requires FirstLongest(ps, i) && FirstLongest(ps, k)
    ensures i == k
  {
    var a, b := ps[i].pauseSeconds, ps[k].pauseSeconds;
    assert a <= b && b <= a;
    assert i < k ==> a < b;
    assert k < i ==> b < a;
  }

  /** The loop of `show_max_pause_times`: the running maximum starts at
      zero and moves only on a strictly longer pause, so it lands on the
      first of the longest pauses, and on none when no pause is longer
      than zero. */
  function MaxPauseIndex(ps: seq<GcPause>): (r: Option<nat>)
    decreases |ps|
    ensures r.None? <==> forall j :: 0 <= j < |ps| ==> ps[j].pauseSeconds <= 0.0
    ensures r.Some? ==> FirstLongest(ps, r.value) && ps[r.value].pauseSeconds > 0.0
  {
    if |ps| == 0 then None
    else
      var pre := ps[..|ps| - 1];
      var prev := MaxPauseIndex(pre);
      var best := if prev.None? then 0.0 else ps[prev.value].pauseSeconds;
      assert forall j :: 0 <= j < |pre| ==> pre[j] == ps[j];
      if Last(ps).pauseSeconds > best then Some(|ps| - 1) else prev
  }

  /** What `show_max_pause_times` reports: "No Pauses", or the longest
      pause's timestamp in milliseconds, its duration in human units and
      its type. */
  datatype MaxPauseReport =
    | NoPauses
    | LongestPause(timestampMillis: I64, duration: DurationAmount, gcType: string)

  /** `show_max_pause_times` before formatting.  The timestamp is the epoch
      times 1000 in `i64`, which aborts on overflow; the duration is the
      pause in milliseconds cast to `i64`, which truncates and saturates. */
  function ShowMaxPauseTimes(ps: seq<GcPause>): (r: Result<MaxPauseReport>)
    ensures r == Ok(NoPauses) <==> forall j :: 0 <= j < |ps| ==> ps[j].pauseSeconds <= 0.0
    ensures forall i: nat | FirstLongest(ps, i) && ps[i].pauseSeconds > 0.0 ::
      && (r.Panic? <==> !(I64_MIN <= ps[i].epoch * 1000 <= I64_MAX))
      && (r.Ok? ==> ReportsPause(r.value, ps[i]))
  {
    match MaxPauseIndex(ps)
    case None => Ok(NoPauses)
    case Some(m) =>
      var p := ps[m];
      assert forall i: nat | FirstLongest(ps, i) :: i == m by {
        forall i: nat | FirstLongest(ps, i)
          ensures i == m
        {
          FirstLongestUnique(ps, i, m);
        }
      }
      var stamp := p.epoch * 1000;
      if !(I64_MIN <= stamp <= I64_MAX) then Panic("attempt to multiply with overflow")
      else
        var millis := CastReal(p.pauseSeconds * 1000.0, I64_MIN, I64_MAX);
        Ok(LongestPause(stamp, HumanDuration(millis), p.gcType))
  }

  /** The report shows the pause: its timestamp in milliseconds, its type,
      and its duration to within a millisecond unless it is too long for
      an `i64` count of milliseconds. */
  ghost predicate ReportsPause(report: MaxPauseReport, p: GcPause) {
    && report.LongestPause?
    && report.timestampMillis == p.epoch * 1000
    && report.gcType == p.gcType
    && (p.pauseSeconds * 1000.0 <= I64_MAX as real ==>
          AbsReal(Millis(report.duration) - p.pauseSeconds * 1000.0) < 1.0)
  }
}

=== FILE: common.dfy ===
/** Failure-compatible wrappers shared by every module of the model.

    `Option` models Rust's `Option`; `Result` models an operation that either
    returns a value or aborts the program.  The log analyser never recovers from
    an `unwrap`, an `expect`, an out-of-range index or an arithmetic overflow, so
    the failure case is called `Panic` and carries the message the program would
    print.
 */
module Common {

  datatype Option<+T> = None | Some(value: T) {

    /** The wrapped value, or `default` when there is none (Rust's `unwrap_or`). */
    function GetOr(default: T): T {
      match this
      case Some(v) => v
      case None => default
    }
  }

  datatype Result<+T> = Ok(value: T) | Panic(reason: string) {

    predicate IsFailure() {
      Panic?
    }

    function PropagateFailure<U>(): Result<U>
      requires Panic?
    {
      Panic(reason)
    }

    function Extract(): T
      requires Ok?
    {
      value
    }
  }

  /** Bounds of the fixed-width integer types the Rust program uses. */
  const U32_MAX: int := 0x1_0000_0000 - 1
  const U64_MAX: int := 0x1_0000_0000_0000_0000 - 1
  const I32_MIN: int := -0x8000_0000
  const I32_MAX: int := 0x8000_0000 - 1
  const I64_MIN: int := -0x8000_0000_0000_0000
  const I64_MAX: int := 0x8000_0000_0000_0000 - 1
  const I128_MIN: int := -0x8000_0000_0000_0000_0000_0000_0000_0000
  const I128_MAX: int := 0x8000_0000_0000_0000_0000_0000_0000_0000 - 1

  type U64 = x: int | 0 <= x <= U64_MAX
  type I64 = x: int | I64_MIN <= x <= I64_MAX
  type I128 = x: int | I128_MIN <= x <= I128_MAX

  function AbsReal(x: real): real {
    if x < 0.0 then -x else x
  }

  /** Rust's integer `/` by a positive divisor, which rounds the quotient
      toward zero rather than down. */
  function TruncDiv(a: int, b: int): (q: int)
    requires b > 0
    ensures a >= 0 ==> 0 <= q * b <= a < q * b + b
    ensures a < 0 ==> q * b - b < a <= q * b <= 0
  {
    var m := if a >= 0 then a else -a;
    var d := m / b;
    assert m == d * b + m % b && 0 <= m % b < b;
    assert 0 <= d * b by {
      assert 0 <= d;
    }
    if a >= 0 then d
    else
      assert (-d) * b == -(d * b);
      -d
  }

  /** Rust's `as` cast from a float to an integer type with bounds `lo..=hi`:
      the fraction is dropped toward zero and out-of-range values saturate. */
  function CastReal(x: real, lo: int, hi: int): (n: int)
    requires lo <= 0 <= hi
    ensures lo <= n <= hi
    ensures x >= 0.0 ==> 0 <= n && n as real <= x
    ensures x <= 0.0 ==> n <= 0 && x <= n as real
    ensures lo as real <= x <= hi as real ==> AbsReal(x - n as real) < 1.0
  {
    var t := if x >= 0.0 then x.Floor else -((-x).Floor);
    if t < lo then lo else if t > hi then hi else t
  }
}

=== FILE: convert.dfy ===
/** Byte-count conversions used when reading heap and region sizes from the
    JVM flags (src/glog/convert.rs).  `convert_bytes_to_mb` divides in `f32`; the model
    divides exactly.
 */
module Convert {
  import opened Common

  const MIB: int := 1024 * 1024
  const GIB: int := 1024 * 1024 * 1024

  /** Mebibytes in `b` bytes. */
  function BytesToMb(b: U64): (r: real)
    ensures r * MIB as real == b as real
    ensures r >= 0.0
    ensures r == 0.0 <==> b == 0
  {
    b as real / MIB as real
  }

  /** Gibibytes in `b` bytes. */
  function BytesToGb(b: U64): (r: real)
    ensures r * GIB as real == b as real
    ensures r >= 0.0
    ensures r == 0.0 <==> b == 0
  {
    b as real / GIB as real
  }

  /** The two units differ by exactly a factor of 1024. */
  lemma GbIsMbOver1024(b: U64)
    ensures BytesToGb(b) * 1024.0 == BytesToMb(b)
  {
  }

  lemma ConvertExamples()
    ensures BytesToGb(1073741824) == 1.0
    ensures AbsReal(BytesToMb(104857) - 0.1) <= 0.01
    ensures BytesToMb(0) == 0.0 && BytesToGb(0) == 0.0
  {
  }
}

=== FILE: exec.dfy ===
/** The line loop of `exec` (src/glog/exec.rs): header lines are read once
    each, records whose brackets do not balance on their first line are
    gathered into a buffer until `is_log_finished` says they are complete,
    and every other line that names a collection is parsed on its own.
 */
module Exec {
  import opened Common
  import opened Strings
  import opened Pauses
  import opened Flags
  import opened JvmStats

  const COMMAND_LINE: string := "CommandLine flags: "
  const MEMORY: string := "Memory: "
  const OPENJDK: string := "OpenJDK "
  const JAVA: string := "Java"

  /** The collection type of the class histogram printed after a full GC,
      which is not a pause of its own. */
  const AFTER_FULL_GC: string := "after full gc"

  // ---------------------------------------------------------------------
  // is_log_finished
  // ---------------------------------------------------------------------

  /** One line of `is_log_finished`: a line whose trimmed text starts with
      "Total" ends a histogram dump and is itself counted; inside a dump a
      line is passed over; a line mentioning "Histogram" starts a dump
      after its own brackets are counted. */
  function CountStep(t: Tally, line: string): Tally {
    var skip := if StartsWith(Trim(line), TOTAL) then false else t.skip;
    if skip then t
    else Tally(t.open + Count(line, '['), t.closed + Count(line, ']'), Contains(line, HISTOGRAM))
  }

  function CountLines(lines: seq<string>, t: Tally): Tally
    decreases |lines|
  {
    if |lines| == 0 then t else CountLines(lines[1..], CountStep(t, lines[0]))
  }

  /** `is_log_finished`: as many '[' as ']' outside histogram dumps. */
  predicate IsLogFinished(buf: string) {
    var t := CountLines(Split(buf, "\n"), Tally(0, 0, false));
    t.open == t.closed
  }

  lemma {:induction false} CountLinesAppend(a: seq<string>, b: seq<string>, t: Tally)
    ensures CountLines(a + b, t) == CountLines(b, CountLines(a, t))
    decreases |a|
  {
    if |a| == 0 {
      assert a + b == b;
    } else {
      assert (a + b)[0] == a[0];
      assert (a + b)[1..] == a[1..] + b;
      CountLinesAppend(a[1..], b, CountStep(t, a[0]));
    }
  }

  /** Without histogram dumps every bracket is counted. */
  lemma {:induction false} CountLinesPlain(lines: seq<string>, t: Tally)
    requires !t.skip
    requires forall k :: 0 <= k < |lines| ==> !Contains(lines[k], HISTOGRAM)
    ensures CountLines(lines, t) == Tally(t.open + CountAll(lines, '['), t.closed + CountAll(lines, ']'), false)
    decreases |lines|
  {
    if |lines| > 0 {
      CountLinesPlain(lines[1..], CountStep(t, lines[0]));
    }
  }

  /** A line holding "Histogram" makes the buffer hold it too. */
  lemma LinesOfHistogramFree(buf: string)
    requires !Contains(buf, HISTOGRAM)
    ensures forall k :: 0 <= k < |Split(buf, "\n")| ==> !Contains(Split(buf, "\n")[k], HISTOGRAM)
  {
    var lines := Split(buf, "\n");
    JoinSplit(buf, "\n");
    forall k | 0 <= k < |lines|
      ensures !Contains(lines[k], HISTOGRAM)
    {
      if Contains(lines[k], HISTOGRAM) {
        JoinContains(lines, "\n", k);
        ContainsTrans(buf, lines[k], HISTOGRAM);
      }
    }
  }

  /** Without a class histogram a buffer is finished exactly when it holds
      as many '[' as ']'. */
  lemma IsLogFinishedPlain(buf: string)
    requires !Contains(buf, HISTOGRAM)
    ensures IsLogFinished(buf) <==> Count(buf, '[') == Count(buf, ']')
  {
    var lines := Split(buf, "\n");
    LinesOfHistogramFree(buf);
    CountLinesPlain(lines, Tally(0, 0, false));
    JoinSplit(buf, "\n");
    CountJoin(lines, '[');
    CountJoin(lines, ']');
  }

  /** Lines that close what they open and do not mention "Histogram". */
  predicate BalancedPlain(lines: seq<string>) {
    forall k :: 0 <= k < |lines| ==> Count(lines[k], '[') == Count(lines[k], ']') && !Contains(lines[k], HISTOGRAM)
  }

  lemma {:induction false} BalancedPlainCounts(lines: seq<string>)
    requires BalancedPlain(lines)
    ensures CountAll(lines, '[') == CountAll(lines, ']')
    decreases |lines|
  {
    if |lines| > 0 {
      BalancedPlainCounts(lines[1..]);
    }
  }

  /** Inside a dump nothing is counted up to the line that ends it. */
  lemma {:induction false} CountSkipsHistogram(hist: seq<string>, t: Tally)
    requires t.skip
    requires forall k :: 0 <= k < |hist| ==> !StartsWith(Trim(hist[k]), TOTAL)
    ensures CountLines(hist, t) == t
    decreases |hist|
  {
    if |hist| > 0 {
      CountSkipsHistogram(hist[1..], t);
    }
  }

  /** No line holds a line break, as after splitting a buffer. */
  predicate NoNewline(lines: seq<string>) {
    forall k :: 0 <= k < |lines| ==> '\n' !in lines[k]
  }

  lemma NoNewlineAppend(a: seq<string>, b: seq<string>)
    requires NoNewline(a) && NoNewline(b)
    ensures NoNewline(a + b)
  {
    forall k | 0 <= k < |a + b|
      ensures '\n' !in (a + b)[k]
    {
      if k >= |a| {
        assert (a + b)[k] == b[k - |a|];
      }
    }
  }

  /** A buffer joined from lines is finished when the count over those
      lines balances. */
  lemma FinishedOfLines(lines: seq<string>)
    requires |lines| > 0 && NoNewline(lines)
    ensures IsLogFinished(Join(lines, "\n")) <==> Even(CountLines(lines, Tally(0, 0, false)))
  {
    assert "\n" == ['\n'];
    SplitJoin(lines, '\n');
  }

  predicate Even(t: Tally) {
    t.open == t.closed
  }

  lemma CountOne(t: Tally, line: string)
    ensures CountLines([line], t) == CountStep(t, line)
  {
    assert [line][1..] == [];
  }

  /** The line that starts a class histogram is counted and starts the
      dump. */
  lemma DumpStarts(opener: string)
    requires Contains(opener, HISTOGRAM)
    ensures CountLines([opener], Tally(0, 0, false)) == Tally(Count(opener, '['), Count(opener, ']'), true)
  {
    CountOne(Tally(0, 0, false), opener);
  }

  /** The "Total" line ends the dump and is counted, and the line after it
      is counted too. */
  lemma DumpEnds(total: string, mid: string, t: Tally)
    requires t.skip && StartsWith(Trim(total), TOTAL)
    requires Count(total, '[') == Count(total, ']') && !Contains(total, HISTOGRAM)
    requires Count(mid, '[') == 0 && Count(mid, ']') == 1 && !Contains(mid, HISTOGRAM)
    ensures CountLines([total, mid], t)
      == Tally(t.open + Count(total, '['), t.closed + Count(total, '[') + 1, false)
  {
    var t2 := CountStep(t, total);
    assert t2 == Tally(t.open + Count(total, '['), t.closed + Count(total, ']'), false);
    assert [total, mid][1..] == [mid];
    CountOne(t2, mid);
  }

  /** A line that closes one bracket, counted outside a dump. */
  lemma ClosingBracket(closer: string, t: Tally)
    requires !t.skip && Count(closer, '[') == 0 && Count(closer, ']') == 1
    ensures CountLines([closer], t) == Tally(t.open, t.closed + 1, Contains(closer, HISTOGRAM))
  {
    CountOne(t, closer);
  }

  /** The shape of the full collection with a class histogram: the first
      line opens two brackets and starts the dump, the dump runs to a
      "Total" line, the histogram's own ", <secs> secs]" closes one bracket
      and the record's closing line the other.  Before the closing line the
      buffer is unfinished, with it it is finished, whatever balanced lines
      follow. */
  lemma HistogramRecordFinishes(
    opener: string, hist: seq<string>, total: string, mid: string, closer: string, tail: seq<string>)
    requires Count(opener, '[') == Count(opener, ']') + 2 && Contains(opener, HISTOGRAM)
    requires forall k :: 0 <= k < |hist| ==> !StartsWith(Trim(hist[k]), TOTAL)
    requires StartsWith(Trim(total), TOTAL) && Count(total, '[') == Count(total, ']') && !Contains(total, HISTOGRAM)
    requires Count(mid, '[') == 0 && Count(mid, ']') == 1 && !Contains(mid, HISTOGRAM)
    requires Count(closer, '[') == 0 && Count(closer, ']') == 1 && !Contains(closer, HISTOGRAM)
    requires BalancedPlain(tail)
    requires NoNewline([opener] + hist + [total, mid, closer]) && NoNewline(tail)
    ensures !IsLogFinished(Join([opener] + hist + [total, mid] + tail, "\n"))
    ensures IsLogFinished(Join([opener] + hist + [total, mid, closer] + tail, "\n"))
  {
    var t0 := Tally(0, 0, false);
    var head := [opener] + hist;
    var t1 := Tally(Count(opener, '['), Count(opener, ']'), true);
    var open := head + [total, mid];
    var full := head + [total, mid, closer];
    var t3 := Tally(t1.open + Count(total, '['), t1.closed + Count(total, '[') + 1, false);
    HistogramHeadCount(opener, hist);
    DumpClosed(head, total, mid, t1);
    ClosedBy(open, closer, t3);
    assert open + [closer] == full;
    assert NoNewline(open) by {
      assert forall k :: 0 <= k < |open| ==> open[k] == full[k];
    }
    TailKeepsParity(open, tail, t3);
    TailKeepsParity(full, tail, Tally(t3.open, t3.closed + 1, false));
  }

  /** After a dump's lines, its "Total" line and the line after it are
      counted. */
  lemma DumpClosed(head: seq<string>, total: string, mid: string, t1: Tally)
    requires CountLines(head, Tally(0, 0, false)) == t1 && t1.skip
    requires StartsWith(Trim(total), TOTAL) && Count(total, '[') == Count(total, ']') && !Contains(total, HISTOGRAM)
    requires Count(mid, '[') == 0 && Count(mid, ']') == 1 && !Contains(mid, HISTOGRAM)
    ensures CountLines(head + [total, mid], Tally(0, 0, false))
      == Tally(t1.open + Count(total, '['), t1.closed + Count(total, '[') + 1, false)
  {
    DumpEnds(total, mid, t1);
    CountChain(head, [total, mid], Tally(0, 0, false), t1, CountLines([total, mid], t1));
  }

  /** A closing line after lines counted outside a dump. */
  lemma ClosedBy(lines: seq<string>, closer: string, t: Tally)
    requires CountLines(lines, Tally(0, 0, false)) == t && !t.skip
    requires Count(closer, '[') == 0 && Count(closer, ']') == 1 && !Contains(closer, HISTOGRAM)
    ensures CountLines(lines + [closer], Tally(0, 0, false)) == Tally(t.open, t.closed + 1, false)
  {
    ClosingBracket(closer, t);
    CountChain(lines, [closer], Tally(0, 0, false), t, Tally(t.open, t.closed + 1, false));
  }

  /** The histogram's first line starts the dump and the dump's lines are
      passed over. */
  lemma HistogramHeadCount(opener: string, hist: seq<string>)
    requires Contains(opener, HISTOGRAM)
    requires forall k :: 0 <= k < |hist| ==> !StartsWith(Trim(hist[k]), TOTAL)
    ensures CountLines([opener] + hist, Tally(0, 0, false)) == Tally(Count(opener, '['), Count(opener, ']'), true)
  {
    var t1 := Tally(Count(opener, '['), Count(opener, ']'), true);
    DumpStarts(opener);
    CountSkipsHistogram(hist, t1);
    CountChain([opener], hist, Tally(0, 0, false), t1, t1);
  }

  /** Counting two runs of lines one after the other. */
  lemma CountChain(a: seq<string>, b: seq<string>, t0: Tally, t1: Tally, t2: Tally)
    requires CountLines(a, t0) == t1 && CountLines(b, t1) == t2
    ensures CountLines(a + b, t0) == t2
  {
    CountLinesAppend(a, b, t0);
  }

  /** Balanced lines after a prefix leave the finished-ness of the prefix
      unchanged. */
  lemma TailKeepsParity(lines: seq<string>, tail: seq<string>, t: Tally)
    requires |lines| > 0 && CountLines(lines, Tally(0, 0, false)) == t && !t.skip
    requires BalancedPlain(tail) && NoNewline(lines) && NoNewline(tail)
    ensures IsLogFinished(Join(lines + tail, "\n")) <==> Even(t)
  {
    TailCount(lines, tail, t);
    NoNewlineAppend(lines, tail);
    FinishedOfLines(lines + tail);
  }

  /** Balanced lines add as many '[' as ']'. */
  lemma TailCount(lines: seq<string>, tail: seq<string>, t: Tally)
    requires CountLines(lines, Tally(0, 0, false)) == t && !t.skip
    requires BalancedPlain(tail)
    ensures Even(CountLines(lines + tail, Tally(0, 0, false))) <==> Even(t)
  {
    var n := CountAll(tail, '[');
    BalancedPlainCounts(tail);
    CountLinesPlain(tail, t);
    CountChain(lines, tail, Tally(0, 0, false), t, Tally(t.open + n, t.closed + n, false));
  }

  // ---------------------------------------------------------------------
  // The line loop
  // ---------------------------------------------------------------------

  /** The variables the loop of `exec` carries from line to line. */
  datatype Reader = Reader(
    multiline: bool,
    buffer: string,
    parsedCmd: bool,
    parsedMemory: bool,
    parsedJdk: bool,
    flags: GcFlags,
    memory: MemoryStats,
    jdk: string,
    pauses: seq<GcPause>)

  /** The loop variables before the first line. */
  const Fresh: Reader := Reader(false, "", false, false, false, NoFlags, NoMemoryStats, "", [])

  /** One iteration of the loop.  The header tests come first, then the
      multi-line buffer, then a line whose brackets do not balance, then a
      single-line record.  Parsing errors abort the whole run. */
  function Feed(env: Parsers, r: Reader, line: string): Result<Reader> {
    if !r.parsedCmd && StartsWith(line, COMMAND_LINE) then
      var flags :- ParseGcFlags(line, r.memory.bytes);
      Ok(r.(parsedCmd := true, flags := flags))
    else if !r.parsedMemory && StartsWith(line, MEMORY) then
      var memory :- ParseMemory(line);
      Ok(r.(parsedMemory := true, memory := memory))
    else if !r.parsedJdk && (StartsWith(line, OPENJDK) || StartsWith(line, JAVA)) then
      Ok(r.(parsedJdk := true, jdk := ParseJdkStats(line)))
    else FeedRecord(env, r, line)
  }

  /** The part of the loop that gathers records; it leaves the header
      fields alone. */
  function FeedRecord(env: Parsers, r: Reader, line: string): (res: Result<Reader>)
    ensures res.Ok? ==> res.value.(multiline := r.multiline, buffer := r.buffer, pauses := r.pauses) == r
  {
    if r.multiline then
      var buffer := r.buffer + "\n" + line;
      if ']' in line && IsLogFinished(buffer) then
        var pause :- ParseFullGcPause(env, buffer);
        Ok(r.(multiline := false, buffer := "",
          pauses := if pause.gcType != AFTER_FULL_GC then r.pauses + [pause] else r.pauses))
      else Ok(r.(buffer := buffer))
    else if Count(line, '[') != Count(line, ']') then
      Ok(r.(multiline := true, buffer := r.buffer + line + "\n"))
    else if HasGc(line) then
      Ok(r.(pauses := r.pauses + [ParseGcPause(env, line)]))
    else Ok(r)
  }

  /** The loop over `lines`, from the reader `r`. */
  function FeedAll(env: Parsers, r: Reader, lines: seq<string>): Result<Reader>
    decreases |lines|
  {
    if |lines| == 0 then Ok(r)
    else
      var prev :- FeedAll(env, r, lines[..|lines| - 1]);
      Feed(env, prev, Last(lines))
  }

  /** The loop over the whole log. */
  function Run(env: Parsers, lines: seq<string>): Result<Reader> {
    FeedAll(env, Fresh, lines)
  }

  /** The loop stops at the first line that fails to parse. */
  lemma FeedAllSnoc(env: Parsers, r: Reader, lines: seq<string>, line: string)
    ensures FeedAll(env, r, lines + [line]) == (
      match FeedAll(env, r, lines)
      case Panic(e) => Panic(e)
      case Ok(prev) => Feed(env, prev, line))
  {
    assert (lines + [line])[..|lines|] == lines;
  }

  /** Feeding two stretches of lines is feeding one after the other. */
  lemma {:induction false} FeedAllAppend(env: Parsers, r: Reader, a: seq<string>, b: seq<string>)
    ensures FeedAll(env, r, a + b) == (
      match FeedAll(env, r, a)
      case Panic(e) => Panic(e)
      case Ok(mid) => FeedAll(env, mid, b))
    decreases |b|
  {
    if |b| == 0 {
      assert a + b == a;
    } else {
      var pre := b[..|b| - 1];
      assert a + b == (a + pre) + [Last(b)];
      assert b == pre + [Last(b)];
      FeedAllSnoc(env, r, a + pre, Last(b));
      FeedAllAppend(env, r, a, pre);
      if FeedAll(env, r, a).Ok? {
        FeedAllSnoc(env, FeedAll(env, r, a).value, pre, Last(b));
      }
    }
  }

  /** A run that succeeded succeeded on every line before the last. */
  lemma RunLast(env: Parsers, lines: seq<string>)
    requires |lines| > 0 && Run(env, lines).Ok?
    ensures Run(env, lines[..|lines| - 1]).Ok?
    ensures Run(env, lines) == Feed(env, Run(env, lines[..|lines| - 1]).value, Last(lines))
  {
  }

  // ---------------------------------------------------------------------
  // Header lines
  // ---------------------------------------------------------------------

  /** The three header lines the loop reads once each. */
  datatype Header = CommandLineHeader | MemoryHeader | JdkHeader

  predicate IsHeader(h: Header, line: string) {
    match h
    case CommandLineHeader => StartsWith(line, COMMAND_LINE)
    case MemoryHeader => StartsWith(line, MEMORY)
    case JdkHeader => StartsWith(line, OPENJDK) || StartsWith(line, JAVA)
  }

  predicate Parsed(r: Reader, h: Header) {
    match h
    case CommandLineHeader => r.parsedCmd
    case MemoryHeader => r.parsedMemory
    case JdkHeader => r.parsedJdk
  }

  /** A line the header tests pass over, whatever has been read. */
  predicate NotHeader(line: string) {
    !IsHeader(CommandLineHeader, line) && !IsHeader(MemoryHeader, line) && !IsHeader(JdkHeader, line)
  }

  predicate HasHeader(lines: seq<string>, h: Header) {
    exists j :: 0 <= j < |lines| && IsHeader(h, lines[j])
  }

  lemma HasHeaderSnoc(lines: seq<string>, h: Header)
    requires |lines| > 0
    ensures HasHeader(lines, h) <==> HasHeader(lines[..|lines| - 1], h) || IsHeader(h, Last(lines))
  {
    var pre := lines[..|lines| - 1];
    assert forall j :: 0 <= j < |pre| ==> pre[j] == lines[j];
    if HasHeader(lines, h) {
      var j :| 0 <= j < |lines| && IsHeader(h, lines[j]);
      if j < |pre| {
        assert IsHeader(h, pre[j]);
      }
    }
  }

  lemma HeaderInitials()
    ensures |COMMAND_LINE| > 0 && COMMAND_LINE[0] == 'C'
    ensures |MEMORY| > 0 && MEMORY[0] == 'M'
    ensures |OPENJDK| > 0 && OPENJDK[0] == 'O'
    ensures |JAVA| > 0 && JAVA[0] == 'J'
  {
  }

  /** A line is a header of at most one kind: their first letters differ. */
  lemma HeaderExclusive(line: string)
    ensures !(IsHeader(CommandLineHeader, line) && IsHeader(MemoryHeader, line))
    ensures !(IsHeader(CommandLineHeader, line) && IsHeader(JdkHeader, line))
    ensures !(IsHeader(MemoryHeader, line) && IsHeader(JdkHeader, line))
  {
    HeaderInitials();
    if StartsWith(line, COMMAND_LINE) {
      assert line[0] == 'C';
    }
    if StartsWith(line, MEMORY) {
      assert line[0] == 'M';
    }
  }

  /** A header kind is read exactly when a line of that kind arrives while
      it is still unread; nothing else marks or unmarks it. */
  lemma FeedParsed(env: Parsers, r: Reader, line: string, h: Header)
    requires Feed(env, r, line).Ok?
    ensures Parsed(Feed(env, r, line).value, h) <==> Parsed(r, h) || IsHeader(h, line)
  {
    HeaderExclusive(line);
  }

  /** After the run a header kind is read exactly when the log holds a
      line of that kind. */
  lemma {:induction false} RunParsed(env: Parsers, lines: seq<string>, h: Header)
    requires Run(env, lines).Ok?
    ensures Parsed(Run(env, lines).value, h) <==> HasHeader(lines, h)
    decreases |lines|
  {
    if |lines| > 0 {
      var pre := lines[..|lines| - 1];
      RunLast(env, lines);
      RunParsed(env, pre, h);
      FeedParsed(env, Run(env, pre).value, Last(lines), h);
      HasHeaderSnoc(lines, h);
    }
  }

  /** A header value, once read, is never replaced. */
  lemma FeedKeepsHeaders(env: Parsers, r: Reader, line: string)
    requires Feed(env, r, line).Ok?
    ensures var out := Feed(env, r, line).value;
      && (r.parsedCmd ==> out.parsedCmd && out.flags == r.flags)
      && (r.parsedMemory ==> out.parsedMemory && out.memory == r.memory)
      && (r.parsedJdk ==> out.parsedJdk && out.jdk == r.jdk)
  {
    if !r.parsedCmd && StartsWith(line, COMMAND_LINE) {
    } else if !r.parsedMemory && StartsWith(line, MEMORY) {
    } else if !r.parsedJdk && (StartsWith(line, OPENJDK) || StartsWith(line, JAVA)) {
    } else {
      assert Feed(env, r, line) == FeedRecord(env, r, line);
    }
  }

  lemma {:induction false} FeedAllKeepsHeaders(env: Parsers, r: Reader, lines: seq<string>)
    requires FeedAll(env, r, lines).Ok?
    ensures var out := FeedAll(env, r, lines).value;
      && (r.parsedCmd ==> out.parsedCmd && out.flags == r.flags)
      && (r.parsedMemory ==> out.parsedMemory && out.memory == r.memory)
      && (r.parsedJdk ==> out.parsedJdk && out.jdk == r.jdk)
    decreases |lines|
  {
    if |lines| > 0 {
      var pre := lines[..|lines| - 1];
      assert lines == pre + [Last(lines)];
      FeedAllSnoc(env, r, pre, Last(lines));
      FeedAllKeepsHeaders(env, r, pre);
      FeedKeepsHeaders(env, FeedAll(env, r, pre).value, Last(lines));
    }
  }

  /** The run up to line `i` succeeded when the whole run did, and the
      rest of the run continues from it. */
  lemma RunPrefix(env: Parsers, lines: seq<string>, i: nat)
    requires i <= |lines| && Run(env, lines).Ok?
    ensures Run(env, lines[..i]).Ok?
    ensures Run(env, lines) == FeedAll(env, Run(env, lines[..i]).value, lines[i..])
  {
    assert lines == lines[..i] + lines[i..];
    FeedAllAppend(env, Fresh, lines[..i], lines[i..]);
  }

  /** The first line of a header kind is read with that kind still
      unread. */
  lemma FirstHeaderRead(env: Parsers, lines: seq<string>, i: nat, h: Header)
    requires i < |lines| && IsHeader(h, lines[i])
    requires forall j :: 0 <= j < i ==> !IsHeader(h, lines[j])
    requires Run(env, lines).Ok?
    ensures Run(env, lines[..i]).Ok? && !Parsed(Run(env, lines[..i]).value, h)
    ensures Run(env, lines[..i + 1]).Ok?
    ensures Run(env, lines[..i + 1]) == Feed(env, Run(env, lines[..i]).value, lines[i])
    ensures Run(env, lines) == FeedAll(env, Run(env, lines[..i + 1]).value, lines[i + 1..])
  {
    RunPrefix(env, lines, i + 1);
    assert lines[..i + 1][..i] == lines[..i];
    RunLast(env, lines[..i + 1]);
    RunParsed(env, lines[..i], h);
    assert !HasHeader(lines[..i], h) by {
      assert forall j :: 0 <= j < i ==> lines[..i][j] == lines[j];
    }
  }

  /** The flags are those of the first "CommandLine flags: " line, read
      with the physical memory known when that line arrived. */
  lemma RunFlags(env: Parsers, lines: seq<string>, i: nat)
    requires i < |lines| && StartsWith(lines[i], COMMAND_LINE)
    requires forall j :: 0 <= j < i ==> !StartsWith(lines[j], COMMAND_LINE)
    requires Run(env, lines).Ok?
    ensures Run(env, lines[..i]).Ok?
    ensures var before := Run(env, lines[..i]).value;
      var flags := ParseGcFlags(lines[i], before.memory.bytes);
      flags.Ok? && Run(env, lines).value.flags == flags.value
  {
    FirstHeaderRead(env, lines, i, CommandLineHeader);
    FeedAllKeepsHeaders(env, Run(env, lines[..i + 1]).value, lines[i + 1..]);
  }

  /** The memory statistics are those of the first "Memory: " line. */
  lemma RunMemory(env: Parsers, lines: seq<string>, i: nat)
    requires i < |lines| && StartsWith(lines[i], MEMORY)
    requires forall j :: 0 <= j < i ==> !StartsWith(lines[j], MEMORY)
    requires Run(env, lines).Ok?
    ensures ParseMemory(lines[i]).Ok? && Run(env, lines).value.memory == ParseMemory(lines[i]).value
  {
    FirstHeaderRead(env, lines, i, MemoryHeader);
    HeaderExclusive(lines[i]);
    FeedAllKeepsHeaders(env, Run(env, lines[..i + 1]).value, lines[i + 1..]);
  }

  /** The JDK banner is the first line that starts with "OpenJDK " or
      "Java". */
  lemma RunJdk(env: Parsers, lines: seq<string>, i: nat)
    requires i < |lines| && IsHeader(JdkHeader, lines[i])
    requires forall j :: 0 <= j < i ==> !IsHeader(JdkHeader, lines[j])
    requires Run(env, lines).Ok?
    ensures Run(env, lines).value.jdk == lines[i]
  {
    FirstHeaderRead(env, lines, i, JdkHeader);
    HeaderExclusive(lines[i]);
    FeedAllKeepsHeaders(env, Run(env, lines[..i + 1]).value, lines[i + 1..]);
  }

  /** Only a "Memory: " line sets the memory statistics. */
  lemma FeedKeepsMemory(env: Parsers, r: Reader, line: string)
    requires !StartsWith(line, MEMORY) && Feed(env, r, line).Ok?
    ensures Feed(env, r, line).value.memory == r.memory
  {
  }

  /** Before any "Memory: " line the physical memory is zero. */
  lemma {:induction false} MemoryUnset(env: Parsers, lines: seq<string>)
    requires forall j :: 0 <= j < |lines| ==> !StartsWith(lines[j], MEMORY)
    requires Run(env, lines).Ok?
    ensures Run(env, lines).value.memory == NoMemoryStats
    ensures Run(env, lines).value.memory.bytes == 0
    decreases |lines|
  {
    if |lines| > 0 {
      var pre := lines[..|lines| - 1];
      assert forall j :: 0 <= j < |pre| ==> pre[j] == lines[j];
      RunLast(env, lines);
      MemoryUnset(env, pre);
      FeedKeepsMemory(env, Run(env, pre).value, Last(lines));
    }
  }

  /** A "CommandLine flags: " line read before any "Memory: " line infers
      the heap defaults from a physical memory of zero. */
  lemma FlagsWithoutMemory(env: Parsers, lines: seq<string>, i: nat)
    requires i < |lines| && StartsWith(lines[i], COMMAND_LINE)
    requires forall j :: 0 <= j < i ==> !StartsWith(lines[j], COMMAND_LINE) && !StartsWith(lines[j], MEMORY)
    requires Run(env, lines).Ok?
    ensures ParseGcFlags(lines[i], 0).Ok? && Run(env, lines).value.flags == ParseGcFlags(lines[i], 0).value
  {
    RunFlags(env, lines, i);
    MemoryUnset(env, lines[..i]);
  }

  // ---------------------------------------------------------------------
  // Records
  // ---------------------------------------------------------------------

  /** Outside a record, a line whose brackets balance is a record of its
      own when it names a collection and is passed over otherwise. */
  lemma FeedSingle(env: Parsers, r: Reader, line: string)
    requires !r.multiline && NotHeader(line) && Count(line, '[') == Count(line, ']')
    ensures Feed(env, r, line)
      == Ok(r.(pauses := r.pauses + if HasGc(line) then [ParseGcPause(env, line)] else []))
  {
    assert r.pauses + [] == r.pauses;
  }

  /** Outside a record, a line that leaves brackets open starts one. */
  lemma FeedOpens(env: Parsers, r: Reader, line: string)
    requires !r.multiline && NotHeader(line) && Count(line, '[') != Count(line, ']')
    ensures Feed(env, r, line) == Ok(r.(multiline := true, buffer := r.buffer + line + "\n"))
  {
  }

  /** Inside a record, a line that does not finish it joins the buffer. */
  lemma FeedGathers(env: Parsers, r: Reader, line: string)
    requires r.multiline && NotHeader(line)
    requires ']' in line ==> !IsLogFinished(r.buffer + "\n" + line)
    ensures Feed(env, r, line) == Ok(r.(buffer := r.buffer + "\n" + line))
  {
  }

  /** Inside a record, a line with a ']' that finishes the buffer parses
      it as one full-collection record, keeps the pause unless it is the
      class histogram's, and empties the buffer. */
  lemma FeedCloses(env: Parsers, r: Reader, line: string)
    requires r.multiline && NotHeader(line) && ']' in line && IsLogFinished(r.buffer + "\n" + line)
    ensures var buf := r.buffer + "\n" + line;
      Feed(env, r, line) == (
        match ParseFullGcPause(env, buf)
        case Panic(e) => Panic(e)
        case Ok(p) => Ok(r.(multiline := false, buffer := "",
          pauses := if p.gcType != AFTER_FULL_GC then r.pauses + [p] else r.pauses)))
  {
  }

  /** The pauses of the single-line records among `lines`, in order. */
  function SingleLinePauses(env: Parsers, lines: seq<string>): seq<GcPause>
    decreases |lines|
  {
    if |lines| == 0 then []
    else
      var last := if HasGc(Last(lines)) then [ParseGcPause(env, Last(lines))] else [];
      SingleLinePauses(env, lines[..|lines| - 1]) + last
  }

  /** Outside a multi-line record, lines that are not headers and balance
      their brackets add the pauses of those that name a collection, in
      order, and change nothing else. */
  lemma {:induction false} SingleLines(env: Parsers, r: Reader, lines: seq<string>)
    requires !r.multiline
    requires forall k :: 0 <= k < |lines| ==> NotHeader(lines[k]) && Count(lines[k], '[') == Count(lines[k], ']')
    ensures FeedAll(env, r, lines) == Ok(r.(pauses := r.pauses + SingleLinePauses(env, lines)))
    decreases |lines|
  {
    if |lines| > 0 {
      var pre := lines[..|lines| - 1];
      var line := Last(lines);
      assert lines == pre + [line];
      assert forall k :: 0 <= k < |pre| ==> pre[k] == lines[k];
      var mid := r.(pauses := r.pauses + SingleLinePauses(env, pre));
      assert FeedAll(env, r, lines) == Feed(env, mid, line) by {
        FeedAllSnoc(env, r, pre, line);
        SingleLines(env, r, pre);
      }
      SingleLineStep(env, r, pre, line);
    } else {
      assert r.pauses + [] == r.pauses;
    }
  }

  lemma SingleLineStep(env: Parsers, r: Reader, pre: seq<string>, line: string)
    requires !r.multiline && NotHeader(line) && Count(line, '[') == Count(line, ']')
    ensures Feed(env, r.(pauses := r.pauses + SingleLinePauses(env, pre)), line)
      == Ok(r.(pauses := r.pauses + SingleLinePauses(env, pre + [line])))
  {
    var mid := r.(pauses := r.pauses + SingleLinePauses(env, pre));
    var last := if HasGc(line) then [ParseGcPause(env, line)] else [];
    FeedSingle(env, mid, line);
    assert (pre + [line])[..|pre|] == pre;
    assert SingleLinePauses(env, pre + [line]) == SingleLinePauses(env, pre) + last;
    assert mid.pauses + last == r.pauses + SingleLinePauses(env, pre + [line]);
  }

  /** The first line of a multi-line record: it leaves exactly one bracket
      open and starts no class histogram. */
  predicate RecordOpener(opener: string) {
    '\n' !in opener && Count(opener, '[') == Count(opener, ']') + 1 && !Contains(opener, HISTOGRAM)
  }

  /** The buffer holds the first line, an empty line (the first line is
      stored with a newline and each later one is added after one), and
      the later lines. */
  function BufferLines(opener: string, later: seq<string>): seq<string> {
    [opener, ""] + later
  }

  lemma BufferNoNewline(opener: string, later: seq<string>)
    requires RecordOpener(opener) && NoNewline(later)
    ensures NoNewline(BufferLines(opener, later))
  {
    assert NoNewline([opener, ""]);
    NoNewlineAppend([opener, ""], later);
  }

  /** The count over a record's buffer stays one bracket open. */
  lemma BufferTally(opener: string, later: seq<string>)
    requires RecordOpener(opener) && BalancedPlain(later)
    ensures var n := Count(opener, '[') + CountAll(later, '[');
      CountLines(BufferLines(opener, later), Tally(0, 0, false)) == Tally(n, n - 1, false)
  {
    var t0 := Tally(0, 0, false);
    OpenerAndBlank(opener);
    BalancedLines(later, Tally(Count(opener, '['), Count(opener, ']'), false));
    CountLinesAppend([opener, ""], later, t0);
  }

  /** The first line and the empty line after it. */
  lemma OpenerAndBlank(opener: string)
    requires !Contains(opener, HISTOGRAM)
    ensures CountLines([opener, ""], Tally(0, 0, false)) == Tally(Count(opener, '['), Count(opener, ']'), false)
  {
    var t0 := Tally(0, 0, false);
    var t1 := Tally(Count(opener, '['), Count(opener, ']'), false);
    CountOne(t0, opener);
    BlankLine(t1);
    assert [opener, ""] == [opener] + [""];
    CountLinesAppend([opener], [""], t0);
  }

  lemma BlankLine(t: Tally)
    requires !t.skip
    ensures CountLines([""], t) == t
  {
    CountOne(t, "");
    assert Count("", '[') == 0 && Count("", ']') == 0 && !Contains("", HISTOGRAM);
  }

  /** Balanced lines outside a dump leave the count's balance alone. */
  lemma BalancedLines(lines: seq<string>, t: Tally)
    requires !t.skip && BalancedPlain(lines)
    ensures CountLines(lines, t) == Tally(t.open + CountAll(lines, '['), t.closed + CountAll(lines, '['), false)
  {
    CountLinesPlain(lines, t);
    BalancedPlainCounts(lines);
  }

  /** The buffer of a record still one bracket open is unfinished. */
  lemma OpenBufferUnfinished(opener: string, later: seq<string>)
    requires RecordOpener(opener) && BalancedPlain(later) && NoNewline(later)
    ensures !IsLogFinished(Join(BufferLines(opener, later), "\n"))
  {
    BufferNoNewline(opener, later);
    BufferTally(opener, later);
    FinishedOfLines(BufferLines(opener, later));
  }

  /** The closing line balances the buffer. */
  lemma ClosedBufferFinished(opener: string, later: seq<string>, closer: string)
    requires RecordOpener(opener) && BalancedPlain(later) && NoNewline(later)
    requires '\n' !in closer && Count(closer, '[') == 0 && Count(closer, ']') == 1
    ensures IsLogFinished(Join(BufferLines(opener, later) + [closer], "\n"))
  {
    var lines := BufferLines(opener, later);
    BufferNoNewline(opener, later);
    NoNewlineAppend(lines, [closer]);
    BufferTally(opener, later);
    var n := Count(opener, '[') + CountAll(later, '[');
    ClosingBracket(closer, Tally(n, n - 1, false));
    CountLinesAppend(lines, [closer], Tally(0, 0, false));
    FinishedOfLines(lines + [closer]);
  }

  /** A record's later lines join the buffer one by one. */
  lemma {:induction false} GatherLines(env: Parsers, r: Reader, opener: string, later: seq<string>)
    requires r.multiline && r.buffer == Join(BufferLines(opener, []), "\n")
    requires RecordOpener(opener) && BalancedPlain(later) && NoNewline(later)
    requires forall k :: 0 <= k < |later| ==> NotHeader(later[k])
    ensures FeedAll(env, r, later) == Ok(r.(buffer := Join(BufferLines(opener, later), "\n")))
    decreases |later|
  {
    if |later| > 0 {
      var pre := later[..|later| - 1];
      var line := Last(later);
      assert later == pre + [line];
      assert forall k :: 0 <= k < |pre| ==> pre[k] == later[k];
      GatherLines(env, r, opener, pre);
      GatherStep(env, r.(buffer := Join(BufferLines(opener, pre), "\n")), opener, pre, line);
      FeedAllSnoc(env, r, pre, line);
    }
  }

  lemma GatherStep(env: Parsers, r: Reader, opener: string, pre: seq<string>, line: string)
    requires r.multiline && r.buffer == Join(BufferLines(opener, pre), "\n")
    requires RecordOpener(opener) && BalancedPlain(pre + [line]) && NoNewline(pre + [line]) && NotHeader(line)
    ensures Feed(env, r, line) == Ok(r.(buffer := Join(BufferLines(opener, pre + [line]), "\n")))
  {
    assert BufferLines(opener, pre + [line]) == BufferLines(opener, pre) + [line];
    JoinSnoc(BufferLines(opener, pre), line, "\n");
    OpenBufferUnfinished(opener, pre + [line]);
    FeedGathers(env, r, line);
  }

  /** The pause `parse_full_gc_pause` makes of a record without a class
      histogram: the seconds of its closing line and the rest from its
      first line. */
  lemma PlainRecordPause(env: Parsers, opener: string, later: seq<string>, pre: string, x: string)
    requires RecordOpener(opener) && HasGc(opener) && BalancedPlain(later) && NoNewline(later)
    requires ',' !in pre && ']' !in pre && '[' !in pre && '\n' !in pre
    requires |x| > 0 && ',' !in x && ']' !in x && '[' !in x && '\n' !in x
    requires !IsWhitespace(x[0]) && !IsWhitespace(x[|x| - 1])
    ensures var buf := Join(BufferLines(opener, later) + [pre + ", " + x + SECS_CLOSE], "\n");
      var first := ParseGcPause(env, opener);
      var r := ParseFullGcPause(env, buf);
      && (r.Ok? <==> env.seconds(x).Some?)
      && (r.Ok? ==> r.value == GcPause(Contains(buf, "Full GC"), RemoveAll(first.attributes, BEFORE_FULL_GC),
        first.gcType, env.seconds(x).value, first.epoch, GcResizing(buf)))
  {
    var closer := pre + ", " + x + SECS_CLOSE;
    var lines := BufferLines(opener, later) + [closer];
    var buf := Join(lines, "\n");
    ClosingLineNoNewline(pre, x);
    BufferNoNewline(opener, later);
    NoNewlineAppend(BufferLines(opener, later), [closer]);
    assert "\n" == ['\n'];
    SplitJoin(lines, '\n');
    assert FirstGcLine(lines) == Some(0) by {
      assert lines[0] == opener;
    }
    FullGcPauseOfLines(env, buf, lines);
    ClosingLineBrackets(pre, x);
    ClosingLineSeconds(env, pre, x);
    PlainRecordSeconds(env, opener, later, closer);
  }

  lemma ClosingLineNoNewline(pre: string, x: string)
    requires '\n' !in pre && '\n' !in x
    ensures '\n' !in pre + ", " + x + SECS_CLOSE
  {
    assert '\n' !in ", " && '\n' !in SECS_CLOSE;
  }

  /** The seconds `parse_full_gc_pause` reads from a record without a
      class histogram: those of its closing line. */
  lemma PlainRecordSeconds(env: Parsers, opener: string, later: seq<string>, closer: string)
    requires RecordOpener(opener) && BalancedPlain(later)
    requires Count(closer, '[') == 0 && Count(closer, ']') == 1 && EndsWith(closer, SECS_CLOSE)
    ensures FullGcSeconds(env, BufferLines(opener, later) + [closer], Tally(0, 0, false)) == ClosingSeconds(env, closer)
  {
    var o, c := Count(opener, '['), Count(opener, ']');
    FirstBufferLine(env, opener, later, closer);
    var n := MidsPassed(env, later, closer, o, c);
    ClosingLineReached(env, closer, [], Tally(o + n, c + n, false));
    assert [closer] + [] == [closer];
  }

  /** The balanced lines between the first and the closing line change
      nothing but the running count. */
  lemma MidsPassed(env: Parsers, later: seq<string>, closer: string, o: nat, c: nat) returns (n: nat)
    requires o > c && BalancedPlain(later)
    ensures n == CountAll([""] + later, '[')
    ensures FullGcSeconds(env, [""] + later + [closer], Tally(o, c, false))
      == FullGcSeconds(env, [closer], Tally(o + n, c + n, false))
  {
    var mids := [""] + later;
    n := CountAll(mids, '[');
    MidsBalanced(later);
    BalancedPlainCounts(mids);
    BalancedLinesPassed(env, mids, [closer], o, c);
  }

  lemma FirstBufferLine(env: Parsers, opener: string, later: seq<string>, closer: string)
    requires RecordOpener(opener)
    ensures FullGcSeconds(env, BufferLines(opener, later) + [closer], Tally(0, 0, false))
      == FullGcSeconds(env, [""] + later + [closer], Tally(Count(opener, '['), Count(opener, ']'), false))
  {
    assert BufferLines(opener, later) + [closer] == [opener] + ([""] + later + [closer]);
    CountedLine(env, opener, [""] + later + [closer], Tally(0, 0, false));
  }

  /** The empty line the buffer holds after the first line balances. */
  lemma MidsBalanced(later: seq<string>)
    requires BalancedPlain(later)
    ensures BalancedPlain([""] + later)
  {
    assert Count("", '[') == 0 && Count("", ']') == 0 && !Contains("", HISTOGRAM);
    assert forall k :: 1 <= k < |[""] + later| ==> ([""] + later)[k] == later[k - 1];
  }

  /** A multi-line record without a class histogram, like the G1 pause
      whose ergonomics lines follow it: a first line that names the
      collection and leaves one bracket open, later lines that balance,
      and a closing line "<text>, <seconds> secs]".  Feeding it adds one
      pause with the closing seconds and the type, attributes and
      timestamp of the first line, unless that type is "after full gc";
      the reader is back outside a record and nothing else changes. */
  lemma MultilineRecord(env: Parsers, r: Reader, opener: string, later: seq<string>, pre: string, x: string)
    requires !r.multiline && r.buffer == ""
    requires NotHeader(opener) && HasGc(opener) && RecordOpener(opener)
    requires BalancedPlain(later) && NoNewline(later)
    requires forall k :: 0 <= k < |later| ==> NotHeader(later[k])
    requires NotHeader(pre + ", " + x + SECS_CLOSE) && '\n' !in pre && '\n' !in x
    requires ',' !in pre && ']' !in pre && '[' !in pre
    requires |x| > 0 && ',' !in x && ']' !in x && '[' !in x
    requires !IsWhitespace(x[0]) && !IsWhitespace(x[|x| - 1])
    ensures var closer := pre + ", " + x + SECS_CLOSE;
      var buf := Join(BufferLines(opener, later) + [closer], "\n");
      var first := ParseGcPause(env, opener);
      var out := FeedAll(env, r, [opener] + later + [closer]);
      && (out.Ok? <==> env.seconds(x).Some?)
      && (out.Ok? ==>
        var pause := GcPause(Contains(buf, "Full GC"), RemoveAll(first.attributes, BEFORE_FULL_GC),
          first.gcType, env.seconds(x).value, first.epoch, GcResizing(buf));
        out.value == r.(pauses := if first.gcType != AFTER_FULL_GC then r.pauses + [pause] else r.pauses))
  {
    var closer := pre + ", " + x + SECS_CLOSE;
    var r2 := r.(multiline := true, buffer := Join(BufferLines(opener, later), "\n"));
    RecordGathered(env, r, opener, later);
    FeedAllSnoc(env, r, [opener] + later, closer);
    RecordCloses(env, r2, opener, later, pre, x);
  }

  /** The first and later lines of a record leave it gathered in the
      buffer. */
  lemma RecordGathered(env: Parsers, r: Reader, opener: string, later: seq<string>)
    requires !r.multiline && r.buffer == ""
    requires NotHeader(opener) && RecordOpener(opener)
    requires BalancedPlain(later) && NoNewline(later)
    requires forall k :: 0 <= k < |later| ==> NotHeader(later[k])
    ensures FeedAll(env, r, [opener] + later)
      == Ok(r.(multiline := true, buffer := Join(BufferLines(opener, later), "\n")))
  {
    var r1 := r.(multiline := true, buffer := opener + "\n");
    FeedOpens(env, r, opener);
    assert r.buffer + opener + "\n" == opener + "\n";
    FeedAllSnoc(env, r, [], opener);
    assert [] + [opener] == [opener];
    assert r1.buffer == Join(BufferLines(opener, []), "\n") by {
      assert BufferLines(opener, []) == [opener, ""];
      assert Join([opener, ""], "\n") == opener + "\n" + "";
    }
    GatherLines(env, r1, opener, later);
    FeedAllAppend(env, r, [opener], later);
  }

  /** The closing line of a gathered record finishes and parses it. */
  lemma RecordCloses(env: Parsers, r: Reader, opener: string, later: seq<string>, pre: string, x: string)
    requires r.multiline && r.buffer == Join(BufferLines(opener, later), "\n")
    requires HasGc(opener) && RecordOpener(opener)
    requires BalancedPlain(later) && NoNewline(later)
    requires NotHeader(pre + ", " + x + SECS_CLOSE) && '\n' !in pre && '\n' !in x
    requires ',' !in pre && ']' !in pre && '[' !in pre
    requires |x| > 0 && ',' !in x && ']' !in x && '[' !in x
    requires !IsWhitespace(x[0]) && !IsWhitespace(x[|x| - 1])
    ensures var closer := pre + ", " + x + SECS_CLOSE;
      var buf := Join(BufferLines(opener, later) + [closer], "\n");
      var first := ParseGcPause(env, opener);
      var out := Feed(env, r, closer);
      && (out.Ok? <==> env.seconds(x).Some?)
      && (out.Ok? ==>
        var pause := GcPause(Contains(buf, "Full GC"), RemoveAll(first.attributes, BEFORE_FULL_GC),
          first.gcType, env.seconds(x).value, first.epoch, GcResizing(buf));
        out.value == r.(multiline := false, buffer := "",
          pauses := if first.gcType != AFTER_FULL_GC then r.pauses + [pause] else r.pauses))
  {
    var closer := pre + ", " + x + SECS_CLOSE;
    JoinSnoc(BufferLines(opener, later), closer, "\n");
    ClosingLineBrackets(pre, x);
    ClosingLineNoNewline(pre, x);
    ClosedBufferFinished(opener, later, closer);
    assert ']' in closer by {
      assert Count(closer, ']') == 1;
    }
    FeedCloses(env, r, closer);
    PlainRecordPause(env, opener, later, pre, x);
  }
}

=== FILE: flags.dfy ===
/** The collector and heap settings read from the "CommandLine flags: " line
    of a GC log (src/glog/flags.rs), with the JDK 8 defaults derived from
    the physical memory when a flag is absent.
 */
module Flags {
  import opened Common
  import opened Strings
  import opened Convert
  import opened G1Gc

  datatype Collector = SerialGC | G1GC | CMS | Parallel | ZGC | Shenandoah | Unknown

  /** The settings of one JVM run.  Sizes are in GiB except the region
      size, which is in MiB; region size and pause goal are 0 unless the
      collector is G1. */
  datatype GcFlags = GcFlags(
    collector: Collector,
    maxHeapSizeGb: real,
    minHeapSizeGb: real,
    regionSizeMb: real,
    targetPauseMillis: int,
    maxDirectMemoryGb: real,
    allFlags: seq<string>)

  /** The settings before any flag line has been read. */
  const NoFlags: GcFlags := GcFlags(Unknown, 0.0, 0.0, 0.0, 0, 0.0, [])

  const INITIAL_HEAP_SIZE_FLAG: string := "-XX:InitialHeapSize="
  const MAX_HEAP_SIZE_FLAG: string := "-XX:MaxHeapSize="
  const MAX_DIRECT_MEMORY_SIZE_FLAG: string := "-XX:MaxDirectMemorySize="

  /** The flag that selects each collector; `Unknown` has none. */
  function SelectingFlag(c: Collector): Option<string> {
    match c
    case ZGC => Some("-XX:+UseZGC")
    case G1GC => Some("-XX:+UseG1GC")
    case Shenandoah => Some("-XX:+UseShenandoahGC")
    case Parallel => Some("-XX:+UseParallelGC")
    case CMS => Some("-XX:+UseParNewGC")
    case SerialGC => Some("-XX:+UseSerialGC")
    case Unknown => None
  }

  /** The collector a single flag selects, if it is one of the six exact
      selector strings. */
  function CollectorOf(flag: string): (r: Option<Collector>)
    ensures r.Some? ==> r.value != Unknown && SelectingFlag(r.value) == Some(flag)
  {
    if flag == "-XX:+UseZGC" then Some(ZGC)
    else if flag == "-XX:+UseG1GC" then Some(G1GC)
    else if flag == "-XX:+UseShenandoahGC" then Some(Shenandoah)
    else if flag == "-XX:+UseParallelGC" then Some(Parallel)
    else if flag == "-XX:+UseParNewGC" then Some(CMS)
    else if flag == "-XX:+UseSerialGC" then Some(SerialGC)
    else None
  }

  /** Each selector string is recognised as its own collector. */
  lemma CollectorOfSelectingFlag(c: Collector)
    requires c != Unknown
    ensures CollectorOf(SelectingFlag(c).value) == Some(c)
  {
  }

  /** The index of the first selector flag. */
  function FirstSelector(flags: seq<string>): (r: Option<nat>)
    decreases |flags|
    ensures r.Some? ==> r.value < |flags| && CollectorOf(flags[r.value]).Some?
    ensures r.Some? ==> forall k :: 0 <= k < r.value ==> CollectorOf(flags[k]).None?
    ensures r.None? ==> forall k :: 0 <= k < |flags| ==> CollectorOf(flags[k]).None?
  {
    if |flags| == 0 then None
    else if CollectorOf(flags[0]).Some? then Some(0)
    else match FirstSelector(flags[1..])
      case None => None
      case Some(i) => Some(i + 1)
  }

  /** `get_collector`: the collector of the first selector flag in list order. */
  function GetCollector(flags: seq<string>): (r: Collector)
    ensures r == Unknown <==> forall k :: 0 <= k < |flags| ==> CollectorOf(flags[k]).None?
    ensures r != Unknown ==> exists i :: (0 <= i < |flags| && CollectorOf(flags[i]) == Some(r)
      && forall k :: 0 <= k < i ==> CollectorOf(flags[k]).None?)
  {
    match FirstSelector(flags)
    case None => Unknown
    case Some(i) => CollectorOf(flags[i]).value
  }

  /** The first selector flag decides, whatever selectors follow it. */
  lemma {:induction false} GetCollectorFirst(before: seq<string>, c: Collector, after: seq<string>)
    requires c != Unknown
    requires forall k :: 0 <= k < |before| ==> CollectorOf(before[k]).None?
    ensures GetCollector(before + [SelectingFlag(c).value] + after) == c
  {
    var xs := before + [SelectingFlag(c).value] + after;
    CollectorOfSelectingFlag(c);
    assert forall k :: 0 <= k < |before| ==> xs[k] == before[k];
    assert xs[|before|] == SelectingFlag(c).value;
    assert FirstSelector(xs) == Some(|before|);
  }

  /** A GiB count as a `real`, used for the default formulas. */
  function Gib(bytes: real): real {
    bytes / GIB as real
  }

  function MaxReal(a: real, b: real): real {
    if a < b then b else a
  }

  /** `get_min_heap_size_gb`: the first "-XX:InitialHeapSize=" value in GiB;
      without it the JDK 8 default of 1/64 of physical memory, but at least
      8 MiB.  A value that is not an unsigned integer aborts. */
  function MinHeapSizeGb(flags: seq<string>, physicalBytes: I64): (r: Result<real>)
    ensures PrefixedValue(flags, INITIAL_HEAP_SIZE_FLAG).Some? ==>
      var text := PrefixedValue(flags, INITIAL_HEAP_SIZE_FLAG).value;
      && (r.Ok? <==> ParseU64(text).Some?)
      && (r.Ok? ==> r.value * GIB as real == ParseU64(text).value as real)
    ensures PrefixedValue(flags, INITIAL_HEAP_SIZE_FLAG).None? ==>
      r.Ok? && r.value * GIB as real == MaxReal(physicalBytes as real / 64.0, (8 * MIB) as real)
  {
    match PrefixedValue(flags, INITIAL_HEAP_SIZE_FLAG)
    case Some(text) =>
      (match ParseU64(text)
       case None => Panic("unable to parse string")
       case Some(b) => Ok(BytesToGb(b)))
    case None =>
      var expected := physicalBytes as real * 0.015625;
      var eightMb := 1024.0 * 1024.0 * 8.0;
      if expected < eightMb then Ok(Gib(eightMb)) else Ok(Gib(expected))
  }

  /** `get_max_heap_size_gb`: the first "-XX:MaxHeapSize=" value in GiB;
      without it the JDK 8 default of a quarter of physical memory, but
      exactly 1 GiB when that quarter is below 1 GiB.  A value that is not
      an unsigned integer aborts. */
  function MaxHeapSizeGb(flags: seq<string>, physicalBytes: I64): (r: Result<real>)
    ensures PrefixedValue(flags, MAX_HEAP_SIZE_FLAG).Some? ==>
      var text := PrefixedValue(flags, MAX_HEAP_SIZE_FLAG).value;
      && (r.Ok? <==> ParseU64(text).Some?)
      && (r.Ok? ==> r.value * GIB as real == ParseU64(text).value as real)
    ensures PrefixedValue(flags, MAX_HEAP_SIZE_FLAG).None? ==>
      r.Ok? && r.value * GIB as real == MaxReal(physicalBytes as real / 4.0, GIB as real)
  {
    match PrefixedValue(flags, MAX_HEAP_SIZE_FLAG)
    case Some(text) =>
      (match ParseU64(text)
       case None => Panic("unable to parse string")
       case Some(b) => Ok(BytesToGb(b)))
    case None =>
      var expected := physicalBytes as real * 0.25;
      if expected < 1024.0 * 1024.0 * 1024.0 then Ok(1.0) else Ok(Gib(expected))
  }

  /** `get_max_direct_memory_gb`: the first "-XX:MaxDirectMemorySize=" value,
      a signed byte count, in GiB; without it the maximum heap.  A value
      that is not an `i64` aborts. */
  function MaxDirectMemoryGb(flags: seq<string>, maxHeapGb: real): (r: Result<real>)
    ensures PrefixedValue(flags, MAX_DIRECT_MEMORY_SIZE_FLAG).Some? ==>
      var text := PrefixedValue(flags, MAX_DIRECT_MEMORY_SIZE_FLAG).value;
      && (r.Ok? <==> ParseI64(text).Some?)
      && (r.Ok? ==> r.value * GIB as real == ParseI64(text).value as real)
    ensures PrefixedValue(flags, MAX_DIRECT_MEMORY_SIZE_FLAG).None? ==> r == Ok(maxHeapGb)
  {
    match PrefixedValue(flags, MAX_DIRECT_MEMORY_SIZE_FLAG)
    case Some(text) =>
      (match ParseI64(text)
       case None => Panic("unable to parse string")
       case Some(raw) => Ok(Gib(raw as real)))
    case None => Ok(maxHeapGb)
  }

  /** The flags of a "CommandLine flags: ..." line: every single-space
      separated token after the first two, in order, empty tokens included. */
  function FlagTokens(line: string): (r: seq<string>)
    ensures |Split(line, " ")| >= 2 ==> r == Split(line, " ")[2..]
    ensures |Split(line, " ")| < 2 ==> r == []
  {
    var tokens := Split(line, " ");
    if |tokens| < 2 then [] else tokens[2..]
  }

  lemma SpaceFreeHeader(flags: seq<string>)
    requires forall k :: 0 <= k < |flags| ==> ' ' !in flags[k]
    ensures forall k :: 0 <= k < |["CommandLine", "flags:"] + flags| ==> ' ' !in (["CommandLine", "flags:"] + flags)[k]
  {
    var xs := ["CommandLine", "flags:"] + flags;
    forall k | 0 <= k < |xs|
      ensures ' ' !in xs[k]
    {
      if k >= 2 {
        assert xs[k] == flags[k - 2];
      }
    }
  }

  /** The tokens of a flag line written out with single spaces come back intact. */
  lemma FlagTokensOfLine(flags: seq<string>)
    requires forall k :: 0 <= k < |flags| ==> ' ' !in flags[k]
    ensures FlagTokens(Join(["CommandLine", "flags:"] + flags, " ")) == flags
  {
    var xs := ["CommandLine", "flags:"] + flags;
    SpaceFreeHeader(flags);
    SplitJoin(xs, ' ');
    assert Split(Join(xs, " "), " ") == xs;
    assert xs[2..] == flags;
  }

  /** Settings from a token list: collector, then maximum heap, initial heap
      and direct memory; region size (from the maximum heap) and pause goal
      only for G1.  The first unparsable value aborts, in that order. */
  function InferFlags(flags: seq<string>, physicalBytes: I64): (r: Result<GcFlags>)
    ensures r.Ok? ==> r.value.allFlags == flags && r.value.collector == GetCollector(flags)
    ensures r.Ok? ==> MaxHeapSizeGb(flags, physicalBytes) == Ok(r.value.maxHeapSizeGb)
    ensures r.Ok? ==> MinHeapSizeGb(flags, physicalBytes) == Ok(r.value.minHeapSizeGb)
    ensures r.Ok? ==> MaxDirectMemoryGb(flags, r.value.maxHeapSizeGb) == Ok(r.value.maxDirectMemoryGb)
    ensures r.Ok? && r.value.collector == G1GC ==>
      && RegionSizeMb(r.value.maxHeapSizeGb, flags) == Ok(r.value.regionSizeMb)
      && TargetMillis(flags) == Ok(r.value.targetPauseMillis)
    ensures r.Ok? && r.value.collector != G1GC ==>
      r.value.regionSizeMb == 0.0 && r.value.targetPauseMillis == 0
    ensures r.Panic? <==>
      || MaxHeapSizeGb(flags, physicalBytes).Panic?
      || MinHeapSizeGb(flags, physicalBytes).Panic?
      || MaxDirectMemoryGb(flags, MaxHeapSizeGb(flags, physicalBytes).value).Panic?
      || (GetCollector(flags) == G1GC
        && (RegionSizeMb(MaxHeapSizeGb(flags, physicalBytes).value, flags).Panic?
          || TargetMillis(flags).Panic?))
  {
    var collector := GetCollector(flags);
    var maxHeap :- MaxHeapSizeGb(flags, physicalBytes);
    var minHeap :- MinHeapSizeGb(flags, physicalBytes);
    var direct :- MaxDirectMemoryGb(flags, maxHeap);
    if collector == G1GC then
      var region :- RegionSizeMb(maxHeap, flags);
      var target :- TargetMillis(flags);
      Ok(GcFlags(collector, maxHeap, minHeap, region, target, direct, flags))
    else
      Ok(GcFlags(collector, maxHeap, minHeap, 0.0, 0, direct, flags))
  }

  /** `parse_gc_flags`: the settings of a "CommandLine flags: " line, given the
      physical memory in bytes (0 when it is not known). */
  function ParseGcFlags(line: string, physicalBytes: I64): (r: Result<GcFlags>)
    ensures r.Ok? ==> r.value.allFlags == FlagTokens(line)
  {
    InferFlags(FlagTokens(line), physicalBytes)
  }

  /** The defaults when no flag sets a size: 64 GiB of memory gives a 1 GiB
      initial heap, 256 MiB gives 8 MiB; 240 GiB gives a 60 GiB maximum
      heap and 2 GiB gives exactly 1 GiB; the direct memory follows the heap. */
  lemma DefaultSizes()
    ensures MinHeapSizeGb([], 64 * GIB) == Ok(1.0)
    ensures MinHeapSizeGb([], 256 * MIB) == Ok(8.0 / 1024.0)
    ensures MaxHeapSizeGb([], 240 * GIB) == Ok(60.0)
    ensures MaxHeapSizeGb([], 2 * GIB) == Ok(1.0)
    ensures MaxDirectMemoryGb([], 32.0) == Ok(32.0)
  {
  }

  /** An explicit size wins over the physical memory. */
  lemma {:induction false} ExplicitSizes(bytes: nat, physicalBytes: I64)
    requires bytes <= I64_MAX
    ensures MinHeapSizeGb([INITIAL_HEAP_SIZE_FLAG + Decimal(bytes)], physicalBytes) == Ok(bytes as real / GIB as real)
    ensures MaxHeapSizeGb([MAX_HEAP_SIZE_FLAG + Decimal(bytes)], physicalBytes) == Ok(bytes as real / GIB as real)
    ensures MaxDirectMemoryGb([MAX_DIRECT_MEMORY_SIZE_FLAG + Decimal(bytes)], 32.0) == Ok(bytes as real / GIB as real)
  {
    PrefixedValueFirst([], INITIAL_HEAP_SIZE_FLAG, Decimal(bytes), []);
    PrefixedValueFirst([], MAX_HEAP_SIZE_FLAG, Decimal(bytes), []);
    PrefixedValueFirst([], MAX_DIRECT_MEMORY_SIZE_FLAG, Decimal(bytes), []);
    assert [] + [INITIAL_HEAP_SIZE_FLAG + Decimal(bytes)] + [] == [INITIAL_HEAP_SIZE_FLAG + Decimal(bytes)];
    assert [] + [MAX_HEAP_SIZE_FLAG + Decimal(bytes)] + [] == [MAX_HEAP_SIZE_FLAG + Decimal(bytes)];
    assert [] + [MAX_DIRECT_MEMORY_SIZE_FLAG + Decimal(bytes)] + [] == [MAX_DIRECT_MEMORY_SIZE_FLAG + Decimal(bytes)];
    ParseDecimal(bytes, 0, U64_MAX);
    ParseDecimal(bytes, I64_MIN, I64_MAX);
  }

  /** Without G1 the region size and pause goal stay 0, even when flags set them. */
  lemma NonG1IgnoresG1Settings(flags: seq<string>, physicalBytes: I64)
    requires GetCollector(flags) != G1GC
    requires InferFlags(flags, physicalBytes).Ok?
    ensures InferFlags(flags, physicalBytes).value.regionSizeMb == 0.0
    ensures InferFlags(flags, physicalBytes).value.targetPauseMillis == 0
  {
  }

  /** No flag of `xs` starts with `p`. */
  predicate NoneStartWith(xs: seq<string>, p: string) {
    forall k :: 0 <= k < |xs| ==> !StartsWith(xs[k], p)
  }

  /** No flag of `xs` selects a collector. */
  predicate NoSelector(xs: seq<string>) {
    forall k :: 0 <= k < |xs| ==> CollectorOf(xs[k]).None?
  }

  /** No flag of `xs` holds a space. */
  predicate SpaceFree(xs: seq<string>) {
    forall k :: 0 <= k < |xs| ==> ' ' !in xs[k]
  }

  lemma ListAppend(a: seq<string>, b: seq<string>, p: string)
    ensures NoneStartWith(a, p) && NoneStartWith(b, p) ==> NoneStartWith(a + b, p)
    ensures NoSelector(a) && NoSelector(b) ==> NoSelector(a + b)
    ensures SpaceFree(a) && SpaceFree(b) ==> SpaceFree(a + b)
  {
  }

  /** Cutting `b` around its element `i` inside `a + b + c`. */
  lemma Around(a: seq<string>, b: seq<string>, c: seq<string>, i: nat)
    requires i < |b|
    ensures a + b + c == (a + b[..i]) + [b[i]] + (b[i + 1..] + c)
  {
    assert b == b[..i] + [b[i]] + b[i + 1..];
  }

  /** The flags of `test_parse_gc_flags`'s "CommandLine flags: " line, in
      four runs: the first six with the region size, the five sizes and
      the pause goal, five logging flags, and the six that end the line
      with the collector selector. */
  function FlagsHead(region: nat): seq<string> {
    [ "-XX:+DisableExplicitGC",
      "-XX:ErrorFile=/opt/dremio/data/hs_err_pid%p.log",
      G1_HEAP_REGION_SIZE_FLAG + Decimal(region),
      "-XX:GCLogFileSize=4096000",
      "-XX:+HeapDumpOnOutOfMemoryError",
      "-XX:HeapDumpPath=/opt/dremio/data/" ]
  }

  function FlagsSizes(initial: nat, direct: nat, target: nat, maxHeap: nat): seq<string> {
    [ INITIAL_HEAP_SIZE_FLAG + Decimal(initial),
      "-XX:InitiatingHeapOccupancyPercent=25",
      MAX_DIRECT_MEMORY_SIZE_FLAG + Decimal(direct),
      MAX_GC_PAUSE_MILLIS_FLAG + IntText(target),
      MAX_HEAP_SIZE_FLAG + Decimal(maxHeap) ]
  }

  const FLAGS_PRINT: seq<string> := [
    "-XX:NumberOfGCLogFiles=5",
    "-XX:+PrintClassHistogramAfterFullGC",
    "-XX:+PrintClassHistogramBeforeFullGC",
    "-XX:+PrintGC",
    "-XX:+PrintGCDateStamps" ]

  const FLAGS_USE: seq<string> := [
    "-XX:+PrintGCDetails",
    "-XX:+PrintGCTimeStamps",
    "-XX:+UseCompressedClassPointers",
    "-XX:+UseCompressedOops",
    "-XX:+UseG1GC",
    "-XX:+UseGCLogFileRotation" ]

  /** The twenty-two flags of that line, with the region size, initial
      heap, direct memory, pause goal and maximum heap written in decimal
      from the five figures. */
  function G1FlagLine(region: nat, initial: nat, direct: nat, target: nat, maxHeap: nat): seq<string> {
    FlagsHead(region) + FlagsSizes(initial, direct, target, maxHeap) + (FLAGS_PRINT + FLAGS_USE)
  }

  /** Every selector string has '+' after "-XX:", so a flag without it selects nothing. */
  lemma NotASelector(s: string)
    requires |s| > 4 && s[4] != '+'
    ensures CollectorOf(s).None?
  {
  }

  /** A text that differs from `p` within `p`'s length does not start with `p`. */
  lemma DiffersAt(s: string, p: string, i: nat)
    requires i < |p| && i < |s| && s[i] != p[i]
    ensures !StartsWith(s, p)
  {
  }

  /** The first six flags start with none of the prefixes whose fifth
      letter is neither '+', 'E', 'G' nor 'H'. */
  lemma HeadNoneStartWith(region: nat, p: string)
    requires |p| > 4 && p[4] !in {'+', 'E', 'G', 'H'}
    ensures NoneStartWith(FlagsHead(region), p)
  {
    var xs := FlagsHead(region);
    DiffersAt(xs[0], p, 4);
    DiffersAt(xs[1], p, 4);
    DiffersAt(xs[2], p, 4);
    DiffersAt(xs[3], p, 4);
    DiffersAt(xs[4], p, 4);
    DiffersAt(xs[5], p, 4);
  }

  /** Only "-XX:+UseG1GC", the fifth of the last run, selects a collector. */
  lemma FlagRunsNoSelector(region: nat, initial: nat, direct: nat, target: nat, maxHeap: nat)
    ensures NoSelector(FlagsHead(region))
    ensures NoSelector(FlagsSizes(initial, direct, target, maxHeap))
    ensures NoSelector(FLAGS_PRINT)
    ensures NoSelector(FLAGS_USE[..4])
  {
    HeadNoSelector(region);
    SizesNoSelector(initial, direct, target, maxHeap);
    LoggingNoSelector();
  }

  lemma HeadNoSelector(region: nat)
    ensures NoSelector(FlagsHead(region))
  {
    var h := FlagsHead(region);
    NotASelector(h[1]);
    NotASelector(h[2]);
    NotASelector(h[3]);
    NotASelector(h[5]);
  }

  lemma SizesNoSelector(initial: nat, direct: nat, target: nat, maxHeap: nat)
    ensures NoSelector(FlagsSizes(initial, direct, target, maxHeap))
  {
    var s := FlagsSizes(initial, direct, target, maxHeap);
    NotASelector(s[0]);
    NotASelector(s[1]);
    NotASelector(s[2]);
    NotASelector(s[3]);
    NotASelector(s[4]);
  }

  lemma LoggingNoSelector()
    ensures NoSelector(FLAGS_PRINT)
    ensures NoSelector(FLAGS_USE[..4])
  {
    NotASelector(FLAGS_PRINT[0]);
  }

  lemma G1FlagLineCollector(region: nat, initial: nat, direct: nat, target: nat, maxHeap: nat)
    ensures GetCollector(G1FlagLine(region, initial, direct, target, maxHeap)) == G1GC
  {
    var h := FlagsHead(region);
    var s := FlagsSizes(initial, direct, target, maxHeap);
    FlagRunsNoSelector(region, initial, direct, target, maxHeap);
    ListAppend(h, s, "");
    ListAppend(h + s, FLAGS_PRINT, "");
    ListAppend(h + s + FLAGS_PRINT, FLAGS_USE[..4], "");
    Around(h + s + FLAGS_PRINT, FLAGS_USE, [], 4);
    assert G1FlagLine(region, initial, direct, target, maxHeap) == h + s + FLAGS_PRINT + FLAGS_USE + [];
    assert FLAGS_USE[4] == SelectingFlag(G1GC).value;
    GetCollectorFirst(h + s + FLAGS_PRINT + FLAGS_USE[..4], G1GC, FLAGS_USE[5..] + []);
  }

  /** The flag at position `i` of the sizes run, with prefix `p`, is the
      first flag of the line that starts with `p`. */
  lemma SizeFlagFirst(region: nat, initial: nat, direct: nat, target: nat, maxHeap: nat, i: nat, p: string, v: string)
    requires i < 5 && FlagsSizes(initial, direct, target, maxHeap)[i] == p + v
    requires |p| > 4 && p[4] !in {'+', 'E', 'G', 'H'}
    requires NoneStartWith(FlagsSizes(initial, direct, target, maxHeap)[..i], p)
    ensures PrefixedValue(G1FlagLine(region, initial, direct, target, maxHeap), p) == Some(v)
  {
    var h := FlagsHead(region);
    var s := FlagsSizes(initial, direct, target, maxHeap);
    HeadNoneStartWith(region, p);
    ListAppend(h, s[..i], p);
    Around(h, s, FLAGS_PRINT + FLAGS_USE, i);
    PrefixedValueFirst(h + s[..i], p, v, s[i + 1..] + (FLAGS_PRINT + FLAGS_USE));
  }

  lemma G1FlagLineMaxHeap(region: nat, initial: nat, direct: nat, target: nat, maxHeap: nat, physicalBytes: I64)
    requires maxHeap <= U64_MAX
    ensures MaxHeapSizeGb(G1FlagLine(region, initial, direct, target, maxHeap), physicalBytes) == Ok(maxHeap as real / GIB as real)
  {
    var s := FlagsSizes(initial, direct, target, maxHeap);
    DiffersAt(s[0], MAX_HEAP_SIZE_FLAG, 4);
    DiffersAt(s[1], MAX_HEAP_SIZE_FLAG, 4);
    DiffersAt(s[2], MAX_HEAP_SIZE_FLAG, 7);
    DiffersAt(s[3], MAX_HEAP_SIZE_FLAG, 7);
    SizeFlagFirst(region, initial, direct, target, maxHeap, 4, MAX_HEAP_SIZE_FLAG, Decimal(maxHeap));
    ParseDecimal(maxHeap, 0, U64_MAX);
  }

  lemma G1FlagLineMinHeap(region: nat, initial: nat, direct: nat, target: nat, maxHeap: nat, physicalBytes: I64)
    requires initial <= U64_MAX
    ensures MinHeapSizeGb(G1FlagLine(region, initial, direct, target, maxHeap), physicalBytes) == Ok(initial as real / GIB as real)
  {
    SizeFlagFirst(region, initial, direct, target, maxHeap, 0, INITIAL_HEAP_SIZE_FLAG, Decimal(initial));
    ParseDecimal(initial, 0, U64_MAX);
  }

  lemma G1FlagLineDirect(region: nat, initial: nat, direct: nat, target: nat, maxHeap: nat, maxHeapGb: real)
    requires direct <= I64_MAX
    ensures MaxDirectMemoryGb(G1FlagLine(region, initial, direct, target, maxHeap), maxHeapGb) == Ok(direct as real / GIB as real)
  {
    var s := FlagsSizes(initial, direct, target, maxHeap);
    DiffersAt(s[0], MAX_DIRECT_MEMORY_SIZE_FLAG, 4);
    DiffersAt(s[1], MAX_DIRECT_MEMORY_SIZE_FLAG, 4);
    SizeFlagFirst(region, initial, direct, target, maxHeap, 2, MAX_DIRECT_MEMORY_SIZE_FLAG, Decimal(direct));
    ParseDecimal(direct, I64_MIN, I64_MAX);
  }

  lemma G1FlagLineRegion(region: nat, initial: nat, direct: nat, target: nat, maxHeap: nat, heapGb: real)
    requires region <= U64_MAX
    ensures RegionSizeMb(heapGb, G1FlagLine(region, initial, direct, target, maxHeap)) == Ok(region as real / MIB as real)
  {
    var h := FlagsHead(region);
    var rest := FlagsSizes(initial, direct, target, maxHeap) + (FLAGS_PRINT + FLAGS_USE);
    DiffersAt(h[0], G1_HEAP_REGION_SIZE_FLAG, 4);
    DiffersAt(h[1], G1_HEAP_REGION_SIZE_FLAG, 4);
    Around([], h, rest, 2);
    assert G1FlagLine(region, initial, direct, target, maxHeap) == [] + h + rest;
    RegionSizeFlagWins(heapGb, [] + h[..2], region, h[3..] + rest);
  }

  lemma G1FlagLineTarget(region: nat, initial: nat, direct: nat, target: nat, maxHeap: nat)
    requires target <= I32_MAX
    ensures TargetMillis(G1FlagLine(region, initial, direct, target, maxHeap)) == Ok(target)
  {
    var h := FlagsHead(region);
    var s := FlagsSizes(initial, direct, target, maxHeap);
    HeadNoneStartWith(region, MAX_GC_PAUSE_MILLIS_FLAG);
    DiffersAt(s[0], MAX_GC_PAUSE_MILLIS_FLAG, 4);
    DiffersAt(s[1], MAX_GC_PAUSE_MILLIS_FLAG, 4);
    DiffersAt(s[2], MAX_GC_PAUSE_MILLIS_FLAG, 7);
    ListAppend(h, s[..3], MAX_GC_PAUSE_MILLIS_FLAG);
    Around(h, s, FLAGS_PRINT + FLAGS_USE, 3);
    TargetMillisFirstFlag(h + s[..3], target, s[4..] + (FLAGS_PRINT + FLAGS_USE));
  }

  /** Every setting of such a list is read from its own flag. */
  lemma {:induction false} G1FlagLineInferred(region: nat, initial: nat, direct: nat, target: nat, maxHeap: nat, physicalBytes: I64)
    requires region <= U64_MAX && initial <= U64_MAX && maxHeap <= U64_MAX
    requires direct <= I64_MAX && target <= I32_MAX
    ensures InferFlags(G1FlagLine(region, initial, direct, target, maxHeap), physicalBytes)
      == Ok(GcFlags(G1GC, maxHeap as real / GIB as real, initial as real / GIB as real,
                    region as real / MIB as real, target, direct as real / GIB as real,
                    G1FlagLine(region, initial, direct, target, maxHeap)))
  {
    G1FlagLineCollector(region, initial, direct, target, maxHeap);
    G1FlagLineMaxHeap(region, initial, direct, target, maxHeap, physicalBytes);
    G1FlagLineMinHeap(region, initial, direct, target, maxHeap, physicalBytes);
    G1FlagLineDirect(region, initial, direct, target, maxHeap, maxHeap as real / GIB as real);
    G1FlagLineRegion(region, initial, direct, target, maxHeap, maxHeap as real / GIB as real);
    G1FlagLineTarget(region, initial, direct, target, maxHeap);
  }

  /** No flag of the list holds a space. */
  lemma G1FlagLineSpaceFree(region: nat, initial: nat, direct: nat, target: nat, maxHeap: nat)
    ensures SpaceFree(G1FlagLine(region, initial, direct, target, maxHeap))
  {
    var h := FlagsHead(region);
    var s := FlagsSizes(initial, direct, target, maxHeap);
    HeadSpaceFree(region);
    SizesSpaceFree(initial, direct, target, maxHeap);
    LoggingSpaceFree();
    ListAppend(h, s, "");
    ListAppend(FLAGS_PRINT, FLAGS_USE, "");
    ListAppend(h + s, FLAGS_PRINT + FLAGS_USE, "");
  }

  lemma LoggingSpaceFree()
    ensures SpaceFree(FLAGS_PRINT) && SpaceFree(FLAGS_USE)
  {
  }

  lemma HeadSpaceFree(region: nat)
    ensures SpaceFree(FlagsHead(region))
  {
    DigitsHaveNo(Decimal(region), ' ');
  }

  lemma SizesSpaceFree(initial: nat, direct: nat, target: nat, maxHeap: nat)
    ensures SpaceFree(FlagsSizes(initial, direct, target, maxHeap))
  {
    DigitsHaveNo(Decimal(initial), ' ');
    DigitsHaveNo(Decimal(direct), ' ');
    DigitsHaveNo(Decimal(target), ' ');
    DigitsHaveNo(Decimal(maxHeap), ' ');
  }

  /** The list written out as a "CommandLine flags: " line parses to the
      same settings as the list itself. */
  lemma G1FlagLineParses(region: nat, initial: nat, direct: nat, target: nat, maxHeap: nat, physicalBytes: I64)
    requires region <= U64_MAX && initial <= U64_MAX && maxHeap <= U64_MAX
    requires direct <= I64_MAX && target <= I32_MAX
    ensures ParseGcFlags(Join(["CommandLine", "flags:"] + G1FlagLine(region, initial, direct, target, maxHeap), " "), physicalBytes)
      == Ok(GcFlags(G1GC, maxHeap as real / GIB as real, initial as real / GIB as real,
                    region as real / MIB as real, target, direct as real / GIB as real,
                    G1FlagLine(region, initial, direct, target, maxHeap)))
  {
    var xs := G1FlagLine(region, initial, direct, target, maxHeap);
    G1FlagLineSpaceFree(region, initial, direct, target, maxHeap);
    FlagTokensOfLine(xs);
    G1FlagLineInferred(region, initial, direct, target, maxHeap, physicalBytes);
  }

  /** `test_parse_gc_flags`: its "CommandLine flags: " line, read with 128
      decimal gigabytes of physical memory, is G1 with a 32 MiB region, a
      16 GiB maximum heap, an initial heap of 2048000000 bytes (about 1.907
      GiB) and a 500 ms goal. */
  lemma SampleFlagsInferred(region: nat, initial: nat, direct: nat, target: nat, maxHeap: nat)
    requires region == 33554432 && initial == 2048000000 && direct == 120259084288
    requires target == 500 && maxHeap == 17179869184
    ensures var line := Join(["CommandLine", "flags:"] + G1FlagLine(region, initial, direct, target, maxHeap), " ");
      && ParseGcFlags(line, 128000000000).Ok?
      && var f := ParseGcFlags(line, 128000000000).value;
      && f.collector == G1GC
      && f.regionSizeMb == 32.0
      && f.maxHeapSizeGb == 16.0
      && AbsReal(f.minHeapSizeGb - 1.907) <= 0.01
      && f.targetPauseMillis == 500
  {
    var line := Join(["CommandLine", "flags:"] + G1FlagLine(region, initial, direct, target, maxHeap), " ");
    G1FlagLineParses(region, initial, direct, target, maxHeap, 128000000000);
    SampleFields(ParseGcFlags(line, 128000000000).value, region, initial, direct, target, maxHeap);
  }

  /** The settings read from the test's five figures. */
  lemma SampleFields(f: GcFlags, region: nat, initial: nat, direct: nat, target: nat, maxHeap: nat)
    requires region == 33554432 && initial == 2048000000 && target == 500 && maxHeap == 17179869184
    requires f.collector == G1GC && f.regionSizeMb == region as real / MIB as real
    requires f.maxHeapSizeGb == maxHeap as real / GIB as real
    requires f.minHeapSizeGb == initial as real / GIB as real && f.targetPauseMillis == target
    ensures f.collector == G1GC && f.regionSizeMb == 32.0 && f.maxHeapSizeGb == 16.0
    ensures AbsReal(f.minHeapSizeGb - 1.907) <= 0.01 && f.targetPauseMillis == 500
  {
  }
}

=== FILE: g1gc.dfy ===
/** G1 collector settings read from the JVM flags (src/glog/g1gc.rs): the
    pause-time goal and the heap region size, with the JDK 8 defaults when
    the flags do not set them.
 */
module G1Gc {
  import opened Common
  import opened Strings
  import opened Convert

  const MAX_GC_PAUSE_MILLIS_FLAG: string := "-XX:MaxGCPauseMillis="
  const G1_HEAP_REGION_SIZE_FLAG: string := "-XX:G1HeapRegionSize="

  /** The G1 pause-time goal when no flag sets it. */
  const DEFAULT_TARGET_MILLIS: int := 200

  /** `get_g1_target_millis`: the value of the first "-XX:MaxGCPauseMillis="
      flag as an `i32`, else 200.  A value that is not an `i32` aborts. */
  function TargetMillis(flags: seq<string>): (r: Result<int>)
    ensures PrefixedValue(flags, MAX_GC_PAUSE_MILLIS_FLAG).None? ==> r == Ok(DEFAULT_TARGET_MILLIS)
    ensures PrefixedValue(flags, MAX_GC_PAUSE_MILLIS_FLAG).Some? ==>
      var text := PrefixedValue(flags, MAX_GC_PAUSE_MILLIS_FLAG).value;
      && (r.Ok? <==> ParseI32(text).Some?)
      && (r.Ok? ==> r.value == ParseI32(text).value && I32_MIN <= r.value <= I32_MAX)
  {
    match PrefixedValue(flags, MAX_GC_PAUSE_MILLIS_FLAG)
    case None => Ok(DEFAULT_TARGET_MILLIS)
    case Some(text) =>
      match ParseI32(text)
      case None => Panic("unable to parse string")
      case Some(n) => Ok(n)
  }

  /** The first pause-goal flag decides, whatever flags follow it. */
  lemma TargetMillisFirstFlag(before: seq<string>, n: int, after: seq<string>)
    requires I32_MIN <= n <= I32_MAX
    requires forall k :: 0 <= k < |before| ==> !StartsWith(before[k], MAX_GC_PAUSE_MILLIS_FLAG)
    ensures TargetMillis(before + [MAX_GC_PAUSE_MILLIS_FLAG + IntText(n)] + after) == Ok(n)
  {
    PrefixedValueFirst(before, MAX_GC_PAUSE_MILLIS_FLAG, IntText(n), after);
    ParseIntText(n, I32_MIN, I32_MAX);
  }

  /** Without a pause-goal flag the goal is 200 ms. */
  lemma TargetMillisDefault(flags: seq<string>)
    requires forall k :: 0 <= k < |flags| ==> !StartsWith(flags[k], MAX_GC_PAUSE_MILLIS_FLAG)
    ensures TargetMillis(flags) == Ok(200)
  {
  }

  /** `get_region_for_heap`: the region size in MiB `get_region_for_heap` assigns to a
      heap of `heapGb` GiB.  The heap is divided into 2048 regions, so the
      raw size in MiB is `heapGb / 2`; it is then bucketed by strict
      comparisons, so a raw size of exactly 2, 4, 8 or 16 MiB falls through
      to 32. */
  function RegionForHeap(heapGb: real): (r: real)
    ensures r in {1.0, 2.0, 4.0, 8.0, 16.0, 32.0}
  {
    var mb := heapGb / 2.0;
    if mb < 2.0 then 1.0
    else if 2.0 < mb < 4.0 then 2.0
    else if 4.0 < mb < 8.0 then 4.0
    else if 8.0 < mb < 16.0 then 8.0
    else if 16.0 < mb < 32.0 then 16.0
    else 32.0
  }

  predicate IsRegionSize(r: real) {
    r in {1.0, 2.0, 4.0, 8.0, 16.0, 32.0}
  }

  /** The JDK 8 rule the bucket table is taken from: the largest supported
      power of two not above `mb`, clamped to 1..32 MiB. */
  predicate RoundsDownTo(mb: real, r: real) {
    && IsRegionSize(r)
    && (r <= mb || r == 1.0)
    && (mb < 2.0 * r || r == 32.0)
  }

  /** At most one supported size is the round-down of a raw size. */
  lemma RoundDownUnique(mb: real, r: real, s: real)
    requires RoundsDownTo(mb, r) && RoundsDownTo(mb, s)
    ensures r == s
  {
  }

  /** Off the four exact boundaries the bucket table is the round-down rule. */
  lemma RegionForHeapRoundsDown(heapGb: real)
    requires heapGb / 2.0 !in {2.0, 4.0, 8.0, 16.0}
    ensures RoundsDownTo(heapGb / 2.0, RegionForHeap(heapGb))
  {
  }

  /** On the boundaries — heaps of exactly 4, 8, 16 and 32 GiB — the strict
      comparisons give 32 MiB where the round-down rule gives the boundary. */
  lemma RegionForHeapBoundaries()
    ensures RegionForHeap(4.0) == 32.0 && RoundsDownTo(2.0, 2.0)
    ensures RegionForHeap(8.0) == 32.0 && RoundsDownTo(4.0, 4.0)
    ensures RegionForHeap(16.0) == 32.0 && RoundsDownTo(8.0, 8.0)
    ensures RegionForHeap(32.0) == 32.0 && RoundsDownTo(16.0, 16.0)
  {
  }

  /** The table's worked values. */
  lemma RegionForHeapExamples()
    ensures RegionForHeap(1.0) == 1.0
    ensures RegionForHeap(4.01) == 2.0
    ensures RegionForHeap(8.01) == 4.0
    ensures RegionForHeap(16.01) == 8.0
    ensures RegionForHeap(32.01) == 16.0
    ensures RegionForHeap(64.01) == 32.0
    ensures RegionForHeap(128.01) == 32.0
  {
  }

  /** `get_g1_gc_region_size_mb`: the first "-XX:G1HeapRegionSize=" flag read
      as a byte count and converted to MiB without snapping to a power of
      two, else the size the bucket table gives the heap.  A value that is
      not an unsigned integer aborts. */
  function RegionSizeMb(heapGb: real, flags: seq<string>): (r: Result<real>)
    ensures PrefixedValue(flags, G1_HEAP_REGION_SIZE_FLAG).None? ==> r == Ok(RegionForHeap(heapGb))
    ensures PrefixedValue(flags, G1_HEAP_REGION_SIZE_FLAG).Some? ==>
      var text := PrefixedValue(flags, G1_HEAP_REGION_SIZE_FLAG).value;
      && (r.Ok? <==> ParseU64(text).Some?)
      && (r.Ok? ==> r.value * MIB as real == ParseU64(text).value as real)
  {
    match PrefixedValue(flags, G1_HEAP_REGION_SIZE_FLAG)
    case None => Ok(RegionForHeap(heapGb))
    case Some(text) =>
      match ParseU64(text)
      case None => Panic("unable to parse string")
      case Some(b) => Ok(BytesToMb(b))
  }

  /** An explicit region size wins over the heap, whatever the heap. */
  lemma RegionSizeFlagWins(heapGb: real, before: seq<string>, bytes: nat, after: seq<string>)
    requires bytes <= U64_MAX
    requires forall k :: 0 <= k < |before| ==> !StartsWith(before[k], G1_HEAP_REGION_SIZE_FLAG)
    ensures RegionSizeMb(heapGb, before + [G1_HEAP_REGION_SIZE_FLAG + Decimal(bytes)] + after)
      == Ok(bytes as real / MIB as real)
  {
    PrefixedValueFirst(before, G1_HEAP_REGION_SIZE_FLAG, Decimal(bytes), after);
    ParseDecimal(bytes, 0, U64_MAX);
  }

  /** A flag of 33554432 bytes is 32 MiB; 32000000 bytes stays at about 30.51. */
  lemma RegionSizeExamples()
    ensures BytesToMb(33554432) == 32.0
    ensures AbsReal(BytesToMb(32000000) - 30.51) <= 0.01
  {
  }
}

=== FILE: human.dfy ===
/** Unit selection for human-readable byte counts and durations
    (src/human.rs).  Each function there compares its argument with
    a cascade of thresholds, picks a unit suffix and prints the quotient with
    two decimals.  The model returns the chosen unit and the exact quotient;
    the decimal rendering is not part of it.
 */
module Human {
  import opened Common
  import opened Strings

  datatype ByteUnit = Tb | Gb | Mb | Kb | Bytes

  /** A byte count expressed as `value` units. */
  datatype ByteAmount = ByteAmount(unit: ByteUnit, value: real)

  /** The two families of units: powers of 1024 and powers of 1000. */
  datatype Base = Base1024 | Base1000

  /** The number of bytes a unit stands for. */
  function ByteScale(unit: ByteUnit, base: Base): nat {
    match (unit, base)
    case (Tb, Base1024) => 1024 * 1024 * 1024 * 1024
    case (Gb, Base1024) => 1024 * 1024 * 1024
    case (Mb, Base1024) => 1024 * 1024
    case (Kb, Base1024) => 1024
    case (Tb, Base1000) => 1000 * 1000 * 1000 * 1000
    case (Gb, Base1000) => 1000 * 1000 * 1000
    case (Mb, Base1000) => 1000 * 1000
    case (Kb, Base1000) => 1000
    case (Bytes, _) => 1
  }

  /** The cascade shared by every byte formatter: the largest unit whose
      scale the count strictly exceeds, else plain bytes. */
  function ByteCascade(bytes: int, base: Base): (r: ByteAmount)
    ensures r.value * ByteScale(r.unit, base) as real == bytes as real
    ensures r.unit == Tb <==> bytes > ByteScale(Tb, base)
    ensures r.unit == Gb <==> ByteScale(Gb, base) < bytes <= ByteScale(Tb, base)
    ensures r.unit == Mb <==> ByteScale(Mb, base) < bytes <= ByteScale(Gb, base)
    ensures r.unit == Kb <==> ByteScale(Kb, base) < bytes <= ByteScale(Mb, base)
    ensures r.unit == Bytes <==> bytes <= ByteScale(Kb, base)
  {
    var u :=
      if bytes > ByteScale(Tb, base) then Tb
      else if bytes > ByteScale(Gb, base) then Gb
      else if bytes > ByteScale(Mb, base) then Mb
      else if bytes > ByteScale(Kb, base) then Kb
      else Bytes;
    ByteAmount(u, bytes as real / ByteScale(u, base) as real)
  }

  /** `human_bytes`: binary units. */
  function HumanBytes(bytes: I64): ByteAmount {
    ByteCascade(bytes, Base1024)
  }

  /** `human_bytes_i128`: the same cascade over a wider integer. */
  function HumanBytesI128(bytes: I128): ByteAmount {
    ByteCascade(bytes, Base1024)
  }

  /** `human_bytes_base_1k`: decimal units. */
  function HumanBytesBase1k(bytes: I64): ByteAmount {
    ByteCascade(bytes, Base1000)
  }

  /** Outside the unbounded top unit, a chosen unit leaves a quotient in
      `(1, step]`, where `step` is 1024 or 1000: the unit is neither too
      small nor too large. */
  lemma CascadeQuotientInRange(bytes: int, base: Base)
    ensures var r := ByteCascade(bytes, base);
      r.unit != Tb && r.unit != Bytes ==> 1.0 < r.value <= ByteScale(Kb, base) as real
    ensures ByteCascade(bytes, base).unit == Tb ==> ByteCascade(bytes, base).value > 1.0
  {
  }

  function ByteRank(u: ByteUnit): nat {
    match u
    case Bytes => 0
    case Kb => 1
    case Mb => 2
    case Gb => 3
    case Tb => 4
  }

  /** A larger count never gets a smaller unit. */
  lemma CascadeMonotone(a: int, b: int, base: Base)
    requires a <= b
    ensures ByteRank(ByteCascade(a, base).unit) <= ByteRank(ByteCascade(b, base).unit)
  {
  }

  /** `human_bytes_i128` chooses the unit `human_bytes` chooses, and the same
      quotient, on every value an `i64` can hold. */
  lemma I128AgreesWithI64(bytes: I64)
    ensures HumanBytesI128(bytes) == HumanBytes(bytes)
  {
  }

  /** The thresholds are strict: exactly 1024 bytes stays in bytes, one more is kb;
      128,000,000,000 bytes is 128 decimal gigabytes. */
  lemma ByteBoundaries()
    ensures HumanBytes(1024) == ByteAmount(Bytes, 1024.0)
    ensures HumanBytes(1025).unit == Kb
    ensures HumanBytes(1024 * 1024 * 1024 * 1024 + 1).unit == Tb
    ensures HumanBytesBase1k(128000000000) == ByteAmount(Gb, 128.0)
  {
  }

  datatype DurationUnit = Days | Hours | Minutes | Seconds | Milliseconds

  datatype DurationAmount = DurationAmount(unit: DurationUnit, value: real)

  const SECOND: int := 1000
  const MINUTE: int := SECOND * 60
  const HOUR: int := MINUTE * 60
  const DAY: int := HOUR * 24

  /** Milliseconds a duration unit stands for. */
  function DurationScale(unit: DurationUnit): nat {
    match unit
    case Days => DAY
    case Hours => HOUR
    case Minutes => MINUTE
    case Seconds => SECOND
    case Milliseconds => 1
  }

  /** The milliseconds a duration amount denotes. */
  function Millis(d: DurationAmount): real {
    d.value * DurationScale(d.unit) as real
  }

  /** `human_duration`: the largest unit the millisecond count strictly exceeds. */
  function HumanDuration(millis: I64): (r: DurationAmount)
    ensures Millis(r) == millis as real
    ensures r.unit == Days <==> millis > DAY
    ensures r.unit == Hours <==> HOUR < millis <= DAY
    ensures r.unit == Minutes <==> MINUTE < millis <= HOUR
    ensures r.unit == Seconds <==> SECOND < millis <= MINUTE
    ensures r.unit == Milliseconds <==> millis <= SECOND
  {
    if millis > DAY then DurationAmount(Days, millis as real / DAY as real)
    else if millis > HOUR then DurationAmount(Hours, millis as real / HOUR as real)
    else if millis > MINUTE then DurationAmount(Minutes, millis as real / MINUTE as real)
    else if millis > SECOND then DurationAmount(Seconds, millis as real / SECOND as real)
    else DurationAmount(Milliseconds, millis as real)
  }

  lemma DurationBoundaries()
    ensures HumanDuration(1000) == DurationAmount(Milliseconds, 1000.0)
    ensures HumanDuration(1001).unit == Seconds
    ensures HumanDuration(90000) == DurationAmount(Minutes, 1.5)
  {
  }

  /** What `human_metric` renders for a metric, by the suffix of its name. */
  datatype MetricDisplay = BytesMetric(bytes: ByteAmount) | DurationMetric(duration: DurationAmount) | Blank

  /** `human_metric`: byte counters and nanosecond timers by name suffix;
      nanoseconds become milliseconds by Rust's truncating division. */
  function HumanMetric(name: string, value: I64): (r: MetricDisplay)
    ensures r.BytesMetric? <==> EndsWith(name, "BYTES_READ")
    ensures r.DurationMetric? <==> !EndsWith(name, "BYTES_READ") && EndsWith(name, "_NS")
    ensures r.BytesMetric? ==> r.bytes.value * ByteScale(r.bytes.unit, Base1024) as real == value as real
    ensures r.DurationMetric? ==>
      var ns := Millis(r.duration) * 1000000.0;
      && (value >= 0 ==> 0.0 <= ns <= value as real < ns + 1000000.0)
      && (value < 0 ==> ns - 1000000.0 < value as real <= ns <= 0.0)
  {
    if EndsWith(name, "BYTES_READ") then BytesMetric(HumanBytes(value))
    else if EndsWith(name, "_NS") then
      var ms := TruncDiv(value, 1000000);
      DurationMetric(HumanDuration(ms))
    else Blank
  }

  /** Negative nanosecond counts round toward zero, not down. */
  lemma MetricTruncatesTowardZero()
    ensures HumanMetric("QUERY_NS", -1500000) == DurationMetric(DurationAmount(Milliseconds, -1.0))
    ensures HumanMetric("WAIT", 5) == Blank
  {
  }
}

=== FILE: jvmstats.dfy ===
/** The JVM banner and physical-memory header lines (src/glog/jvmstats.rs). */
module JvmStats {
  import opened Common
  import opened Strings
  import opened Human

  /** Physical memory as read from the "Memory: " header line: the byte count
      and the decimal-unit amount printed after "Total System RAM:    ". */
  datatype MemoryStats = MemoryStats(display: ByteAmount, bytes: I64)

  /** Memory statistics before any "Memory: " line has been read. */
  const NoMemoryStats: MemoryStats := MemoryStats(ByteAmount(Bytes, 0.0), 0)

  /** The kilobyte count of a memory line: the fifth space-separated token,
      cut at its first '(' and stripped of trailing 'k's. */
  function MemoryKilobytesText(line: string): Option<string> {
    var tokens := Split(line, " ");
    if |tokens| < 5 then None
    else Some(TrimEndChar(Split(tokens[4], "(")[0], 'k'))
  }

  /** `parse_memory`.  The count is in kilobytes of 1000 bytes.  A line with
      fewer than five tokens, a count that is not an `i64`, or a byte total
      that overflows `i64` aborts the program. */
  function ParseMemory(line: string): (r: Result<MemoryStats>)
    ensures r.Ok? ==> r.value.bytes % 1000 == 0
    ensures r.Ok? ==> (MemoryKilobytesText(line).Some?
      && ParseI64(MemoryKilobytesText(line).value) == Some(r.value.bytes / 1000))
    ensures r.Ok? ==> r.value.display == HumanBytesBase1k(r.value.bytes)
    ensures r.Panic? ==> (MemoryKilobytesText(line).None?
      || ParseI64(MemoryKilobytesText(line).value).None?
      || !(I64_MIN <= ParseI64(MemoryKilobytesText(line).value).value * 1000 <= I64_MAX))
  {
    match MemoryKilobytesText(line)
    case None => Panic("index out of bounds: fewer than five tokens in the memory line")
    case Some(text) =>
      match ParseI64(text)
      case None => Panic("called `Result::unwrap()` on an `Err` value: ParseIntError")
      case Some(k) =>
        var bytes := k * 1000;
        if I64_MIN <= bytes <= I64_MAX then
          Ok(MemoryStats(HumanBytesBase1k(bytes), bytes))
        else
          Panic("attempt to multiply with overflow")
  }

  /** The memory header as the JVM writes it, for a physical size of `k`
      kilobytes: "Memory: <page> page, physical <k>k(<rest>". */
  function MemoryLine(page: string, k: nat, rest: string): string {
    "Memory:" + (" " + (page + (" " + ("page," + (" " + ("physical" + (" " + (Decimal(k) + "k(" + rest))))))))
  }

  /** The fifth token of a memory header is the size, "k(" and the free
      count up to the next space. */
  lemma MemoryLineFifthToken(page: string, k: nat, rest: string)
    requires ' ' !in page
    ensures |Split(MemoryLine(page, k, rest), " ")| >= 5
    ensures Split(MemoryLine(page, k, rest), " ")[4] == Decimal(k) + "k(" + Split(rest, " ")[0]
  {
    MemoryLineWords(page, k, rest);
    SizeToken(Decimal(k), rest);
  }

  /** The four words before the size. */
  lemma MemoryLineWords(page: string, k: nat, rest: string)
    requires ' ' !in page
    ensures Split(MemoryLine(page, k, rest), " ")
      == ["Memory:"] + ([page] + (["page,"] + (["physical"] + Split(Decimal(k) + "k(" + rest, " "))))
  {
    var tail := Decimal(k) + "k(" + rest;
    var s3 := "physical" + (" " + tail);
    var s2 := "page," + (" " + s3);
    var s1 := page + (" " + s2);
    HeaderWords();
    SplitWordSpace("physical", tail);
    SplitWordSpace("page,", s3);
    SplitWordSpace(page, s2);
    SplitWordSpace("Memory:", s1);
  }

  lemma HeaderWords()
    ensures ' ' !in "Memory:" && ' ' !in "page," && ' ' !in "physical"
  {
  }

  /** A word and a space split off the front. */
  lemma SplitWordSpace(w: string, s: string)
    requires ' ' !in w
    ensures Split(w + (" " + s), " ") == [w] + Split(s, " ")
  {
    assert " " == [' '];
    SplitConsRight(w, ' ', s);
  }

  /** The size token runs up to the first space after "k(". */
  lemma SizeToken(d: string, rest: string)
    requires AllDigits(d)
    ensures Split(d + "k(" + rest, " ")[0] == d + "k(" + Split(rest, " ")[0]
  {
    DigitsHaveNo(d, ' ');
    assert ' ' !in d + "k(";
    assert " " == [' '];
    SplitHead(d + "k(", rest, ' ');
  }

  /** Cutting the fifth token at '(' and dropping the 'k' leaves the digits. */
  lemma {:induction false} KilobyteToken(d: string, free: string)
    requires |d| > 0 && AllDigits(d)
    ensures TrimEndChar(Split(d + "k(" + free, "(")[0], 'k') == d
  {
    DigitsHaveNo(d, '(');
    assert '(' !in d + "k";
    assert d + "k(" + free == (d + "k") + ("" + "(" + free);
    SplitHead(d + "k", "" + "(" + free, '(');
    SplitCons("", '(', free);
    assert Split(d + "k(" + free, "(")[0] == d + "k";
    assert (d + "k")[..|d|] == d;
    assert IsDigit(d[|d| - 1]);
  }

  /** Reading back a memory header recovers the physical size, times 1000. */
  lemma {:induction false} ParseMemoryLine(page: string, k: nat, rest: string)
    requires ' ' !in page
    requires k * 1000 <= I64_MAX
    ensures MemoryKilobytesText(MemoryLine(page, k, rest)) == Some(Decimal(k))
    ensures ParseMemory(MemoryLine(page, k, rest)).Ok?
    ensures ParseMemory(MemoryLine(page, k, rest)).value.bytes == k * 1000
  {
    MemoryLineFifthToken(page, k, rest);
    KilobyteToken(Decimal(k), Split(rest, " ")[0]);
    ParseDecimal(k, I64_MIN, I64_MAX);
  }

  /** The header line of the memory test: 128,000,000 kilobytes is 128 decimal gigabytes. */
  lemma ParseMemoryExample()
    ensures ParseMemory(MemoryLine("4k", 128000000, "127996468k free), swap 0k(0k free)")).Ok?
    ensures ParseMemory(MemoryLine("4k", 128000000, "127996468k free), swap 0k(0k free)")).value
      == MemoryStats(ByteAmount(Gb, 128.0), 128000000000)
  {
    var page := "4k";
    assert ' ' !in page by {
      assert page == ['4', 'k'];
    }
    ParseMemoryLine(page, 128000000, "127996468k free), swap 0k(0k free)");
    ByteBoundaries();
  }

  /** `parse_jdk_stats`: the banner line is kept verbatim. */
  function ParseJdkStats(line: string): (r: string)
    ensures r == line
  {
    line
  }
}

=== FILE: pause_scan.dfy ===
/** The character scanner inside `parse_gc_pause` (src/glog/pauses.rs,
    the loop over the record text).  It tracks bracket depth and reads, at
    depth 1 only, the first word after the first '[' (the collection kind),
    the parenthesised attributes and the seconds token that follows a comma.
    It stops when the first top-level bracket closes or when the seconds
    token ends.
 */
module PauseScan {
  import opened Strings

  /** The scanner's variables. */
  datatype Scan = Scan(
    open: nat,            // '[' seen
    closed: nat,          // ']' seen
    typeText: string,     // the word read after the first '['
    looking: bool,        // still reading that word
    isFull: bool,         // that word was "Full"
    inAttr: bool,         // inside a parenthesised attribute
    attr: string,         // the attribute being read
    attrs: seq<string>,   // the attributes kept so far
    inSecs: bool,         // a depth-1 comma has been seen
    secs: string,         // the seconds token read so far
    stopped: bool)        // the loop has broken out

  const Start: Scan := Scan(0, 0, "", false, false, false, "", [], false, "", false)

  /** Rust's `char::is_numeric`, restricted to the ASCII digits. */
  predicate AnyDigit(s: string) {
    exists i | 0 <= i < |s| :: IsDigit(s[i])
  }

  /** Attributes that mention a number, such as heap sizes "(26456064K)", are
      dropped, unless they name the G1 collector. */
  predicate KeepAttribute(a: string) {
    !AnyDigit(a) || Contains(a, "G1")
  }

  /** The characters the scanner reacts to outside the collection word. */
  predicate Special(c: char) {
    c == '[' || c == ']' || c == '(' || c == ')' || c == ','
  }

  /** Text made only of characters the scanner passes over. */
  predicate Plain(t: string) {
    forall i :: 0 <= i < |t| ==> !Special(t[i])
  }

  predicate Spaceless(t: string) {
    forall i :: 0 <= i < |t| ==> t[i] != ' '
  }

  /** The scanner is reading at bracket depth 1, or before any bracket. */
  predicate Counted(s: Scan) {
    !(s.open - s.closed != 1 && s.open > 0)
  }

  /** One iteration of the loop, for a character `c` of the record. */
  function Step(s: Scan, c: char): (r: Scan)
    ensures r.open == s.open + (if c == '[' then 1 else 0)
    ensures r.closed == s.closed + (if c == ']' then 1 else 0)
    ensures s.stopped ==> r.stopped
    ensures r.stopped && !s.stopped ==> (c == ']' && r.closed == r.open) || (c == ' ' && s.inSecs && s.secs != "")
    ensures |r.attrs| > |s.attrs| ==> c == ')' && r.attrs == s.attrs + [s.attr] && KeepAttribute(s.attr)
    ensures |r.attrs| <= |s.attrs| ==> r.attrs == s.attrs
  {
    if c == '[' then
      s.(open := s.open + 1, looking := if s.typeText == "" then true else s.looking)
    else if c == ']' then
      s.(closed := s.closed + 1, stopped := s.stopped || s.closed + 1 == s.open)
    else if !Counted(s) then s
    else if s.looking then
      if c == ' ' && s.typeText != "" then
        s.(looking := false, isFull := s.isFull || s.typeText == "Full")
      else s.(typeText := s.typeText + [c])
    else if c == ',' then s.(inSecs := true)
    else if c == '(' then s.(inAttr := true)
    else if c == ')' then
      s.(inAttr := false, attrs := if KeepAttribute(s.attr) then s.attrs + [s.attr] else s.attrs, attr := "")
    else if s.inAttr then s.(attr := s.attr + [c])
    else if s.inSecs then
      if c == ' ' then (if s.secs != "" then s.(stopped := true) else s)
      else s.(secs := s.secs + [c])
    else s
  }

  /** The loop run over `t` from state `s`, breaking out once stopped. */
  function ScanFrom(s: Scan, t: string): (r: Scan)
    decreases |t|
    ensures s.stopped ==> r == s
    ensures (forall i :: 0 <= i < |s.attrs| ==> KeepAttribute(s.attrs[i])) ==>
      forall i :: 0 <= i < |r.attrs| ==> KeepAttribute(r.attrs[i])
    ensures |s.attrs| <= |r.attrs| && r.attrs[..|s.attrs|] == s.attrs
  {
    if |t| == 0 then s
    else
      var p := ScanFrom(s, t[..|t| - 1]);
      if p.stopped then p else Step(p, t[|t| - 1])
  }

  /** The loop run over a whole record. */
  function ScanRecord(t: string): (r: Scan)
    ensures forall i :: 0 <= i < |r.attrs| ==> KeepAttribute(r.attrs[i])
  {
    ScanFrom(Start, t)
  }

  /** Scanning two texts in turn is scanning their concatenation. */
  lemma {:induction false} ScanFromAppend(s: Scan, a: string, b: string)
    ensures ScanFrom(s, a + b) == ScanFrom(ScanFrom(s, a), b)
    decreases |b|
  {
    if |b| == 0 {
      assert a + b == a;
    } else {
      assert (a + b)[..|a + b| - 1] == a + b[..|b| - 1];
      assert (a + b)[|a + b| - 1] == b[|b| - 1];
      ScanFromAppend(s, a, b[..|b| - 1]);
    }
  }

  /** Scanning a single character is one step of the loop. */
  lemma ScanOne(s: Scan, c: char)
    ensures ScanFrom(s, [c]) == if s.stopped then s else Step(s, c)
  {
    assert [c][..0] == [];
  }

  /** Once the loop has broken out, no later text changes the result. */
  lemma StoppedStaysStopped(t: string, more: string)
    requires ScanRecord(t).stopped
    ensures ScanRecord(t + more) == ScanRecord(t)
  {
    ScanFromAppend(Start, t, more);
  }

  /** A state from which the scanner passes over plain characters. */
  predicate Idle(s: Scan) {
    !s.looking && !s.inAttr && !s.inSecs && !s.stopped
  }

  /** Plain text does nothing to an idle scanner. */
  lemma {:induction false} IdlePlain(s: Scan, t: string)
    requires Idle(s) && Plain(t)
    ensures ScanFrom(s, t) == s
    decreases |t|
  {
    if |t| > 0 {
      IdlePlain(s, t[..|t| - 1]);
    }
  }

  /** Inside the collection word, plain spaceless characters are appended to it. */
  lemma {:induction false} ReadWord(s: Scan, w: string)
    requires s.looking && !s.stopped && s.open - s.closed == 1
    requires Plain(w) && Spaceless(w)
    ensures ScanFrom(s, w) == s.(typeText := s.typeText + w)
    decreases |w|
  {
    if |w| == 0 {
      assert s.typeText + w == s.typeText;
    } else {
      var w' := w[..|w| - 1];
      ReadWord(s, w');
      assert s.typeText + w' + [w[|w| - 1]] == s.typeText + w;
    }
  }

  /** Inside an attribute, plain characters are appended to it. */
  lemma {:induction false} ReadAttr(s: Scan, a: string)
    requires s.inAttr && !s.looking && !s.stopped && s.open - s.closed == 1
    requires Plain(a)
    ensures ScanFrom(s, a) == s.(attr := s.attr + a)
    decreases |a|
  {
    if |a| == 0 {
      assert s.attr + a == s.attr;
    } else {
      var a' := a[..|a| - 1];
      ReadAttr(s, a');
      assert s.attr + a' + [a[|a| - 1]] == s.attr + a;
    }
  }

  /** After the comma, plain spaceless characters are appended to the seconds token. */
  lemma {:induction false} ReadSecs(s: Scan, x: string)
    requires s.inSecs && !s.inAttr && !s.looking && !s.stopped && s.open - s.closed == 1
    requires Plain(x) && Spaceless(x)
    ensures ScanFrom(s, x) == s.(secs := s.secs + x)
    decreases |x|
  {
    if |x| == 0 {
      assert s.secs + x == s.secs;
    } else {
      var x' := x[..|x| - 1];
      ReadSecs(s, x');
      assert s.secs + x' + [x[|x| - 1]] == s.secs + x;
    }
  }

  /** A parenthesised attribute at depth 1 is kept or dropped as a whole. */
  lemma {:induction false} ReadParenthesised(s: Scan, a: string)
    requires Idle(s) && s.open - s.closed == 1 && s.attr == ""
    requires Plain(a)
    ensures ScanFrom(s, "(" + a + ")")
      == s.(attrs := if KeepAttribute(a) then s.attrs + [a] else s.attrs)
  {
    var s1 := s.(inAttr := true);
    assert ScanFrom(s, "(") == s1 by {
      ScanOne(s, '(');
    }
    var s2 := s1.(attr := a);
    assert ScanFrom(s, "(" + a) == s2 by {
      ScanFromAppend(s, "(", a);
      ReadAttr(s1, a);
      assert s1.attr + a == a;
    }
    assert ScanFrom(s2, ")") == s.(attrs := if KeepAttribute(a) then s.attrs + [a] else s.attrs) by {
      ScanOne(s2, ')');
      CloseAttr(s2);
    }
    ScanFromAppend(s, "(" + a, ")");
  }

  /** The step for a ')' that ends an attribute. */
  lemma CloseAttr(s: Scan)
    requires s.inAttr && !s.looking && !s.stopped && s.open - s.closed == 1
    ensures Step(s, ')') == s.(inAttr := false, attrs := if KeepAttribute(s.attr) then s.attrs + [s.attr] else s.attrs, attr := "")
  {
  }

  /** What may follow the collection word inside the top-level bracket:
      plain filler and then either a parenthesised attribute or a nested
      bracket pair (a G1Ergonomics or reference-processing sub-record). */
  datatype Group = Paren(filler: string, attr: string) | Bracketed(filler: string, inner: string)

  /** A group as the log writes it. */
  function GroupText(g: Group): string {
    match g
    case Paren(f, a) => f + "(" + a + ")"
    case Bracketed(f, x) => f + "[" + x + "]"
  }

  function GroupsText(gs: seq<Group>): string
    decreases |gs|
  {
    if |gs| == 0 then "" else GroupText(gs[0]) + GroupsText(gs[1..])
  }

  /** A group the scanner reads without surprises: plain filler and attribute,
      and no bracket inside a nested pair. */
  predicate WellFormed(g: Group) {
    && Plain(g.filler)
    && match g
       case Paren(_, a) => Plain(a)
       case Bracketed(_, x) => forall i :: 0 <= i < |x| ==> x[i] != '[' && x[i] != ']'
  }

  predicate AllWellFormed(gs: seq<Group>) {
    forall k :: 0 <= k < |gs| ==> WellFormed(gs[k])
  }

  /** The attribute texts of the parenthesised groups, in order. */
  function AttrsOf(gs: seq<Group>): seq<string>
    decreases |gs|
  {
    if |gs| == 0 then []
    else (if gs[0].Paren? then [gs[0].attr] else []) + AttrsOf(gs[1..])
  }

  /** The number of nested bracket pairs. */
  function NestedCount(gs: seq<Group>): nat
    decreases |gs|
  {
    if |gs| == 0 then 0 else (if gs[0].Bracketed? then 1 else 0) + NestedCount(gs[1..])
  }

  /** Group texts and attribute lists distribute over concatenation. */
  lemma GroupsAppend(a: seq<Group>, b: seq<Group>)
    ensures GroupsText(a + b) == GroupsText(a) + GroupsText(b)
    ensures AttrsOf(a + b) == AttrsOf(a) + AttrsOf(b)
  {
    GroupsTextAppend(a, b);
    AttrsOfAppend(a, b);
  }

  lemma {:induction false} GroupsTextAppend(a: seq<Group>, b: seq<Group>)
    ensures GroupsText(a + b) == GroupsText(a) + GroupsText(b)
    decreases |a|
  {
    if |a| == 0 {
      assert a + b == b;
    } else {
      assert (a + b)[0] == a[0];
      assert (a + b)[1..] == a[1..] + b;
      GroupsTextAppend(a[1..], b);
      AppendAssoc(GroupText(a[0]), GroupsText(a[1..]), GroupsText(b));
    }
  }

  lemma {:induction false} AttrsOfAppend(a: seq<Group>, b: seq<Group>)
    ensures AttrsOf(a + b) == AttrsOf(a) + AttrsOf(b)
    decreases |a|
  {
    if |a| == 0 {
      assert a + b == b;
    } else {
      assert (a + b)[0] == a[0];
      assert (a + b)[1..] == a[1..] + b;
      AttrsOfAppend(a[1..], b);
      AppendAssoc(if a[0].Paren? then [a[0].attr] else [], AttrsOf(a[1..]), AttrsOf(b));
    }
  }

  lemma GroupsSingle(g: Group)
    ensures GroupsText([g]) == GroupText(g)
    ensures AttrsOf([g]) == if g.Paren? then [g.attr] else []
  {
    assert [g][1..] == [];
  }

  /** The attributes the scanner keeps. */
  function Kept(attrs: seq<string>): (r: seq<string>)
    decreases |attrs|
    ensures |r| <= |attrs|
  {
    if |attrs| == 0 then []
    else (if KeepAttribute(attrs[0]) then [attrs[0]] else []) + Kept(attrs[1..])
  }

  lemma KeptCons(prefix: seq<string>, attrs: seq<string>)
    requires |attrs| > 0
    ensures (if KeepAttribute(attrs[0]) then prefix + [attrs[0]] else prefix) + Kept(attrs[1..])
      == prefix + Kept(attrs)
  {
    var keep := KeepAttribute(attrs[0]);
    var head := if keep then [attrs[0]] else [];
    assert Kept(attrs) == head + Kept(attrs[1..]);
    PickAppend(keep, prefix, attrs[0]);
    AppendAssoc(prefix, head, Kept(attrs[1..]));
  }

  /** Appending an element or not is appending a list of at most one. */
  lemma PickAppend<T>(b: bool, prefix: seq<T>, x: T)
    ensures (if b then prefix + [x] else prefix) == prefix + (if b then [x] else [])
  {
    if !b {
      assert prefix + [] == prefix;
    }
  }

  /** The scanner inside the top-level bracket, after the collection word,
      between groups. */
  predicate Reading(s: Scan) {
    Idle(s) && s.open - s.closed == 1 && s.attr == "" && s.typeText != ""
  }

  /** One group: an attribute is kept or dropped, a nested pair only moves
      the bracket counts. */
  lemma {:induction false} ReadGroup(s: Scan, g: Group)
    requires Reading(s) && WellFormed(g)
    ensures ScanFrom(s, GroupText(g)) == AfterGroup(s, g)
  {
    var f := g.filler;
    assert ScanFrom(s, f) == s by {
      IdlePlain(s, f);
    }
    match g
    case Paren(_, a) =>
      assert GroupText(g) == f + ("(" + a + ")");
      ScanFromAppend(s, f, "(" + a + ")");
      ReadParenthesised(s, a);
    case Bracketed(_, x) =>
      assert GroupText(g) == f + ("[" + x + "]");
      ScanFromAppend(s, f, "[" + x + "]");
      NestedGroupIgnored(s, x);
  }

  lemma GroupsTextCons(s: Scan, gs: seq<Group>)
    requires |gs| > 0
    ensures ScanFrom(s, GroupsText(gs)) == ScanFrom(ScanFrom(s, GroupText(gs[0])), GroupsText(gs[1..]))
  {
    ScanFromAppend(s, GroupText(gs[0]), GroupsText(gs[1..]));
  }

  /** The scan state after a run of groups. */
  function AfterGroups(s: Scan, gs: seq<Group>): Scan {
    s.(open := s.open + NestedCount(gs), closed := s.closed + NestedCount(gs),
      attrs := s.attrs + Kept(AttrsOf(gs)))
  }

  /** What the first group does to the scan state. */
  function AfterGroup(s: Scan, g: Group): Scan {
    match g
    case Paren(_, a) => s.(attrs := if KeepAttribute(a) then s.attrs + [a] else s.attrs)
    case Bracketed(_, _) => s.(open := s.open + 1, closed := s.closed + 1)
  }

  /** The effect of a non-empty run is the first group's effect followed by
      the rest's. */
  lemma AfterGroupsCons(s: Scan, gs: seq<Group>)
    requires |gs| > 0
    ensures AfterGroups(AfterGroup(s, gs[0]), gs[1..]) == AfterGroups(s, gs)
  {
    if gs[0].Paren? {
      AfterParenCons(s, gs);
    } else {
      AfterBracketedCons(s, gs);
    }
  }

  lemma AfterParenCons(s: Scan, gs: seq<Group>)
    requires |gs| > 0 && gs[0].Paren?
    ensures AfterGroups(AfterGroup(s, gs[0]), gs[1..]) == AfterGroups(s, gs)
  {
    var a := gs[0].attr;
    var rest := gs[1..];
    assert AttrsOf(gs) == [a] + AttrsOf(rest);
    assert AttrsOf(gs)[0] == a && AttrsOf(gs)[1..] == AttrsOf(rest);
    KeptCons(s.attrs, AttrsOf(gs));
    assert NestedCount(gs) == NestedCount(rest);
  }

  lemma AfterBracketedCons(s: Scan, gs: seq<Group>)
    requires |gs| > 0 && gs[0].Bracketed?
    ensures AfterGroups(AfterGroup(s, gs[0]), gs[1..]) == AfterGroups(s, gs)
  {
    var rest := gs[1..];
    assert AttrsOf(gs) == [] + AttrsOf(rest);
    assert [] + AttrsOf(rest) == AttrsOf(rest);
    assert NestedCount(gs) == 1 + NestedCount(rest);
  }

  /** A run of groups leaves exactly the kept attributes, in order, and
      raises both bracket counts by the number of nested pairs. */
  lemma {:induction false} ReadGroups(s: Scan, gs: seq<Group>)
    requires Reading(s) && AllWellFormed(gs)
    ensures ScanFrom(s, GroupsText(gs)) == AfterGroups(s, gs)
    decreases |gs|
  {
    if |gs| == 0 {
      assert AttrsOf(gs) == [] && NestedCount(gs) == 0;
      assert s.attrs + Kept([]) == s.attrs;
      assert GroupsText(gs) == "";
      assert AfterGroups(s, gs) == s;
    } else {
      var rest := gs[1..];
      assert AllWellFormed(rest) by {
        assert forall k :: 0 <= k < |rest| ==> rest[k] == gs[k + 1];
      }
      GroupsTextCons(s, gs);
      ReadGroup(s, gs[0]);
      ReadGroups(AfterGroup(s, gs[0]), rest);
      AfterGroupsCons(s, gs);
    }
  }

  /** ", x " at depth 1 reads the seconds token `x` and stops the loop. */
  lemma {:induction false} ReadSecondsToken(s: Scan, x: string)
    requires Idle(s) && s.open - s.closed == 1 && s.secs == ""
    requires |x| > 0 && Plain(x) && Spaceless(x)
    ensures ScanFrom(s, ", " + x + " ") == s.(inSecs := true, secs := x, stopped := true)
  {
    var s1 := s.(inSecs := true);
    assert ScanFrom(s, ", ") == s1 by {
      SecondsComma(s);
    }
    var s2 := s1.(secs := x);
    assert ScanFrom(s1, x) == s2 by {
      ReadSecs(s1, x);
      assert s1.secs + x == x;
    }
    assert ScanFrom(s2, " ") == s.(inSecs := true, secs := x, stopped := true) by {
      ScanOne(s2, ' ');
      SecondsEnd(s2);
    }
    ScanFromAppend(s, ", ", x);
    ScanFromAppend(s, ", " + x, " ");
  }

  /** ", " switches the seconds mode on; the space before the token is skipped. */
  lemma SecondsComma(s: Scan)
    requires Idle(s) && s.open - s.closed == 1 && s.secs == ""
    ensures ScanFrom(s, ", ") == s.(inSecs := true)
  {
    var s1 := s.(inSecs := true);
    assert ScanFrom(s, ",") == s1 by {
      ScanOne(s, ',');
      CommaStep(s);
    }
    assert ScanFrom(s1, " ") == s1 by {
      ScanOne(s1, ' ');
      LeadingSpaceStep(s1);
    }
    assert ", " == "," + " ";
    ScanFromAppend(s, ",", " ");
  }

  lemma CommaStep(s: Scan)
    requires Idle(s) && s.open - s.closed == 1 && s.secs == ""
    ensures Step(s, ',') == s.(inSecs := true)
  {
  }

  lemma LeadingSpaceStep(s: Scan)
    requires s.inSecs && !s.inAttr && !s.looking && !s.stopped && s.open - s.closed == 1 && s.secs == ""
    ensures Step(s, ' ') == s
  {
  }

  /** A space after a non-empty seconds token breaks out of the loop. */
  lemma SecondsEnd(s: Scan)
    requires s.inSecs && !s.inAttr && !s.looking && !s.stopped && s.open - s.closed == 1 && s.secs != ""
    ensures Step(s, ' ') == s.(stopped := true)
  {
  }

  /** Characters inside a nested bracket pair are ignored: scanning
      "[x]" at depth 1, after the collection word, only moves both
      bracket counts up by one. */
  lemma {:induction false} NestedGroupIgnored(s: Scan, x: string)
    requires !s.stopped && s.open - s.closed == 1 && s.typeText != ""
    requires forall i :: 0 <= i < |x| ==> x[i] != '[' && x[i] != ']'
    ensures ScanFrom(s, "[" + x + "]") == s.(open := s.open + 1, closed := s.closed + 1)
  {
    var s1 := s.(open := s.open + 1);
    assert ScanFrom(s, "[") == s1 by {
      ScanOne(s, '[');
      NestedOpenStep(s);
    }
    assert ScanFrom(s, "[" + x) == s1 by {
      ScanFromAppend(s, "[", x);
      Nested(s1, x);
    }
    assert ScanFrom(s1, "]") == s.(open := s.open + 1, closed := s.closed + 1) by {
      ScanOne(s1, ']');
      NestedCloseStep(s1);
    }
    ScanFromAppend(s, "[" + x, "]");
  }

  lemma NestedOpenStep(s: Scan)
    requires !s.stopped && s.open - s.closed == 1 && s.typeText != ""
    ensures Step(s, '[') == s.(open := s.open + 1)
  {
  }

  lemma NestedCloseStep(s: Scan)
    requires !s.stopped && s.open - s.closed == 2
    ensures Step(s, ']') == s.(closed := s.closed + 1)
  {
  }

  /** At depth 2 or more nothing but brackets is seen. */
  lemma {:induction false} Nested(s: Scan, x: string)
    requires !s.stopped && s.open - s.closed == 2
    requires forall i :: 0 <= i < |x| ==> x[i] != '[' && x[i] != ']'
    ensures ScanFrom(s, x) == s
    decreases |x|
  {
    if |x| > 0 {
      var x' := x[..|x| - 1];
      assert forall i :: 0 <= i < |x'| ==> x'[i] == x[i];
      Nested(s, x');
    }
  }

  /** The text of a pause record as the scanner sees it: plain text before
      the first '[', the collection word, a space, the groups, plain text,
      then ", <seconds> " and anything after. */
  function RecordText(pre: string, word: string, gs: seq<Group>, gap: string, secs: string, more: string): string {
    RecordHead(pre, word) + RecordBody(gs, gap, secs) + more
  }

  function RecordHead(pre: string, word: string): string {
    pre + "[" + word + " "
  }

  function RecordBody(gs: seq<Group>, gap: string, secs: string): string {
    GroupsText(gs) + gap + ", " + secs + " "
  }

  /** The conditions under which the scanner reads a record as it is meant. */
  predicate WellFormedRecord(pre: string, word: string, gs: seq<Group>, gap: string, secs: string) {
    && Plain(pre)
    && |word| > 0 && Plain(word) && Spaceless(word)
    && AllWellFormed(gs)
    && Plain(gap)
    && |secs| > 0 && Plain(secs) && Spaceless(secs)
  }

  /** The scanner after the collection word and the space that ends it. */
  function AfterWord(word: string): Scan {
    Start.(open := 1, typeText := word, isFull := word == "Full")
  }

  /** Plain text, the first '[', the collection word and a space. */
  lemma {:induction false} ReadHeader(pre: string, word: string)
    requires Plain(pre) && |word| > 0 && Plain(word) && Spaceless(word)
    ensures ScanFrom(Start, RecordHead(pre, word)) == AfterWord(word)
  {
    var s2 := Start.(open := 1, looking := true, typeText := word);
    ReadHeaderWord(pre, word);
    ScanFromAppend(Start, pre + "[" + word, " ");
    ScanOne(s2, ' ');
  }

  /** Plain text and the first '[' start the search for the collection word. */
  lemma ReadHeaderBracket(pre: string)
    requires Plain(pre)
    ensures ScanFrom(Start, pre + "[") == Start.(open := 1, looking := true)
  {
    assert Idle(Start);
    IdlePlain(Start, pre);
    ScanFromAppend(Start, pre, "[");
    ScanOne(Start, '[');
  }

  /** The collection word follows. */
  lemma ReadHeaderWord(pre: string, word: string)
    requires Plain(pre) && Plain(word) && Spaceless(word)
    ensures ScanFrom(Start, pre + "[" + word) == Start.(open := 1, looking := true, typeText := word)
  {
    var s1 := Start.(open := 1, looking := true);
    ReadHeaderBracket(pre);
    ScanFromAppend(Start, pre + "[", word);
    ReadWord(s1, word);
    assert s1.typeText + word == word;
  }

  /** From between groups: the groups, plain text and the seconds token. */
  lemma {:induction false} ReadBody(s: Scan, gs: seq<Group>, gap: string, secs: string)
    requires Reading(s) && s.secs == ""
    requires AllWellFormed(gs) && Plain(gap) && |secs| > 0 && Plain(secs) && Spaceless(secs)
    ensures ScanFrom(s, RecordBody(gs, gap, secs))
      == AfterGroups(s, gs).(inSecs := true, secs := secs, stopped := true)
  {
    var s4 := AfterGroups(s, gs);
    ReadGroups(s, gs);
    assert ScanFrom(s, GroupsText(gs) + gap) == s4 by {
      ScanFromAppend(s, GroupsText(gs), gap);
      IdlePlain(s4, gap);
    }
    assert GroupsText(gs) + gap + ", " + secs + " " == (GroupsText(gs) + gap) + (", " + secs + " ");
    ScanFromAppend(s, GroupsText(gs) + gap, ", " + secs + " ");
    ReadSecondsToken(s4, secs);
  }

  /** Scanning a well-formed record reads the collection word, keeps the
      attributes that qualify, in order, reads the seconds token and stops;
      nothing after the seconds token matters. */
  lemma {:induction false} ScanWellFormedRecord(pre: string, word: string, gs: seq<Group>, gap: string, secs: string, more: string)
    requires WellFormedRecord(pre, word, gs, gap, secs)
    ensures var r := ScanRecord(RecordText(pre, word, gs, gap, secs, more));
      && r.typeText == word
      && r.isFull == (word == "Full")
      && r.attrs == Kept(AttrsOf(gs))
      && r.secs == secs
      && r.stopped
  {
    var head := RecordHead(pre, word);
    var body := RecordBody(gs, gap, secs);
    ReadHeader(pre, word);
    ReadBody(AfterWord(word), gs, gap, secs);
    ScanFromAppend(Start, head, body);
    ScanFromAppend(Start, head + body, more);
    assert [] + Kept(AttrsOf(gs)) == Kept(AttrsOf(gs));
  }

  /** The first line of a record that spans several lines: the record
      opens a nested bracket that does not close on this line. */
  function OpenRecordText(pre: string, word: string, gs: seq<Group>, gap: string, inner: string): string {
    RecordHead(pre, word) + OpenBody(gs, gap, inner)
  }

  function OpenBody(gs: seq<Group>, gap: string, inner: string): string {
    GroupsText(gs) + gap + "[" + inner
  }

  /** From between groups: the groups, plain text and an unclosed nested bracket. */
  lemma {:induction false} ReadOpenBody(s: Scan, gs: seq<Group>, gap: string, inner: string)
    requires Reading(s) && AllWellFormed(gs) && Plain(gap)
    requires forall i :: 0 <= i < |inner| ==> inner[i] != '[' && inner[i] != ']'
    ensures ScanFrom(s, OpenBody(gs, gap, inner)) == AfterGroups(s, gs).(open := AfterGroups(s, gs).open + 1)
  {
    var s4 := AfterGroups(s, gs);
    ReadGroupsGap(s, gs, gap);
    OpenNested(s4, inner);
    AppendAssoc(GroupsText(gs) + gap, "[", inner);
    ScanFromAppend(s, GroupsText(gs) + gap, "[" + inner);
  }

  /** The groups and the plain text after them. */
  lemma ReadGroupsGap(s: Scan, gs: seq<Group>, gap: string)
    requires Reading(s) && AllWellFormed(gs) && Plain(gap)
    ensures ScanFrom(s, GroupsText(gs) + gap) == AfterGroups(s, gs)
  {
    ReadGroups(s, gs);
    ScanFromAppend(s, GroupsText(gs), gap);
    IdlePlain(AfterGroups(s, gs), gap);
  }

  /** A nested bracket that stays open hides everything after it. */
  lemma OpenNested(s: Scan, inner: string)
    requires Idle(s) && s.open - s.closed == 1 && s.typeText != ""
    requires forall i :: 0 <= i < |inner| ==> inner[i] != '[' && inner[i] != ']'
    ensures ScanFrom(s, "[" + inner) == s.(open := s.open + 1)
  {
    var s5 := s.(open := s.open + 1);
    assert ScanFrom(s, "[") == s5 by {
      ScanOne(s, '[');
    }
    ScanFromAppend(s, "[", inner);
    Nested(s5, inner);
  }

  /** On the first line of a multi-line record the scanner reads the
      collection word and the attributes before the nested bracket, but no
      seconds token. */
  lemma {:induction false} ScanOpenRecord(pre: string, word: string, gs: seq<Group>, gap: string, inner: string)
    requires Plain(pre) && |word| > 0 && Plain(word) && Spaceless(word)
    requires AllWellFormed(gs) && Plain(gap)
    requires forall i :: 0 <= i < |inner| ==> inner[i] != '[' && inner[i] != ']'
    ensures var r := ScanRecord(OpenRecordText(pre, word, gs, gap, inner));
      && r.typeText == word
      && r.isFull == (word == "Full")
      && r.attrs == Kept(AttrsOf(gs))
      && r.secs == ""
  {
    ReadHeader(pre, word);
    ReadOpenBody(AfterWord(word), gs, gap, inner);
    ScanFromAppend(Start, RecordHead(pre, word), OpenBody(gs, gap, inner));
    assert [] + Kept(AttrsOf(gs)) == Kept(AttrsOf(gs));
  }

  /** Plain text holds no bracket. */
  lemma PlainNoBrackets(t: string)
    requires Plain(t)
    ensures Count(t, '[') == 0 && Count(t, ']') == 0
  {
    assert '[' !in t && ']' !in t by {
      forall i | 0 <= i < |t|
        ensures t[i] != '[' && t[i] != ']'
      {
        assert !Special(t[i]);
      }
    }
  }

  /** Well-formed groups hold one '[' and one ']' per nested pair. */
  lemma {:induction false} GroupsBrackets(gs: seq<Group>)
    requires AllWellFormed(gs)
    ensures Count(GroupsText(gs), '[') == NestedCount(gs)
    ensures Count(GroupsText(gs), ']') == NestedCount(gs)
    decreases |gs|
  {
    if |gs| > 0 {
      var g := gs[0];
      var rest := gs[1..];
      assert AllWellFormed(rest) by {
        assert forall k :: 0 <= k < |rest| ==> rest[k] == gs[k + 1];
      }
      GroupsBrackets(rest);
      GroupBrackets(g);
      assert multiset(GroupsText(gs)) == multiset(GroupText(g)) + multiset(GroupsText(rest));
    }
  }

  lemma GroupBrackets(g: Group)
    requires WellFormed(g)
    ensures Count(GroupText(g), '[') == (if g.Bracketed? then 1 else 0)
    ensures Count(GroupText(g), ']') == (if g.Bracketed? then 1 else 0)
  {
    match g
    case Paren(f, a) =>
      ParenBrackets(f, a, '[');
      ParenBrackets(f, a, ']');
    case Bracketed(f, x) =>
      BracketedBrackets(f, x, '[');
      BracketedBrackets(f, x, ']');
  }

  lemma ParenBrackets(f: string, a: string, b: char)
    requires Plain(f) && Plain(a) && (b == '[' || b == ']')
    ensures Count(f + "(" + a + ")", b) == 0
  {
    PlainNoBrackets(f);
    PlainNoBrackets(a);
    CountWrapped(f, '(', a, ')', b);
  }

  lemma BracketedBrackets(f: string, x: string, b: char)
    requires Plain(f) && (forall i :: 0 <= i < |x| ==> x[i] != '[' && x[i] != ']') && (b == '[' || b == ']')
    ensures Count(f + "[" + x + "]", b) == 1
  {
    PlainNoBrackets(f);
    assert b !in x;
    CountWrapped(f, '[', x, ']', b);
  }

  /** Counting a character across a wrapped piece of text. */
  lemma CountWrapped(f: string, o: char, x: string, c: char, b: char)
    ensures Count(f + [o] + x + [c], b)
      == Count(f, b) + Count(x, b) + (if o == b then 1 else 0) + (if c == b then 1 else 0)
  {
    CountAppend(f, [o], b);
    CountAppend(f + [o], x, b);
    CountAppend(f + [o] + x, [c], b);
  }

  lemma PlainAppend(a: string, b: string)
    requires Plain(a) && Plain(b)
    ensures Plain(a + b)
  {
    forall i | 0 <= i < |a + b|
      ensures !Special((a + b)[i])
    {
      if i < |a| {
        assert (a + b)[i] == a[i];
      } else {
        assert (a + b)[i] == b[i - |a|];
      }
    }
  }
}

=== FILE: pauses.dfy ===
/** Pause records of a GC log (src/glog/pauses.rs): recognising a record,
    classifying its heap-resizing messages, reading a single-line record and
    reading a multi-line full-GC record whose duration sits on a later line.
 */
module Pauses {
  import opened Common
  import opened Strings
  import opened PauseScan

  /** What the record says the collector did to the heap size; `NoChange`
      is Rust's `HeapSizing::None`. */
  datatype HeapSizing = NoChange | Expansion | Shrinking

  /** One collection pause. */
  datatype GcPause = GcPause(
    isFullGc: bool,
    attributes: seq<string>,
    gcType: string,
    pauseSeconds: real,
    epoch: I64,
    heapSizing: HeapSizing)

  /** The parsers the record readers call into and this model does not
      define: `f64::from_str` for durations, and `get_epoch`, which parses
      timestamps with the `time` crate's `OffsetDateTime::parse` against the
      format "[year]-[month]-[day]T[hour]:[minute]:[second].[subsecond digits:3][offset_hour sign:mandatory][offset_minute]"
      (its `.unwrap()` of that format description is abstracted with it). */
  datatype Parsers = Parsers(seconds: string -> Option<real>, epoch: string -> Option<I64>)

  const GC_PAUSE: string := "GC pause"
  const GC_PAREN: string := "GC ("
  const FULL_GC_SPACE: string := "Full GC "

  /** `has_gc`: the line reports a collection. */
  predicate HasGc(line: string) {
    Contains(line, GC_PAUSE) || Contains(line, GC_PAREN) || Contains(line, FULL_GC_SPACE)
  }

  /** Each of the three phrases is enough, wherever it stands in the line. */
  lemma HasGcPhrases(a: string, b: string)
    ensures HasGc(a + GC_PAUSE + b)
    ensures HasGc(a + GC_PAREN + b)
    ensures HasGc(a + FULL_GC_SPACE + b)
  {
    assert OccursAt(GC_PAUSE, GC_PAUSE, 0);
    assert OccursAt(GC_PAREN, GC_PAREN, 0);
    assert OccursAt(FULL_GC_SPACE, FULL_GC_SPACE, 0);
    ContainsWithin(a, GC_PAUSE, b, GC_PAUSE);
    ContainsWithin(a, GC_PAREN, b, GC_PAREN);
    ContainsWithin(a, FULL_GC_SPACE, b, FULL_GC_SPACE);
  }

  /** Every line `has_gc` accepts mentions "GC ". */
  lemma HasGcMentionsGc(line: string)
    requires HasGc(line)
    ensures Contains(line, "GC ")
  {
    if Contains(line, GC_PAUSE) {
      assert OccursAt(GC_PAUSE, "GC ", 0);
      ContainsTrans(line, GC_PAUSE, "GC ");
    } else if Contains(line, GC_PAREN) {
      assert OccursAt(GC_PAREN, "GC ", 0);
      ContainsTrans(line, GC_PAREN, "GC ");
    } else {
      assert OccursAt(FULL_GC_SPACE, "GC ", 5);
      ContainsTrans(line, FULL_GC_SPACE, "GC ");
    }
  }

  const ZERO_EXPANSION: string := "calculated expansion amount: 0 bytes"
  const NO_EXPANSION: string := "(Heap Sizing) did not expand the heap"
  const EXPAND: string := "(Heap Sizing) expand the heap"
  const ATTEMPT_EXPANSION: string := "(Heap Sizing) attempt heap expansion"
  const SHRINK: string := "(Heap Sizing) shrink the heap"

  /** `get_gc_resizing`: the two "nothing expanded" phrases take precedence
      over the expansion phrases, which take precedence over shrinking. */
  function GcResizing(text: string): HeapSizing {
    if Contains(text, ZERO_EXPANSION) || Contains(text, NO_EXPANSION) then NoChange
    else if Contains(text, EXPAND) || Contains(text, ATTEMPT_EXPANSION) then Expansion
    else if Contains(text, SHRINK) then Shrinking
    else NoChange
  }

  /** A record that reports a zero expansion amount is not a resize, whatever
      else it reports. */
  lemma ZeroExpansionWins(a: string, b: string)
    ensures GcResizing(a + ZERO_EXPANSION + b) == NoChange
    ensures GcResizing(a + NO_EXPANSION + b) == NoChange
  {
    assert OccursAt(ZERO_EXPANSION, ZERO_EXPANSION, 0);
    assert OccursAt(NO_EXPANSION, NO_EXPANSION, 0);
    ContainsWithin(a, ZERO_EXPANSION, b, ZERO_EXPANSION);
    ContainsWithin(a, NO_EXPANSION, b, NO_EXPANSION);
  }

  /** Either expansion phrase reports an expansion when no "nothing
      expanded" phrase is present; the shrink phrase reports shrinking when
      no other phrase is. */
  lemma ExpansionAndShrinking(a: string, b: string)
    ensures var t := a + EXPAND + b;
      !Contains(t, ZERO_EXPANSION) && !Contains(t, NO_EXPANSION) ==> GcResizing(t) == Expansion
    ensures var t := a + ATTEMPT_EXPANSION + b;
      !Contains(t, ZERO_EXPANSION) && !Contains(t, NO_EXPANSION) ==> GcResizing(t) == Expansion
    ensures var t := a + SHRINK + b;
      (!Contains(t, ZERO_EXPANSION) && !Contains(t, NO_EXPANSION)
       && !Contains(t, EXPAND) && !Contains(t, ATTEMPT_EXPANSION)) ==> GcResizing(t) == Shrinking
  {
    assert OccursAt(EXPAND, EXPAND, 0);
    assert OccursAt(ATTEMPT_EXPANSION, ATTEMPT_EXPANSION, 0);
    assert OccursAt(SHRINK, SHRINK, 0);
    ContainsWithin(a, EXPAND, b, EXPAND);
    ContainsWithin(a, ATTEMPT_EXPANSION, b, ATTEMPT_EXPANSION);
    ContainsWithin(a, SHRINK, b, SHRINK);
  }

  /** The G1 ergonomics message of `test_parse_gc_pause_with_lots_of_commas`: it attempts an
      expansion but computes an amount of 0 bytes, so it is no resize. */
  lemma AttemptWithZeroAmount(a: string, b: string, c: string)
    ensures GcResizing(a + ATTEMPT_EXPANSION + b + ZERO_EXPANSION + c) == NoChange
  {
    ZeroExpansionWins(a + ATTEMPT_EXPANSION + b, c);
  }

  /** The collection type and attribute list of a record from its kept
      attributes: a full GC is named "Full GC" and keeps them all; otherwise
      the first attribute is the type. */
  function TypeAndAttributes(isFull: bool, kept: seq<string>): (string, seq<string>) {
    if |kept| == 0 then ("", [])
    else if isFull then ("Full GC", kept)
    else (kept[0], kept[1..])
  }

  /** `parse_gc_pause`.  The timestamp is the text before the first ": ";
      the scanner runs over everything after it.  A duration that does not
      parse is read as 0, and so is a record without one; an unreadable
      timestamp gives epoch 0.  The `Result` of `parse_gc_pause` is never an error. */
  function ParseGcPause(env: Parsers, line: string): (r: GcPause)
    ensures var tail := AfterFirst(line, ": ");
      var sc := ScanRecord(tail);
      && r.epoch == env.epoch(Split(line, ": ")[0]).GetOr(0)
      && r.heapSizing == GcResizing(tail)
      && r.isFullGc == sc.isFull
      && (r.gcType, r.attributes) == TypeAndAttributes(sc.isFull, sc.attrs)
      && r.pauseSeconds == (if sc.secs == "" then 0.0 else env.seconds(sc.secs).GetOr(0.0))
    ensures forall i :: 0 <= i < |r.attributes| ==> KeepAttribute(r.attributes[i])
  {
    var tokens := Split(line, ": ");
    var head := tokens[0];
    var tail := Join(tokens[1..], ": ");
    SplitTail(line, ": ");
    var sc := ScanRecord(tail);
    var (gcType, attrs) := TypeAndAttributes(sc.isFull, sc.attrs);
    var seconds := if sc.secs == "" then 0.0 else env.seconds(sc.secs).GetOr(0.0);
    GcPause(sc.isFull, attrs, gcType, seconds, env.epoch(head).GetOr(0), GcResizing(tail))
  }

  /** A record line as a JDK 8 log writes it: a timestamp free of ": ",
      then ": " and the record. */
  function RecordLine(head: string, pre: string, word: string, gs: seq<Group>, gap: string, secs: string, more: string): string {
    head + ": " + RecordText(pre, word, gs, gap, secs, more)
  }

  /** Reading a well-formed record line recovers what was written: the
      timestamp, "Full" as the collection word exactly when it is a full GC,
      the attributes that pass the digit filter in order, with the first one
      as the type unless the GC is full, and the seconds token. */
  lemma {:induction false} ParseRecordLine(env: Parsers, head: string, pre: string, word: string,
      gs: seq<Group>, gap: string, secs: string, more: string)
    requires !Contains(head, ": ")
    requires WellFormedRecord(pre, word, gs, gap, secs)
    ensures var r := ParseGcPause(env, RecordLine(head, pre, word, gs, gap, secs, more));
      var kept := Kept(AttrsOf(gs));
      && r.epoch == env.epoch(head).GetOr(0)
      && r.isFullGc == (word == "Full")
      && (|kept| == 0 ==> r.gcType == "" && r.attributes == [])
      && (|kept| > 0 && word == "Full" ==> r.gcType == "Full GC" && r.attributes == kept)
      && (|kept| > 0 && word != "Full" ==> r.gcType == kept[0] && r.attributes == kept[1..])
      && r.pauseSeconds == env.seconds(secs).GetOr(0.0)
      && r.heapSizing == GcResizing(RecordText(pre, word, gs, gap, secs, more))
  {
    SplitAtColonSpace(head, RecordText(pre, word, gs, gap, secs, more));
    ScanWellFormedRecord(pre, word, gs, gap, secs, more);
  }

  /** The humongous-allocation record of `test_parse_gc_pause`,
      "2021-02-22T01:01:02.120+0000: 22000.498: [GC pause (G1 Humongous
      Allocation) (young) (initial-mark), 0.0911111 secs]", written out
      piece by piece. */
  lemma ParseHumongousExample(env: Parsers)
    ensures var r := ParseGcPause(env, RecordLine("2021-02-22T01:01:02.120+0000", "22000.498: ", "GC",
        [Paren("pause ", "G1 Humongous Allocation"), Paren(" ", "young"), Paren(" ", "initial-mark")],
        "", "0.0911111", "secs]"));
      && r.gcType == "G1 Humongous Allocation"
      && r.attributes == ["young", "initial-mark"]
      && !r.isFullGc
      && r.pauseSeconds == env.seconds("0.0911111").GetOr(0.0)
      && r.epoch == env.epoch("2021-02-22T01:01:02.120+0000").GetOr(0)
  {
    var head := "2021-02-22T01:01:02.120+0000";
    var gs := [Paren("pause ", "G1 Humongous Allocation"), Paren(" ", "young"), Paren(" ", "initial-mark")];
    NoSpaceNoColonSpace(head);
    HumongousRecord(gs);
    HumongousKept();
    ParseRecordLine(env, head, "22000.498: ", "GC", gs, "", "0.0911111", "secs]");
  }

  lemma HumongousRecord(gs: seq<Group>)
    requires gs == [Paren("pause ", "G1 Humongous Allocation"), Paren(" ", "young"), Paren(" ", "initial-mark")]
    ensures WellFormedRecord("22000.498: ", "GC", gs, "", "0.0911111")
    ensures AttrsOf(gs) == ["G1 Humongous Allocation", "young", "initial-mark"]
  {
    ThreeParens(gs);
    HumongousPlain();
    assert AllWellFormed(gs);
  }

  /** The literal pieces of the humongous record hold no bracket, parenthesis or comma. */
  lemma HumongousPlain()
    ensures Plain("pause ") && Plain(" ") && Plain("") && Plain("22000.498: ")
    ensures Plain("G1 Humongous Allocation") && Plain("young") && Plain("initial-mark")
    ensures Plain("GC") && Spaceless("GC") && Plain("0.0911111") && Spaceless("0.0911111")
  {
  }

  /** The attribute list of three parenthesised groups. */
  lemma ThreeParens(gs: seq<Group>)
    requires |gs| == 3 && gs[0].Paren? && gs[1].Paren? && gs[2].Paren?
    ensures AttrsOf(gs) == [gs[0].attr, gs[1].attr, gs[2].attr]
  {
    assert gs == [gs[0]] + [gs[1]] + [gs[2]];
    GroupsAppend([gs[0]] + [gs[1]], [gs[2]]);
    GroupsAppend([gs[0]], [gs[1]]);
    GroupsSingle(gs[0]);
    GroupsSingle(gs[1]);
    GroupsSingle(gs[2]);
  }

  /** All three attributes of the humongous record pass the digit filter. */
  lemma HumongousKept()
    ensures Kept(["G1 Humongous Allocation", "young", "initial-mark"]) == ["G1 Humongous Allocation", "young", "initial-mark"]
  {
    var a, b, c := "G1 Humongous Allocation", "young", "initial-mark";
    assert OccursAt(a, "G1", 0);
    assert KeepAttribute(a);
    assert !AnyDigit(b) && !AnyDigit(c);
    assert Kept([c]) == [c];
    assert [b, c][1..] == [c];
    assert Kept([b, c]) == [b, c];
    assert [a, b, c][1..] == [b, c];
  }

  /** A record of the cause-first form "[GC (<cause>)...": the cause is the
      collection type and the attributes are the kept ones after it. */
  lemma {:induction false} ParseCauseRecord(env: Parsers, head: string, pre: string, word: string,
      filler: string, cause: string, others: seq<Group>, gap: string, secs: string, more: string)
    requires !Contains(head, ": ") && word != "Full" && KeepAttribute(cause)
    requires WellFormedRecord(pre, word, [Paren(filler, cause)] + others, gap, secs)
    ensures var r := ParseGcPause(env, RecordLine(head, pre, word, [Paren(filler, cause)] + others, gap, secs, more));
      && r.gcType == cause
      && r.attributes == Kept(AttrsOf(others))
      && !r.isFullGc
      && r.pauseSeconds == env.seconds(secs).GetOr(0.0)
      && r.epoch == env.epoch(head).GetOr(0)
  {
    var gs := [Paren(filler, cause)] + others;
    assert AttrsOf(gs) == [cause] + AttrsOf(others) by {
      GroupsAppend([Paren(filler, cause)], others);
      GroupsSingle(Paren(filler, cause));
    }
    assert Kept(AttrsOf(gs)) == [cause] + Kept(AttrsOf(others)) by {
      assert AttrsOf(gs)[0] == cause && AttrsOf(gs)[1..] == AttrsOf(others);
    }
    ParseRecordLine(env, head, pre, word, gs, gap, secs, more);
  }

  /** Nested bracket pairs contribute no attributes. */
  lemma {:induction false} BracketedNoAttrs(gs: seq<Group>)
    requires forall k :: 0 <= k < |gs| ==> gs[k].Bracketed?
    ensures AttrsOf(gs) == []
    decreases |gs|
  {
    if |gs| > 0 {
      BracketedNoAttrs(gs[1..]);
    }
  }

  /** The shape of `test_parse_gc_pause_with_lots_of_commas`: "[GC pause (<cause>)
      (<attr>)" followed by any number of nested sub-records — ergonomics
      decisions, reference processing — each in its own bracket pair and
      free to hold commas, then ", <seconds> secs]".  The nested commas do
      not start the seconds token: the type is the cause, the only
      attribute is `attr`, and the seconds are the final ones. */
  lemma ParseErgonomicsRecord(env: Parsers, head: string, pre: string, cause: string, f: string, attr: string,
      nested: seq<Group>, gap: string, secs: string, more: string)
    requires !Contains(head, ": ") && KeepAttribute(cause) && KeepAttribute(attr)
    requires forall k :: 0 <= k < |nested| ==> nested[k].Bracketed?
    requires WellFormedRecord(pre, "GC", [Paren("pause ", cause), Paren(f, attr)] + nested, gap, secs)
    ensures var r := ParseGcPause(env, RecordLine(head, pre, "GC", [Paren("pause ", cause), Paren(f, attr)] + nested, gap, secs, more));
      && r.gcType == cause
      && r.attributes == [attr]
      && !r.isFullGc
      && r.pauseSeconds == env.seconds(secs).GetOr(0.0)
  {
    var others := [Paren(f, attr)] + nested;
    assert [Paren("pause ", cause), Paren(f, attr)] + nested == [Paren("pause ", cause)] + others;
    assert "GC" != "Full";
    ParseCauseRecord(env, head, pre, "GC", "pause ", cause, others, gap, secs, more);
    assert AttrsOf(others) == [attr] by {
      GroupsAppend([Paren(f, attr)], nested);
      GroupsSingle(Paren(f, attr));
      BracketedNoAttrs(nested);
    }
    assert Kept([attr]) == [attr] by {
      assert [attr][1..] == [];
    }
  }

  /** The record of `test_parse_gc_pause_without_datetime_stamp`,
      "16142.766: [GC (Allocation Failure)  24639447K->13665474K(26456064K),
      0.0911111 secs]", piece by piece: the heap-size attribute holds digits
      and is dropped, so the type is the cause and no attribute is left; a
      head that is not a datetime gives epoch 0. */
  lemma ParseNoDatetimeExample(env: Parsers)
    ensures var r := ParseGcPause(env, RecordLine("16142.766", "", "GC",
        [Paren("", "Allocation Failure"), Paren("  24639447K->13665474K", "26456064K")],
        "", "0.0911111", "secs]"));
      && r.gcType == "Allocation Failure"
      && r.attributes == []
      && !r.isFullGc
      && r.pauseSeconds == env.seconds("0.0911111").GetOr(0.0)
      && (env.epoch("16142.766").None? ==> r.epoch == 0)
  {
    var head := "16142.766";
    var g0 := Paren("", "Allocation Failure");
    var g1 := Paren("  24639447K->13665474K", "26456064K");
    NoSpaceNoColonSpace(head);
    NoDatetimeRecord(g0, g1);
    assert Kept(AttrsOf([g1])) == [] by {
      GroupsSingle(g1);
      HeapSizeDropped("26456064K");
      assert ["26456064K"][1..] == [];
    }
    ParseCauseRecord(env, head, "", "GC", "", "Allocation Failure", [g1], "", "0.0911111", "secs]");
  }

  lemma NoDatetimeRecord(g0: Group, g1: Group)
    requires g0 == Paren("", "Allocation Failure") && g1 == Paren("  24639447K->13665474K", "26456064K")
    ensures WellFormedRecord("", "GC", [g0] + [g1], "", "0.0911111")
    ensures KeepAttribute("Allocation Failure") && "GC" != "Full"
  {
    NoDatetimePlain();
    assert !AnyDigit("Allocation Failure");
    assert AllWellFormed([g0] + [g1]) by {
      assert ([g0] + [g1])[0] == g0 && ([g0] + [g1])[1] == g1;
    }
  }

  /** The literal pieces of the record without a datetime. */
  lemma NoDatetimePlain()
    ensures Plain("") && Plain("GC") && Spaceless("GC") && Plain("0.0911111") && Spaceless("0.0911111")
    ensures Plain("Allocation Failure") && Plain("  24639447K->13665474K") && Plain("26456064K")
  {
  }

  /** A heap-size attribute such as "26456064K" starts with a digit and has
      no "G1", so the digit filter drops it. */
  lemma HeapSizeDropped(a: string)
    requires a == "26456064K"
    ensures !KeepAttribute(a)
  {
    assert IsDigit(a[0]);
    assert 'G' !in a;
    forall i | 0 <= i <= |a| - 2
      ensures !OccursAt(a, "G1", i)
    {
      assert a[i..i + 2][0] == a[i];
    }
  }

  // ---------------------------------------------------------------------
  // Multi-line records: `parse_full_gc_pause`

  /** The index of the first line that mentions a collection. */
  function FirstGcLine(lines: seq<string>): (r: Option<nat>)
    ensures r.Some? ==> r.value < |lines| && HasGc(lines[r.value])
    ensures r.Some? ==> forall k :: 0 <= k < r.value ==> !HasGc(lines[k])
    ensures r.None? ==> forall k :: 0 <= k < |lines| ==> !HasGc(lines[k])
  {
    if |lines| == 0 then None
    else if HasGc(lines[0]) then Some(0)
    else match FirstGcLine(lines[1..])
      case None => None
      case Some(k) => Some(k + 1)
  }

  /** The attribute the class-histogram dump adds to a full collection. */
  const BEFORE_FULL_GC: string := "before full gc"

  /** `xs` without any copy of `x`, the rest in order. */
  function RemoveAll(xs: seq<string>, x: string): (r: seq<string>)
    decreases |xs|
    ensures |r| <= |xs|
    ensures forall y :: y in r <==> y in xs && y != x
    ensures x !in xs ==> r == xs
    ensures multiset(r) == multiset(xs)[x := 0]
  {
    if |xs| == 0 then []
    else
      assert xs == [xs[0]] + xs[1..];
      if xs[0] == x then RemoveAll(xs[1..], x)
      else [xs[0]] + RemoveAll(xs[1..], x)
  }

  /** Repeats of the other attributes survive the removal. */
  lemma RemoveAllKeepsRepeats()
    ensures RemoveAll(["young", BEFORE_FULL_GC, "young"], BEFORE_FULL_GC) == ["young", "young"]
  {
    assert ["young", BEFORE_FULL_GC, "young"][1..] == [BEFORE_FULL_GC, "young"];
  }

  /** The loop state of `parse_full_gc_pause` between lines: the brackets
      counted so far and whether a histogram dump is being skipped. */
  datatype Tally = Tally(open: nat, closed: nat, skip: bool)

  const SECS_CLOSE: string := " secs]"
  const HISTOGRAM: string := "Histogram"
  const TOTAL: string := "Total"

  /** The seconds of the line that closes the record: the last non-empty
      piece before " secs]", its last ", "-separated piece, trimmed. */
  function ClosingSeconds(env: Parsers, line: string): Result<real> {
    var pieces := NonEmpty(Split(line, SECS_CLOSE));
    if |pieces| == 0 then Panic("no last element")
    else
      var text := Trim(Last(Split(Last(pieces), ", ")));
      match env.seconds(text)
      case None => Panic("called `Result::unwrap()` on an `Err` value: ParseFloatError")
      case Some(v) => Ok(v)
  }

  /** The loop over the lines of a multi-line record.  A histogram dump is
      skipped up to and including its "Total" line; otherwise the line's
      brackets are counted, and the first line at which they balance and
      that ends in " secs]" gives the seconds.  The counts are `usize`, so
      more ']' than '[' aborts. */
  function FullGcSeconds(env: Parsers, lines: seq<string>, t: Tally): Result<real>
    decreases |lines|
  {
    if |lines| == 0 then Ok(0.0)
    else
      var line := lines[0];
      if t.skip then FullGcSeconds(env, lines[1..], t.(skip := !StartsWith(line, TOTAL)))
      else
        var closed := t.closed + Count(line, ']');
        var open := t.open + Count(line, '[');
        if open < closed then Panic("attempt to subtract with overflow")
        else if open == closed && EndsWith(line, SECS_CLOSE) then ClosingSeconds(env, line)
        else FullGcSeconds(env, lines[1..], Tally(open, closed, Contains(line, HISTOGRAM)))
  }

  /** Seconds other than the default 0 are always those of some line that
      ends in " secs]". */
  lemma {:induction false} FullGcSecondsFromClosingLine(env: Parsers, lines: seq<string>, t: Tally)
    decreases |lines|
    ensures var r := FullGcSeconds(env, lines, t);
      r.Ok? ==> r == Ok(0.0) || exists k :: 0 <= k < |lines| && EndsWith(lines[k], SECS_CLOSE) && ClosingSeconds(env, lines[k]) == r
  {
    if |lines| > 0 {
      var line := lines[0];
      var r := FullGcSeconds(env, lines, t);
      var next := if t.skip then t.(skip := !StartsWith(line, TOTAL))
        else Tally(t.open + Count(line, '['), t.closed + Count(line, ']'), Contains(line, HISTOGRAM));
      if r == FullGcSeconds(env, lines[1..], next) {
        FullGcSecondsFromClosingLine(env, lines[1..], next);
        if r.Ok? && r != Ok(0.0) {
          var k :| 0 <= k < |lines[1..]| && EndsWith(lines[1..][k], SECS_CLOSE) && ClosingSeconds(env, lines[1..][k]) == r;
          assert lines[1..][k] == lines[k + 1];
        }
      } else if r.Ok? {
        assert EndsWith(lines[0], SECS_CLOSE) && ClosingSeconds(env, lines[0]) == r;
      }
    }
  }

  /** `parse_full_gc_pause`: the kind, attributes and timestamp come from the
      first line that mentions a collection (line 0 when none does), without
      the "before full gc" attribute; the seconds come from the line that
      closes the record; "Full GC" anywhere marks a full collection, and
      heap resizing is looked for in the whole buffer. */
  function ParseFullGcPause(env: Parsers, buf: string): (r: Result<GcPause>)
    ensures r.Ok? <==> FullGcSeconds(env, Split(buf, "\n"), Tally(0, 0, false)).Ok?
    ensures r.Ok? ==> r.value.pauseSeconds == FullGcSeconds(env, Split(buf, "\n"), Tally(0, 0, false)).value
    ensures r.Ok? ==> r.value.isFullGc == Contains(buf, "Full GC") && r.value.heapSizing == GcResizing(buf)
    ensures r.Ok? ==> BEFORE_FULL_GC !in r.value.attributes
    ensures r.Ok? ==> forall a :: a in r.value.attributes ==> KeepAttribute(a)
    ensures r.Ok? ==> var lines := Split(buf, "\n");
      var first := ParseGcPause(env, lines[FirstGcLine(lines).GetOr(0)]);
      && r.value.gcType == first.gcType
      && r.value.epoch == first.epoch
      && (forall a :: a in r.value.attributes <==> a in first.attributes && a != BEFORE_FULL_GC)
      && multiset(r.value.attributes) == multiset(first.attributes)[BEFORE_FULL_GC := 0]
  {
    var lines := Split(buf, "\n");
    var pause := ParseGcPause(env, lines[FirstGcLine(lines).GetOr(0)]);
    var seconds :- FullGcSeconds(env, lines, Tally(0, 0, false));
    Ok(GcPause(Contains(buf, "Full GC"), RemoveAll(pause.attributes, BEFORE_FULL_GC), pause.gcType,
      seconds, pause.epoch, GcResizing(buf)))
  }

  /** The closing line "<text>, <seconds> secs]" yields the seconds, when
      neither piece holds a comma or a ']' and the seconds are not padded
      with whitespace. */
  lemma {:induction false} ClosingLineSeconds(env: Parsers, pre: string, x: string)
    requires ',' !in pre && ']' !in pre
    requires |x| > 0 && ',' !in x && ']' !in x
    requires !IsWhitespace(x[0]) && !IsWhitespace(x[|x| - 1])
    ensures EndsWith(pre + ", " + x + SECS_CLOSE, SECS_CLOSE)
    ensures ClosingSeconds(env, pre + ", " + x + SECS_CLOSE).Ok? <==> env.seconds(x).Some?
    ensures env.seconds(x).Some? ==> ClosingSeconds(env, pre + ", " + x + SECS_CLOSE) == Ok(env.seconds(x).value)
  {
    var a := pre + ", " + x;
    var line := a + SECS_CLOSE;
    assert line[|line| - |SECS_CLOSE|..] == SECS_CLOSE;
    assert ']' !in a by {
      assert ']' !in ", ";
    }
    assert ']' !in SECS_CLOSE[..|SECS_CLOSE| - 1] by {
      assert SECS_CLOSE[..|SECS_CLOSE| - 1] == " secs";
    }
    SplitAtLastChar(a, SECS_CLOSE, "");
    assert a + SECS_CLOSE + "" == line;
    assert Split("", SECS_CLOSE) == [""];
    assert Split(line, SECS_CLOSE) == [a, ""];
    assert NonEmpty([a, ""]) == [a] by {
      assert [a, ""][1..] == [""];
      assert NonEmpty([""]) == [] by {
        assert [""][1..] == [];
      }
      assert a != "" by {
        assert |a| >= 2;
      }
    }
    SplitAtFirst(pre, ", ", x);
    SplitNone(x, ", ");
    assert Split(a, ", ") == [pre, x];
    TrimUntouched(x);
  }

  /** Inside a histogram dump every line is passed over, brackets and all,
      up to and including the first line that starts with "Total". */
  lemma {:induction false} SkipHistogram(env: Parsers, hist: seq<string>, total: string, rest: seq<string>, open: nat, closed: nat)
    requires forall k :: 0 <= k < |hist| ==> !StartsWith(hist[k], TOTAL)
    requires StartsWith(total, TOTAL)
    ensures FullGcSeconds(env, hist + [total] + rest, Tally(open, closed, true))
      == FullGcSeconds(env, rest, Tally(open, closed, false))
    decreases |hist|
  {
    var lines := hist + [total] + rest;
    if |hist| == 0 {
      assert lines[0] == total;
      assert lines[1..] == rest;
    } else {
      assert lines[0] == hist[0];
      assert lines[1..] == hist[1..] + [total] + rest;
      SkipHistogram(env, hist[1..], total, rest, open, closed);
    }
  }

  /** A line with more ']' than '[' before any has balanced aborts the
      program: the bracket difference is an unsigned subtraction. */
  lemma UnbalancedFirstLine(env: Parsers, line: string, rest: seq<string>)
    requires Count(line, ']') > Count(line, '[')
    ensures FullGcSeconds(env, [line] + rest, Tally(0, 0, false)).Panic?
  {
    assert ([line] + rest)[0] == line;
  }

  /** The closing line holds one ']' and no '['. */
  lemma ClosingLineBrackets(pre: string, x: string)
    requires '[' !in pre && ']' !in pre && '[' !in x && ']' !in x
    ensures Count(pre + ", " + x + SECS_CLOSE, '[') == 0
    ensures Count(pre + ", " + x + SECS_CLOSE, ']') == 1
  {
    assert multiset(pre + ", " + x + SECS_CLOSE) == multiset(pre) + multiset(", ") + multiset(x) + multiset(SECS_CLOSE);
    assert multiset(", ")['['] == 0 && multiset(", ")[']'] == 0;
    assert multiset(SECS_CLOSE)['['] == 0 && multiset(SECS_CLOSE)[']'] == 1 by {
      assert SECS_CLOSE == " secs" + "]";
      assert multiset(SECS_CLOSE) == multiset(" secs") + multiset{']'};
    }
  }

  /** The shape of a full collection with a class histogram: a first line
      that opens two brackets and starts the dump, the dump up to its
      "Total" line, a line that closes the histogram's bracket, and the
      line that closes the record with its seconds.  The seconds are those
      of the closing line; the dump's own brackets are never counted. */
  lemma {:induction false} HistogramRecordSeconds(env: Parsers, opener: string, hist: seq<string>, total: string,
      mid: string, pre: string, x: string, rest: seq<string>)
    requires Count(opener, '[') == Count(opener, ']') + 2 && Contains(opener, HISTOGRAM)
    requires forall k :: 0 <= k < |hist| ==> !StartsWith(hist[k], TOTAL)
    requires StartsWith(total, TOTAL)
    requires Count(mid, '[') == 0 && Count(mid, ']') == 1 && !Contains(mid, HISTOGRAM)
    requires '[' !in pre && ']' !in pre && ',' !in pre
    requires |x| > 0 && '[' !in x && ']' !in x && ',' !in x
    requires !IsWhitespace(x[0]) && !IsWhitespace(x[|x| - 1])
    ensures var r := FullGcSeconds(env, [opener] + hist + [total, mid, pre + ", " + x + SECS_CLOSE] + rest, Tally(0, 0, false));
      && (r.Ok? <==> env.seconds(x).Some?)
      && (env.seconds(x).Some? ==> r == Ok(env.seconds(x).value))
  {
    var closer := pre + ", " + x + SECS_CLOSE;
    var o := Count(opener, '[');
    var c := Count(opener, ']');
    var tail := [mid, closer] + rest;
    var r := FullGcSeconds(env, [opener] + hist + [total, mid, closer] + rest, Tally(0, 0, false));
    assert r == FullGcSeconds(env, hist + [total] + tail, Tally(o, c, true)) by {
      assert [opener] + hist + [total, mid, closer] + rest == [opener] + (hist + [total] + tail);
      CountedLine(env, opener, hist + [total] + tail, Tally(0, 0, false));
    }
    assert r == FullGcSeconds(env, tail, Tally(o, c, false)) by {
      SkipHistogram(env, hist, total, tail, o, c);
    }
    assert r == FullGcSeconds(env, [closer] + rest, Tally(o, c + 1, false)) by {
      assert tail == [mid] + ([closer] + rest);
      CountedLine(env, mid, [closer] + rest, Tally(o, c, false));
    }
    ClosingLineBrackets(pre, x);
    ClosingLineSeconds(env, pre, x);
    ClosingLineReached(env, closer, rest, Tally(o, c + 1, false));
  }

  /** A line that balances the brackets and ends in " secs]" ends the loop
      with its seconds. */
  lemma ClosingLineReached(env: Parsers, closer: string, rest: seq<string>, t: Tally)
    requires !t.skip && t.open == t.closed + 1
    requires Count(closer, '[') == 0 && Count(closer, ']') == 1 && EndsWith(closer, SECS_CLOSE)
    ensures FullGcSeconds(env, [closer] + rest, t) == ClosingSeconds(env, closer)
  {
    assert ([closer] + rest)[0] == closer;
  }

  /** A line outside a dump that leaves more '[' than ']' open is counted
      and the loop goes on. */
  lemma CountedLine(env: Parsers, line: string, rest: seq<string>, t: Tally)
    requires !t.skip && t.open + Count(line, '[') > t.closed + Count(line, ']')
    ensures FullGcSeconds(env, [line] + rest, t)
      == FullGcSeconds(env, rest, Tally(t.open + Count(line, '['), t.closed + Count(line, ']'), Contains(line, HISTOGRAM)))
  {
    assert ([line] + rest)[0] == line;
    assert ([line] + rest)[1..] == rest;
  }

  /** Lines that close every bracket they open, outside a histogram dump,
      pass through a record that is still open without ending it. */
  lemma {:induction false} BalancedLinesPassed(env: Parsers, ls: seq<string>, rest: seq<string>, open: nat, closed: nat)
    requires open > closed
    requires forall k :: 0 <= k < |ls| ==> Count(ls[k], '[') == Count(ls[k], ']') && !Contains(ls[k], HISTOGRAM)
    ensures FullGcSeconds(env, ls + rest, Tally(open, closed, false))
      == FullGcSeconds(env, rest, Tally(open + CountAll(ls, '['), closed + CountAll(ls, ']'), false))
    decreases |ls|
  {
    if |ls| == 0 {
      assert ls + rest == rest;
    } else {
      var o, c := open + Count(ls[0], '['), closed + Count(ls[0], ']');
      BalancedLineStep(env, ls, rest, open, closed);
      BalancedLinesPassed(env, ls[1..], rest, o, c);
      assert o + CountAll(ls[1..], '[') == open + CountAll(ls, '[');
      assert c + CountAll(ls[1..], ']') == closed + CountAll(ls, ']');
    }
  }

  /** The first of the balanced lines is counted and the rest stay
      balanced. */
  lemma BalancedLineStep(env: Parsers, ls: seq<string>, rest: seq<string>, open: nat, closed: nat)
    requires open > closed && |ls| > 0
    requires forall k :: 0 <= k < |ls| ==> Count(ls[k], '[') == Count(ls[k], ']') && !Contains(ls[k], HISTOGRAM)
    ensures FullGcSeconds(env, ls + rest, Tally(open, closed, false))
      == FullGcSeconds(env, ls[1..] + rest, Tally(open + Count(ls[0], '['), closed + Count(ls[0], ']'), false))
    ensures forall k :: 0 <= k < |ls[1..]| ==> Count(ls[1..][k], '[') == Count(ls[1..][k], ']') && !Contains(ls[1..][k], HISTOGRAM)
  {
    var line := ls[0];
    assert ls + rest == [line] + (ls[1..] + rest);
    assert Count(line, '[') == Count(line, ']') && !Contains(line, HISTOGRAM);
    CountedLine(env, line, ls[1..] + rest, Tally(open, closed, false));
    assert forall k :: 0 <= k < |ls[1..]| ==> ls[1..][k] == ls[k + 1];
  }

  /** The first line of a multi-line record: a timestamp, ": " and a
      record whose nested bracket stays open. */
  function OpenRecordLine(head: string, pre: string, word: string, gs: seq<Group>, gap: string, inner: string): string {
    head + ": " + OpenRecordText(pre, word, gs, gap, inner)
  }

  /** The first line of a multi-line record gives the timestamp, the
      collection word and the attributes before the open bracket, and no
      seconds. */
  lemma {:induction false} ParseOpenRecordLine(env: Parsers, head: string, pre: string, word: string,
      gs: seq<Group>, gap: string, inner: string)
    requires !Contains(head, ": ")
    requires Plain(pre) && |word| > 0 && Plain(word) && Spaceless(word) && AllWellFormed(gs) && Plain(gap)
    requires forall i :: 0 <= i < |inner| ==> inner[i] != '[' && inner[i] != ']'
    ensures var r := ParseGcPause(env, OpenRecordLine(head, pre, word, gs, gap, inner));
      var kept := Kept(AttrsOf(gs));
      && r.epoch == env.epoch(head).GetOr(0)
      && r.isFullGc == (word == "Full")
      && (|kept| == 0 ==> r.gcType == "" && r.attributes == [])
      && (|kept| > 0 && word == "Full" ==> r.gcType == "Full GC" && r.attributes == kept)
      && (|kept| > 0 && word != "Full" ==> r.gcType == kept[0] && r.attributes == kept[1..])
      && r.pauseSeconds == 0.0
  {
    SplitAtColonSpace(head, OpenRecordText(pre, word, gs, gap, inner));
    ScanOpenRecord(pre, word, gs, gap, inner);
  }

  /** The first line of a full collection, "<head>: <pre>[Full GC (<cause>)...[<inner>". */
  function FullOpener(head: string, pre: string, cause: string, more: seq<Group>, gap: string, inner: string): string {
    OpenRecordLine(head, pre, "Full", [Paren("GC ", cause)] + more, gap, inner)
  }

  /** Such a line mentions a full collection and leaves two brackets open. */
  lemma {:induction false} FullOpenerFacts(head: string, pre: string, cause: string, more: seq<Group>, gap: string, inner: string)
    requires Plain(head) && Plain(pre) && Plain(cause) && AllWellFormed(more) && Plain(gap)
    requires forall i :: 0 <= i < |inner| ==> inner[i] != '[' && inner[i] != ']'
    ensures var opener := FullOpener(head, pre, cause, more, gap, inner);
      && HasGc(opener)
      && Contains(opener, "Full GC")
      && Count(opener, '[') == Count(opener, ']') + 2
      && (Contains(inner, HISTOGRAM) ==> Contains(opener, HISTOGRAM))
  {
    FullOpenerMentionsFullGc(head, pre, cause, more, gap, inner);
    FullOpenerBrackets(head, pre, cause, more, gap, inner);
    if Contains(inner, HISTOGRAM) {
      OpenerHoldsInner(head, pre, [Paren("GC ", cause)] + more, gap, inner);
    }
  }

  lemma FullOpenerBrackets(head: string, pre: string, cause: string, more: seq<Group>, gap: string, inner: string)
    requires Plain(head) && Plain(pre) && Plain(cause) && AllWellFormed(more) && Plain(gap)
    requires forall i :: 0 <= i < |inner| ==> inner[i] != '[' && inner[i] != ']'
    ensures var opener := FullOpener(head, pre, cause, more, gap, inner);
      Count(opener, '[') == Count(opener, ']') + 2
  {
    FullGroupsWellFormed(cause, more);
    assert Plain("Full");
    OpenerBrackets(head, pre, "Full", [Paren("GC ", cause)] + more, gap, inner);
  }

  lemma FullGroupsWellFormed(cause: string, more: seq<Group>)
    requires Plain(cause) && AllWellFormed(more)
    ensures AllWellFormed([Paren("GC ", cause)] + more)
  {
    var gs := [Paren("GC ", cause)] + more;
    assert forall k :: 1 <= k < |gs| ==> gs[k] == more[k - 1];
    assert WellFormed(gs[0]) by {
      assert Plain("GC ");
    }
  }

  lemma FullOpenerMentionsFullGc(head: string, pre: string, cause: string, more: seq<Group>, gap: string, inner: string)
    ensures HasGc(FullOpener(head, pre, cause, more, gap, inner))
    ensures Contains(FullOpener(head, pre, cause, more, gap, inner), "Full GC")
  {
    var gs := [Paren("GC ", cause)] + more;
    var rh := RecordHead(pre, "Full");
    var ob := OpenBody(gs, gap, inner);
    assert EndsWith(rh, "Full ") by {
      assert rh == (pre + "[") + "Full ";
      EndsWithAppend(pre + "[", "Full ", "Full ");
    }
    assert StartsWith(ob, "GC ") by {
      assert GroupsText(gs) == GroupText(gs[0]) + GroupsText(more) by {
        assert gs[1..] == more;
      }
      assert GroupText(gs[0]) == "GC " + ("(" + cause + ")");
      StartsWithAppend("GC ", "(" + cause + ")", "GC ");
      StartsWithAppend(GroupText(gs[0]), GroupsText(more), "GC ");
      assert ob == GroupsText(gs) + (gap + "[" + inner);
      StartsWithAppend(GroupsText(gs), gap + "[" + inner, "GC ");
    }
    ContainsAcross(rh, ob, "Full ", "GC ");
    assert "Full " + "GC " == FULL_GC_SPACE;
    ContainsRight(head + ": ", rh + ob, FULL_GC_SPACE);
    assert Contains(FULL_GC_SPACE, "Full GC") by {
      assert OccursAt(FULL_GC_SPACE, "Full GC", 0);
    }
    ContainsTrans(FullOpener(head, pre, cause, more, gap, inner), FULL_GC_SPACE, "Full GC");
  }

  lemma OpenerHoldsInner(head: string, pre: string, gs: seq<Group>, gap: string, inner: string)
    requires Contains(inner, HISTOGRAM)
    ensures Contains(OpenRecordLine(head, pre, "Full", gs, gap, inner), HISTOGRAM)
  {
    ContainsRight(GroupsText(gs) + gap + "[", inner, HISTOGRAM);
    ContainsRight(RecordHead(pre, "Full"), OpenBody(gs, gap, inner), HISTOGRAM);
    ContainsRight(head + ": ", OpenRecordText(pre, "Full", gs, gap, inner), HISTOGRAM);
  }

  /** The bracket counts of an open record line, piece by piece. */
  lemma OpenerBrackets(head: string, pre: string, word: string, gs: seq<Group>, gap: string, inner: string)
    requires Plain(head) && Plain(pre) && Plain(word) && AllWellFormed(gs) && Plain(gap)
    requires forall i :: 0 <= i < |inner| ==> inner[i] != '[' && inner[i] != ']'
    ensures Count(OpenRecordLine(head, pre, word, gs, gap, inner), '[') == NestedCount(gs) + 2
    ensures Count(OpenRecordLine(head, pre, word, gs, gap, inner), ']') == NestedCount(gs)
  {
    PlainAppend(head, ": ");
    PlainAppend(word, " ");
    GroupsBrackets(gs);
    assert '[' !in inner && ']' !in inner;
    OpenLineCount(head, pre, word, gs, gap, inner, '[');
    OpenLineCount(head, pre, word, gs, gap, inner, ']');
  }

  /** Only the two opening brackets and the groups count towards a
      bracket of an open record line whose other pieces are plain. */
  lemma OpenLineCount(head: string, pre: string, word: string, gs: seq<Group>, gap: string, inner: string, c: char)
    requires c == '[' || c == ']'
    requires Plain(head + ": ") && Plain(pre) && Plain(word + " ") && Plain(gap) && c !in inner
    ensures Count(OpenRecordLine(head, pre, word, gs, gap, inner), c)
      == Count(GroupsText(gs), c) + (if c == '[' then 2 else 0)
  {
    PlainNoBrackets(head + ": ");
    PlainNoBrackets(pre);
    PlainNoBrackets(word + " ");
    PlainNoBrackets(gap);
    CountAppend(head + ": ", OpenRecordText(pre, word, gs, gap, inner), c);
    CountAppend(RecordHead(pre, word), OpenBody(gs, gap, inner), c);
    assert RecordHead(pre, word) == (pre + "[") + (word + " ");
    CountAppend(pre + "[", word + " ", c);
    CountAppend(pre, "[", c);
    CountAppend(GroupsText(gs) + gap + "[", inner, c);
    CountAppend(GroupsText(gs) + gap, "[", c);
    CountAppend(GroupsText(gs), gap, c);
  }

  /** The groups of a full collection's first line: "GC (<cause>)" and more. */
  lemma FullGroups(cause: string, more: seq<Group>)
    requires Plain(cause) && AllWellFormed(more)
    ensures AllWellFormed([Paren("GC ", cause)] + more)
    ensures AttrsOf([Paren("GC ", cause)] + more) == [cause] + AttrsOf(more)
  {
    var gs := [Paren("GC ", cause)] + more;
    assert forall k :: 1 <= k < |gs| ==> gs[k] == more[k - 1];
    assert WellFormed(gs[0]) by {
      assert Plain("GC ");
    }
    GroupsAppend([Paren("GC ", cause)], more);
    GroupsSingle(Paren("GC ", cause));
  }

  /** A multi-line record whose first line names the collection and
      opens the histogram dump: the kind, timestamp and attributes are the
      first line's, less "before full gc", and the seconds are those of
      the line that closes the record. */
  lemma {:induction false} ParseHistogramLines(env: Parsers, lines: seq<string>, opener: string,
      hist: seq<string>, total: string, mid: string, closerPre: string, x: string, rest: seq<string>)
    requires lines == [opener] + hist + [total, mid, closerPre + ", " + x + SECS_CLOSE] + rest
    requires forall k :: 0 <= k < |lines| ==> '\n' !in lines[k]
    requires HasGc(opener) && Contains(opener, "Full GC")
    requires Count(opener, '[') == Count(opener, ']') + 2 && Contains(opener, HISTOGRAM)
    requires forall k :: 0 <= k < |hist| ==> !StartsWith(hist[k], TOTAL)
    requires StartsWith(total, TOTAL)
    requires Count(mid, '[') == 0 && Count(mid, ']') == 1 && !Contains(mid, HISTOGRAM)
    requires '[' !in closerPre && ']' !in closerPre && ',' !in closerPre
    requires |x| > 0 && '[' !in x && ']' !in x && ',' !in x
    requires !IsWhitespace(x[0]) && !IsWhitespace(x[|x| - 1])
    ensures var r := ParseFullGcPause(env, Join(lines, "\n"));
      var first := ParseGcPause(env, opener);
      && (r.Ok? <==> env.seconds(x).Some?)
      && (r.Ok? ==> r.value.pauseSeconds == env.seconds(x).value)
      && (r.Ok? ==> r.value.isFullGc && r.value.gcType == first.gcType && r.value.epoch == first.epoch)
      && (r.Ok? ==> r.value.attributes == RemoveAll(first.attributes, BEFORE_FULL_GC))
  {
    var buf := Join(lines, "\n");
    assert Split(buf, "\n") == lines && FirstGcLine(lines) == Some(0) && Contains(buf, "Full GC") by {
      assert lines[0] == opener;
      BufferOfLines(lines, opener);
    }
    var secs := FullGcSeconds(env, lines, Tally(0, 0, false));
    assert (secs.Ok? <==> env.seconds(x).Some?) && (env.seconds(x).Some? ==> secs == Ok(env.seconds(x).value)) by {
      HistogramRecordSeconds(env, opener, hist, total, mid, closerPre, x, rest);
    }
    FullGcPauseOfLines(env, buf, lines);
  }

  /** The full collection with a class histogram of `test_parse_full_gc_pause`,
      in general form: its first line is
      "<head>: <pre>[Full GC (<cause>)...[<inner>" with the dump's title
      in `inner`.  It is read as a full collection named "Full GC", with
      the cause and the first line's other attributes, without "before
      full gc", the first line's timestamp and the seconds of the closing
      line. */
  lemma ParseHistogramRecord(env: Parsers, lines: seq<string>,
      head: string, pre: string, cause: string, more: seq<Group>, gap: string, inner: string,
      hist: seq<string>, total: string, mid: string, closerPre: string, x: string, rest: seq<string>)
    requires lines == [FullOpener(head, pre, cause, more, gap, inner)] + hist + [total, mid, closerPre + ", " + x + SECS_CLOSE] + rest
    requires forall k :: 0 <= k < |lines| ==> '\n' !in lines[k]
    requires !Contains(head, ": ") && Plain(head) && Plain(pre) && Plain(gap)
    requires Plain(cause) && KeepAttribute(cause) && AllWellFormed(more)
    requires forall i :: 0 <= i < |inner| ==> inner[i] != '[' && inner[i] != ']'
    requires Contains(inner, HISTOGRAM)
    requires forall k :: 0 <= k < |hist| ==> !StartsWith(hist[k], TOTAL)
    requires StartsWith(total, TOTAL)
    requires Count(mid, '[') == 0 && Count(mid, ']') == 1 && !Contains(mid, HISTOGRAM)
    requires '[' !in closerPre && ']' !in closerPre && ',' !in closerPre
    requires |x| > 0 && '[' !in x && ']' !in x && ',' !in x
    requires !IsWhitespace(x[0]) && !IsWhitespace(x[|x| - 1])
    ensures var r := ParseFullGcPause(env, Join(lines, "\n"));
      && (r.Ok? <==> env.seconds(x).Some?)
      && (r.Ok? ==> r.value.pauseSeconds == env.seconds(x).value)
      && (r.Ok? ==> r.value.gcType == "Full GC" && r.value.isFullGc)
      && (r.Ok? ==> r.value.epoch == env.epoch(head).GetOr(0))
      && (r.Ok? ==> r.value.attributes == RemoveAll([cause] + Kept(AttrsOf(more)), BEFORE_FULL_GC))
  {
    var opener := FullOpener(head, pre, cause, more, gap, inner);
    FullOpenerFacts(head, pre, cause, more, gap, inner);
    assert ParseGcPause(env, opener).gcType == "Full GC"
      && ParseGcPause(env, opener).epoch == env.epoch(head).GetOr(0)
      && ParseGcPause(env, opener).attributes == [cause] + Kept(AttrsOf(more)) by {
      FullOpenerParse(env, head, pre, cause, more, gap, inner);
    }
    ParseHistogramLines(env, lines, opener, hist, total, mid, closerPre, x, rest);
  }

  /** The first line of a full collection read on its own. */
  lemma FullOpenerParse(env: Parsers, head: string, pre: string, cause: string, more: seq<Group>, gap: string, inner: string)
    requires !Contains(head, ": ") && Plain(pre) && Plain(gap)
    requires Plain(cause) && KeepAttribute(cause) && AllWellFormed(more)
    requires forall i :: 0 <= i < |inner| ==> inner[i] != '[' && inner[i] != ']'
    ensures var r := ParseGcPause(env, FullOpener(head, pre, cause, more, gap, inner));
      && r.gcType == "Full GC" && r.isFullGc && r.pauseSeconds == 0.0
      && r.epoch == env.epoch(head).GetOr(0)
      && r.attributes == [cause] + Kept(AttrsOf(more))
  {
    var gs := [Paren("GC ", cause)] + more;
    FullGroups(cause, more);
    assert Kept(AttrsOf(gs)) == [cause] + Kept(AttrsOf(more)) by {
      assert AttrsOf(gs)[0] == cause && AttrsOf(gs)[1..] == AttrsOf(more);
    }
    FullWordParse(env, head, pre, "Full", gs, gap, inner);
  }

  lemma FullWordParse(env: Parsers, head: string, pre: string, word: string, gs: seq<Group>, gap: string, inner: string)
    requires word == "Full"
    requires !Contains(head, ": ") && Plain(pre) && Plain(gap) && AllWellFormed(gs) && |Kept(AttrsOf(gs))| > 0
    requires forall i :: 0 <= i < |inner| ==> inner[i] != '[' && inner[i] != ']'
    ensures var r := ParseGcPause(env, OpenRecordLine(head, pre, word, gs, gap, inner));
      && r.gcType == "Full GC" && r.isFullGc && r.pauseSeconds == 0.0
      && r.epoch == env.epoch(head).GetOr(0)
      && r.attributes == Kept(AttrsOf(gs))
  {
    assert Plain(word) && Spaceless(word);
    ParseOpenRecordLine(env, head, pre, word, gs, gap, inner);
  }

  /** Joined lines that mention a full collection first split back into
      those lines. */
  lemma BufferOfLines(lines: seq<string>, opener: string)
    requires |lines| > 1 && lines[0] == opener && HasGc(opener) && Contains(opener, "Full GC")
    requires forall k :: 0 <= k < |lines| ==> '\n' !in lines[k]
    ensures Split(Join(lines, "\n"), "\n") == lines
    ensures FirstGcLine(lines) == Some(0)
    ensures Contains(Join(lines, "\n"), "Full GC")
  {
    SplitJoin(lines, '\n');
    var buf := Join(lines, "\n");
    assert buf == opener + "\n" + Join(lines[1..], "\n");
    assert buf == opener + ("\n" + Join(lines[1..], "\n"));
    ContainsLeft(opener, "\n" + Join(lines[1..], "\n"), "Full GC");
  }

  /** `parse_full_gc_pause` on a buffer whose first line names the collection. */
  lemma FullGcPauseOfLines(env: Parsers, buf: string, lines: seq<string>)
    requires Split(buf, "\n") == lines && FirstGcLine(lines) == Some(0)
    ensures var r := ParseFullGcPause(env, buf);
      var first := ParseGcPause(env, lines[0]);
      var secs := FullGcSeconds(env, lines, Tally(0, 0, false));
      && (r.Ok? <==> secs.Ok?)
      && (r.Ok? ==> r.value == GcPause(Contains(buf, "Full GC"), RemoveAll(first.attributes, BEFORE_FULL_GC),
        first.gcType, secs.value, first.epoch, GcResizing(buf)))
  {
  }
}

=== FILE: recommendations.dfy ===
/** `generate_recommendations` (src/glog/recommendations.rs): one pass over
    the pauses gathers counts, totals and maxima, and a fixed set of rules
    turns them and the collector settings into advice paragraphs.  The
    paragraph texts are rendered with `{:.2}` float formatting, which this
    model leaves to an abstract `show` function: a paragraph is a `Note`
    holding the figures it prints.
 */
module Recommendations {
  import opened Common
  import opened Strings
  import opened Pauses
  import opened Flags

  const TO_SPACE_EXHAUSTED: string := "to-space exhausted"
  const HUMONGOUS_ALLOCATION: string := "G1 Humongous Allocation"
  const HEADING: string := "recommendations"
  const UNDERLINE: string := "---------------"

  /** The G1 maximum region size in MiB, where the advice stops. */
  const MAX_REGION_MB: real := 32.0

  // ---------------------------------------------------------------------
  // The counting pass
  // ---------------------------------------------------------------------

  /** The loop variables of the counting pass. */
  datatype Counts = Counts(
    resizesUp: nat,
    resizesDown: nat,
    toSpace: nat,
    toSpaceTotal: real,
    toSpaceMax: real,
    fullGcs: nat,
    fullMax: real,
    fullTotal: real,
    humongous: nat,
    humongousTotal: real)

  const NoCounts: Counts := Counts(0, 0, 0, 0.0, 0.0, 0, 0.0, 0.0, 0, 0.0)

  /** `f64::max` on numbers. */
  function Max(a: real, b: real): real {
    if a < b then b else a
  }

  /** The classes of pause the pass counts. */
  datatype Condition = ResizedUp | ResizedDown | ToSpace | Humongous | FullGc

  /** A humongous allocation is never counted as a full collection, even
      when it is one. */
  predicate Holds(cond: Condition, p: GcPause) {
    match cond
    case ResizedUp => p.heapSizing == Expansion
    case ResizedDown => p.heapSizing == Shrinking
    case ToSpace => TO_SPACE_EXHAUSTED in p.attributes
    case Humongous => p.gcType == HUMONGOUS_ALLOCATION
    case FullGc => p.gcType != HUMONGOUS_ALLOCATION && p.isFullGc
  }

  /** One iteration of the counting loop. */
  function CountPause(c: Counts, p: GcPause): Counts {
    var s := p.pauseSeconds;
    var sized :=
      if p.heapSizing == Expansion then c.(resizesUp := c.resizesUp + 1)
      else if p.heapSizing == Shrinking then c.(resizesDown := c.resizesDown + 1)
      else c;
    var exhausted :=
      if TO_SPACE_EXHAUSTED in p.attributes then
        sized.(toSpace := sized.toSpace + 1, toSpaceTotal := sized.toSpaceTotal + s,
          toSpaceMax := Max(sized.toSpaceMax, s))
      else sized;
    if p.gcType == HUMONGOUS_ALLOCATION then
      exhausted.(humongous := exhausted.humongous + 1, humongousTotal := exhausted.humongousTotal + s)
    else if p.isFullGc then
      exhausted.(fullGcs := exhausted.fullGcs + 1, fullMax := Max(exhausted.fullMax, s),
        fullTotal := exhausted.fullTotal + s)
    else exhausted
  }

  /** The counting loop over `ps`, in order. */
  function CountPauses(ps: seq<GcPause>): Counts
    decreases |ps|
  {
    if |ps| == 0 then NoCounts else CountPause(CountPauses(ps[..|ps| - 1]), Last(ps))
  }

  // Independent definitions of what the pass computes, one class at a time.

  function Occurrences(ps: seq<GcPause>, cond: Condition): nat
    decreases |ps|
  {
    if |ps| == 0 then 0 else (if Holds(cond, ps[0]) then 1 else 0) + Occurrences(ps[1..], cond)
  }

  function SecondsWhere(ps: seq<GcPause>, cond: Condition): real
    decreases |ps|
  {
    if |ps| == 0 then 0.0
    else (if Holds(cond, ps[0]) then ps[0].pauseSeconds else 0.0) + SecondsWhere(ps[1..], cond)
  }

  function LongestWhere(ps: seq<GcPause>, cond: Condition): real
    decreases |ps|
  {
    if |ps| == 0 then 0.0
    else Max(if Holds(cond, ps[0]) then ps[0].pauseSeconds else 0.0, LongestWhere(ps[1..], cond))
  }

  lemma {:induction false} OccurrencesSnoc(ps: seq<GcPause>, p: GcPause, cond: Condition)
    ensures Occurrences(ps + [p], cond) == Occurrences(ps, cond) + if Holds(cond, p) then 1 else 0
    ensures SecondsWhere(ps + [p], cond) == SecondsWhere(ps, cond) + if Holds(cond, p) then p.pauseSeconds else 0.0
    ensures LongestWhere(ps + [p], cond) == Max(LongestWhere(ps, cond), if Holds(cond, p) then p.pauseSeconds else 0.0)
    decreases |ps|
  {
    if |ps| == 0 {
      assert [] + [p] == [p];
      assert [p][1..] == [];
    } else {
      assert (ps + [p])[0] == ps[0];
      assert (ps + [p])[1..] == ps[1..] + [p];
      OccurrencesSnoc(ps[1..], p, cond);
      LongestWhere0(ps[1..], cond);
    }
  }

  lemma {:induction false} LongestWhere0(ps: seq<GcPause>, cond: Condition)
    ensures LongestWhere(ps, cond) >= 0.0
    decreases |ps|
  {
    if |ps| > 0 {
      LongestWhere0(ps[1..], cond);
    }
  }

  /** The pass counts, sums and maximises exactly the pauses of each class:
      resizes up and down, to-space exhaustion, humongous allocations, and
      full collections that are not humongous allocations. */
  lemma {:induction false} CountPausesExact(ps: seq<GcPause>)
    ensures var c := CountPauses(ps);
      && c.resizesUp == Occurrences(ps, ResizedUp)
      && c.resizesDown == Occurrences(ps, ResizedDown)
      && c.toSpace == Occurrences(ps, ToSpace)
      && c.toSpaceTotal == SecondsWhere(ps, ToSpace)
      && c.toSpaceMax == LongestWhere(ps, ToSpace)
      && c.humongous == Occurrences(ps, Humongous)
      && c.humongousTotal == SecondsWhere(ps, Humongous)
      && c.fullGcs == Occurrences(ps, FullGc)
      && c.fullTotal == SecondsWhere(ps, FullGc)
      && c.fullMax == LongestWhere(ps, FullGc)
    decreases |ps|
  {
    if |ps| > 0 {
      var pre := ps[..|ps| - 1];
      var p := Last(ps);
      assert ps == pre + [p];
      CountPausesExact(pre);
      OccurrencesSnoc(pre, p, ResizedUp);
      OccurrencesSnoc(pre, p, ResizedDown);
      OccurrencesSnoc(pre, p, ToSpace);
      OccurrencesSnoc(pre, p, Humongous);
      OccurrencesSnoc(pre, p, FullGc);
      LongestWhere0(pre, ToSpace);
      LongestWhere0(pre, FullGc);
      MaxOfNonNegative(CountPauses(pre).toSpaceMax, p.pauseSeconds, TO_SPACE_EXHAUSTED in p.attributes);
      MaxOfNonNegative(CountPauses(pre).fullMax, p.pauseSeconds, Holds(FullGc, p));
    }
  }

  /** A class that does not hold adds a zero, which leaves a non-negative
      maximum alone. */
  lemma MaxOfNonNegative(m: real, s: real, holds: bool)
    requires m >= 0.0
    ensures Max(m, if holds then s else 0.0) == if holds then Max(m, s) else m
  {
  }

  /** Every class is a subset of the pauses, and a pause is at most one of
      humongous and full, and at most one of sized up and sized down. */
  lemma {:induction false} OccurrencesBounded(ps: seq<GcPause>)
    ensures Occurrences(ps, ToSpace) <= |ps|
    ensures Occurrences(ps, ResizedUp) + Occurrences(ps, ResizedDown) <= |ps|
    ensures Occurrences(ps, Humongous) + Occurrences(ps, FullGc) <= |ps|
    decreases |ps|
  {
    if |ps| > 0 {
      OccurrencesBounded(ps[1..]);
    }
  }

  /** The largest pause of a class is at least every pause of that class,
      and is either 0 or the seconds of one of them. */
  lemma {:induction false} LongestWhereIsMax(ps: seq<GcPause>, cond: Condition)
    ensures forall i :: 0 <= i < |ps| && Holds(cond, ps[i]) ==> ps[i].pauseSeconds <= LongestWhere(ps, cond)
    ensures LongestWhere(ps, cond) == 0.0
      || exists i :: 0 <= i < |ps| && Holds(cond, ps[i]) && ps[i].pauseSeconds == LongestWhere(ps, cond)
    decreases |ps|
  {
    if |ps| > 0 {
      var tail := ps[1..];
      LongestWhereIsMax(tail, cond);
      forall i | 1 <= i < |ps| && Holds(cond, ps[i])
        ensures ps[i].pauseSeconds <= LongestWhere(ps, cond)
      {
        assert ps[i] == tail[i - 1];
      }
      var m := LongestWhere(ps, cond);
      if m != 0.0 && m != (if Holds(cond, ps[0]) then ps[0].pauseSeconds else 0.0) {
        var i :| 0 <= i < |tail| && Holds(cond, tail[i]) && tail[i].pauseSeconds == LongestWhere(tail, cond);
        assert ps[i + 1] == tail[i];
      }
    }
  }

  /** The counts bound the pause count as the percentages need. */
  predicate Bounded(c: Counts, n: nat) {
    c.toSpace <= n && c.resizesUp + c.resizesDown <= n && c.humongous + c.fullGcs <= n
  }

  lemma CountPausesBounded(ps: seq<GcPause>)
    ensures Bounded(CountPauses(ps), |ps|)
  {
    CountPausesExact(ps);
    OccurrencesBounded(ps);
  }

  /** Pauses counted in any order give the same counts. */
  lemma {:induction false} OccurrencesAppend(a: seq<GcPause>, b: seq<GcPause>, cond: Condition)
    ensures Occurrences(a + b, cond) == Occurrences(a, cond) + Occurrences(b, cond)
    ensures SecondsWhere(a + b, cond) == SecondsWhere(a, cond) + SecondsWhere(b, cond)
    ensures LongestWhere(a + b, cond) == Max(LongestWhere(a, cond), LongestWhere(b, cond))
    decreases |a|
  {
    if |a| == 0 {
      assert a + b == b;
      LongestWhere0(b, cond);
    } else {
      assert (a + b)[0] == a[0];
      assert (a + b)[1..] == a[1..] + b;
      OccurrencesAppend(a[1..], b, cond);
    }
  }

  lemma CountPausesSwap(a: seq<GcPause>, b: seq<GcPause>)
    ensures CountPauses(a + b) == CountPauses(b + a)
  {
    CountPausesExact(a + b);
    CountPausesExact(b + a);
    forall cond: Condition
      ensures Occurrences(a + b, cond) == Occurrences(b + a, cond)
      ensures SecondsWhere(a + b, cond) == SecondsWhere(b + a, cond)
      ensures LongestWhere(a + b, cond) == LongestWhere(b + a, cond)
    {
      OccurrencesAppend(a, b, cond);
      OccurrencesAppend(b, a, cond);
    }
  }

  // ---------------------------------------------------------------------
  // Region advice
  // ---------------------------------------------------------------------

  predicate IsPowerOfTwo(p: nat)
    decreases p
  {
    p == 1 || (p >= 2 && p % 2 == 0 && IsPowerOfTwo(p / 2))
  }

  /** Doubling from `p` until `n` is reached. */
  function DoubleUntil(n: nat, p: nat): (r: nat)
    requires p >= 1 && IsPowerOfTwo(p)
    decreases n - p
    ensures IsPowerOfTwo(r) && n <= r && p <= r
    ensures r == p || r < 2 * n
  {
    if p >= n then p
    else
      assert IsPowerOfTwo(2 * p) by {
        assert (2 * p) / 2 == p;
      }
      DoubleUntil(n, 2 * p)
  }

  /** `u32::next_power_of_two` without the width: the least power of two
      at or above `n`. */
  function NextPowerOfTwo(n: nat): (r: nat)
    ensures IsPowerOfTwo(r) && n <= r
    ensures n >= 1 ==> r < 2 * n
  {
    DoubleUntil(n, 1)
  }

  /** Two powers of two at or above `n` and below `2 * n` are one. */
  lemma PowerOfTwoBetween(n: nat, p: nat, q: nat)
    requires IsPowerOfTwo(p) && IsPowerOfTwo(q)
    requires n <= p < 2 * n && n <= q < 2 * n
    ensures p == q
  {
    PowerAbove(p, q);
    PowerAbove(q, p);
  }

  /** `NextPowerOfTwo` is the least power of two at or above `n`. */
  lemma NextPowerOfTwoLeast(n: nat, q: nat)
    requires IsPowerOfTwo(q) && n <= q
    ensures NextPowerOfTwo(n) <= q
  {
    var r := NextPowerOfTwo(n);
    PowerAbove(q, r);
    assert r == 1 || r < 2 * n;
  }

  /** Of two different powers of two the larger is at least twice the
      smaller. */
  lemma {:induction false} PowerAbove(q: nat, r: nat)
    requires IsPowerOfTwo(q) && IsPowerOfTwo(r)
    ensures q < r ==> 2 * q <= r
    decreases r
  {
    if q != 1 && r != 1 {
      PowerAbove(q / 2, r / 2);
    }
  }

  /** The product of two powers of two is one. */
  lemma {:induction false} PowerProduct(p: nat, q: nat)
    requires IsPowerOfTwo(p) && IsPowerOfTwo(q)
    ensures IsPowerOfTwo(p * q)
    decreases p
  {
    if p != 1 {
      PowerProduct(p / 2, q);
      assert p * q == 2 * ((p / 2) * q);
      assert (p * q) / 2 == (p / 2) * q;
    }
  }

  /** 2^31 is a power of two. */
  lemma PowerOfTwo31()
    ensures IsPowerOfTwo(0x8000_0000)
  {
    assert IsPowerOfTwo(2);
    assert IsPowerOfTwo(4);
    assert IsPowerOfTwo(8);
    assert IsPowerOfTwo(16);
    PowerProduct(16, 16);
    assert 16 * 16 == 0x100;
    PowerProduct(0x100, 0x100);
    assert 0x100 * 0x100 == 0x1_0000;
    PowerProduct(0x1_0000, 0x100);
    assert 0x1_0000 * 0x100 == 0x100_0000;
    PowerProduct(0x100_0000, 16);
    assert 0x100_0000 * 16 == 0x1000_0000;
    PowerProduct(0x1000_0000, 8);
    assert 0x1000_0000 * 8 == 0x8000_0000;
  }

  /** A `u32` holds the next power of two of `n` exactly when `n` is at
      most 2^31. */
  lemma PowerOfTwoWidth(n: nat)
    requires n >= 1
    ensures NextPowerOfTwo(n) > U32_MAX <==> n > 0x8000_0000
  {
    PowerOfTwo31();
    if n <= 0x8000_0000 {
      NextPowerOfTwoLeast(n, 0x8000_0000);
    } else {
      PowerAbove(0x8000_0000, NextPowerOfTwo(n));
    }
  }

  /** What the humongous paragraph says about the region size. */
  datatype RegionAdvice =
    | AlreadyMax
    | RaiseTo(currentMb: real, suggestedMb: nat)

  /** The region advice: maxed out within 0.02 MiB of 32, otherwise the
      next power of two above the whole MiB of the region.  The `u32`
      cast saturates, and `+ 1` and `next_power_of_two` panic on overflow
      as in a debug build. */
  function AdviseRegion(regionMb: real): (r: Result<RegionAdvice>)
    ensures r == Ok(AlreadyMax) <==> AbsReal(regionMb - MAX_REGION_MB) < 0.02
    ensures r.Ok? && r.value.RaiseTo? ==>
      var whole := CastReal(regionMb, 0, U32_MAX);
      && r.value.currentMb == regionMb
      && IsPowerOfTwo(r.value.suggestedMb)
      && whole < r.value.suggestedMb <= 2 * whole + 1
      && r.value.suggestedMb <= U32_MAX
    ensures r.Panic? <==> AbsReal(regionMb - MAX_REGION_MB) >= 0.02 && regionMb >= 0x8000_0000 as real
  {
    if AbsReal(regionMb - MAX_REGION_MB) < 0.02 then Ok(AlreadyMax)
    else
      var whole := CastReal(regionMb, 0, U32_MAX);
      if whole + 1 > U32_MAX then Panic("attempt to add with overflow")
      else
        var p := NextPowerOfTwo(whole + 1);
        assert p > U32_MAX <==> whole >= 0x8000_0000 by {
          PowerOfTwoWidth(whole + 1);
        }
        if p > U32_MAX then
          Panic("attempt to add with overflow")
        else
          Ok(RaiseTo(regionMb, p))
  }

  // ---------------------------------------------------------------------
  // The rules
  // ---------------------------------------------------------------------

  /** One advice paragraph and the figures it prints.  The full-collection
      and resize paragraphs print a fraction of the pauses, not a
      percentage, though their text says "%". */
  datatype Note =
    | CollectorNote(collector: Collector)
    | ToSpaceNote(percent: real, totalSeconds: real, maxSeconds: real)
    | HumongousNote(percent: real, totalSeconds: real, advice: RegionAdvice)
    | FullGcNote(fraction: real, totalSeconds: real, maxSeconds: real)
    | ResizeNote(fraction: real, up: nat, down: nat)

  /** The position of a paragraph kind in the output. */
  function Rank(n: Note): nat {
    match n
    case CollectorNote(_) => 0
    case ToSpaceNote(_, _, _) => 1
    case HumongousNote(_, _, _) => 2
    case FullGcNote(_, _, _) => 3
    case ResizeNote(_, _, _) => 4
  }

  /** The G1 paragraphs: to-space exhaustion and humongous allocations. */
  function G1Notes(regionMb: real, c: Counts, n: nat): Result<seq<Note>>
    requires Bounded(c, n)
  {
    var exhausted :=
      if c.toSpace > 0 then [ToSpaceNote(c.toSpace as real / n as real * 100.0, c.toSpaceTotal, c.toSpaceMax)]
      else [];
    if c.humongous > 0 then
      var advice :- AdviseRegion(regionMb);
      Ok(exhausted + [HumongousNote(c.humongous as real / n as real * 100.0, c.humongousTotal, advice)])
    else Ok(exhausted)
  }

  /** The collector's paragraphs: the G1 ones, or one fixed advisory for
      every other collector. */
  function CollectorNotes(flags: GcFlags, c: Counts, n: nat): Result<seq<Note>>
    requires Bounded(c, n)
  {
    if flags.collector == G1GC then G1Notes(flags.regionSizeMb, c, n)
    else Ok([CollectorNote(flags.collector)])
  }

  /** The full-collection paragraph: for every collector but Parallel. */
  function FullGcNotes(flags: GcFlags, c: Counts, n: nat): seq<Note>
    requires Bounded(c, n)
  {
    if c.fullGcs > 0 && flags.collector != Parallel then
      [FullGcNote(c.fullGcs as real / n as real, c.fullTotal, c.fullMax)]
    else []
  }

  /** The resize paragraph: only when the heap may change size. */
  function ResizeNotes(flags: GcFlags, c: Counts, n: nat): seq<Note>
    requires Bounded(c, n)
  {
    var resizes := c.resizesUp + c.resizesDown;
    if resizes > 0 && AbsReal(flags.maxHeapSizeGb - flags.minHeapSizeGb) > 0.01 then
      [ResizeNote(resizes as real / n as real, c.resizesUp, c.resizesDown)]
    else []
  }

  /** The paragraphs of `generate_recommendations`, in output order. */
  function Recommend(flags: GcFlags, pauses: seq<GcPause>): Result<seq<Note>> {
    var c := CountPauses(pauses);
    var n := |pauses|;
    CountPausesBounded(pauses);
    var first :- CollectorNotes(flags, c, n);
    Ok(first + FullGcNotes(flags, c, n) + ResizeNotes(flags, c, n))
  }

  predicate HasRank(notes: seq<Note>, k: nat) {
    exists i :: 0 <= i < |notes| && Rank(notes[i]) == k
  }

  /** Each kind at most once, in output order. */
  predicate Ascending(notes: seq<Note>) {
    forall i, j :: 0 <= i < j < |notes| ==> Rank(notes[i]) < Rank(notes[j])
  }

  lemma HasRankAppend(a: seq<Note>, b: seq<Note>, k: nat)
    ensures HasRank(a + b, k) <==> HasRank(a, k) || HasRank(b, k)
  {
    if HasRank(a + b, k) {
      var i :| 0 <= i < |a + b| && Rank((a + b)[i]) == k;
      if i >= |a| {
        assert (a + b)[i] == b[i - |a|];
      } else {
        assert (a + b)[i] == a[i];
      }
    }
    if HasRank(a, k) {
      var i :| 0 <= i < |a| && Rank(a[i]) == k;
      assert (a + b)[i] == a[i];
    }
    if HasRank(b, k) {
      var i :| 0 <= i < |b| && Rank(b[i]) == k;
      assert (a + b)[i + |a|] == b[i];
    }
  }

  lemma AscendingAppend(a: seq<Note>, b: seq<Note>, m: nat)
    requires Ascending(a) && Ascending(b)
    requires forall i :: 0 <= i < |a| ==> Rank(a[i]) < m
    requires forall j :: 0 <= j < |b| ==> m <= Rank(b[j])
    ensures Ascending(a + b)
  {
    forall i, j | 0 <= i < j < |a + b|
      ensures Rank((a + b)[i]) < Rank((a + b)[j])
    {
      if j < |a| {
      } else if i < |a| {
        assert (a + b)[j] == b[j - |a|];
      } else {
        assert (a + b)[i] == b[i - |a|] && (a + b)[j] == b[j - |a|];
      }
    }
  }

  /** The collector's paragraphs come first, in order. */
  lemma CollectorNotesRules(flags: GcFlags, c: Counts, n: nat)
    requires Bounded(c, n)
    ensures var r := CollectorNotes(flags, c, n);
      && (r.Panic? <==> flags.collector == G1GC && c.humongous > 0 && AdviseRegion(flags.regionSizeMb).Panic?)
      && (r.Ok? ==>
        && Ascending(r.value)
        && (forall i :: 0 <= i < |r.value| ==> Rank(r.value[i]) < 3)
        && (HasRank(r.value, 0) <==> flags.collector != G1GC)
        && (HasRank(r.value, 1) <==> flags.collector == G1GC && c.toSpace > 0)
        && (HasRank(r.value, 2) <==> flags.collector == G1GC && c.humongous > 0)
        && !HasRank(r.value, 3) && !HasRank(r.value, 4))
  {
    var r := CollectorNotes(flags, c, n);
    if r.Ok? {
      var notes := r.value;
      if flags.collector != G1GC {
        assert Rank(notes[0]) == 0;
      } else {
        if c.toSpace > 0 {
          assert Rank(notes[0]) == 1;
        }
        if c.humongous > 0 {
          assert Rank(notes[|notes| - 1]) == 2;
        }
      }
    }
  }

  /** The full-collection and resize paragraphs follow, each when its rule
      fires. */
  lemma TrailingNotesRules(flags: GcFlags, c: Counts, n: nat)
    requires Bounded(c, n)
    ensures var rest := FullGcNotes(flags, c, n) + ResizeNotes(flags, c, n);
      && Ascending(rest)
      && (forall i :: 0 <= i < |rest| ==> 3 <= Rank(rest[i]))
      && (HasRank(rest, 3) <==> c.fullGcs > 0 && flags.collector != Parallel)
      && (HasRank(rest, 4) <==>
        c.resizesUp + c.resizesDown > 0 && AbsReal(flags.maxHeapSizeGb - flags.minHeapSizeGb) > 0.01)
      && !HasRank(rest, 0) && !HasRank(rest, 1) && !HasRank(rest, 2)
  {
    var full := FullGcNotes(flags, c, n);
    var resize := ResizeNotes(flags, c, n);
    HasRankAppend(full, resize, 0);
    HasRankAppend(full, resize, 1);
    HasRankAppend(full, resize, 2);
    HasRankAppend(full, resize, 3);
    HasRankAppend(full, resize, 4);
    if |full| > 0 {
      assert Rank(full[0]) == 3;
    }
    if |resize| > 0 {
      assert Rank(resize[0]) == 4;
    }
    AscendingAppend(full, resize, 4);
  }

  /** Which rules fire, and in which order they print.  Every paragraph
      kind appears at most once and in the order collector, to-space,
      humongous, full collections, resizes; only the region advice can
      fail. */
  lemma RecommendRules(flags: GcFlags, pauses: seq<GcPause>)
    ensures var c := CountPauses(pauses);
      var r := Recommend(flags, pauses);
      && (r.Panic? <==> flags.collector == G1GC && c.humongous > 0 && AdviseRegion(flags.regionSizeMb).Panic?)
      && (r.Ok? ==>
        && Ascending(r.value)
        && (HasRank(r.value, 0) <==> flags.collector != G1GC)
        && (HasRank(r.value, 1) <==> flags.collector == G1GC && c.toSpace > 0)
        && (HasRank(r.value, 2) <==> flags.collector == G1GC && c.humongous > 0)
        && (HasRank(r.value, 3) <==> c.fullGcs > 0 && flags.collector != Parallel)
        && (HasRank(r.value, 4) <==>
          c.resizesUp + c.resizesDown > 0 && AbsReal(flags.maxHeapSizeGb - flags.minHeapSizeGb) > 0.01))
  {
    var c := CountPauses(pauses);
    var n := |pauses|;
    CountPausesBounded(pauses);
    CollectorNotesRules(flags, c, n);
    var first := CollectorNotes(flags, c, n);
    if first.Ok? {
      var rest := FullGcNotes(flags, c, n) + ResizeNotes(flags, c, n);
      assert Recommend(flags, pauses).value == first.value + rest;
      TrailingNotesRules(flags, c, n);
      AscendingAppend(first.value, rest, 3);
      HasRankAppend(first.value, rest, 0);
      HasRankAppend(first.value, rest, 1);
      HasRankAppend(first.value, rest, 2);
      HasRankAppend(first.value, rest, 3);
      HasRankAppend(first.value, rest, 4);
    }
  }

  /** The figures of the paragraphs that fire: the to-space and humongous
      shares as percentages, the full-collection and resize shares as
      fractions, with the totals and maxima of the counting pass. */
  lemma RecommendFigures(flags: GcFlags, pauses: seq<GcPause>)
    requires Recommend(flags, pauses).Ok?
    ensures var c := CountPauses(pauses);
      var notes := Recommend(flags, pauses).value;
      var n := |pauses| as real;
      && (forall i :: 0 <= i < |notes| && notes[i].ToSpaceNote? ==>
        n > 0.0 && notes[i] == ToSpaceNote(c.toSpace as real / n * 100.0, c.toSpaceTotal, c.toSpaceMax))
      && (forall i :: 0 <= i < |notes| && notes[i].HumongousNote? ==>
        n > 0.0 && notes[i] == HumongousNote(c.humongous as real / n * 100.0, c.humongousTotal,
          AdviseRegion(flags.regionSizeMb).value))
      && (forall i :: 0 <= i < |notes| && notes[i].FullGcNote? ==>
        n > 0.0 && notes[i] == FullGcNote(c.fullGcs as real / n, c.fullTotal, c.fullMax))
      && (forall i :: 0 <= i < |notes| && notes[i].ResizeNote? ==>
        n > 0.0 && notes[i] == ResizeNote((c.resizesUp + c.resizesDown) as real / n, c.resizesUp, c.resizesDown))
      && (forall i :: 0 <= i < |notes| && notes[i].CollectorNote? ==> notes[i] == CollectorNote(flags.collector))
  {
    ToSpaceFigure(flags, pauses);
    HumongousFigure(flags, pauses);
    FullGcFigure(flags, pauses);
    ResizeFigure(flags, pauses);
    CollectorFigure(flags, pauses);
  }


  lemma ToSpaceFigure(flags: GcFlags, pauses: seq<GcPause>)
    requires Recommend(flags, pauses).Ok?
    ensures var c := CountPauses(pauses);
      var notes := Recommend(flags, pauses).value;
      var n := |pauses| as real;
      (forall i :: 0 <= i < |notes| && notes[i].ToSpaceNote? ==>
        n > 0.0 && notes[i] == ToSpaceNote(c.toSpace as real / n * 100.0, c.toSpaceTotal, c.toSpaceMax))
  {
    CountPausesBounded(pauses);
  }

  lemma HumongousFigure(flags: GcFlags, pauses: seq<GcPause>)
    requires Recommend(flags, pauses).Ok?
    ensures var c := CountPauses(pauses);
      var notes := Recommend(flags, pauses).value;
      var n := |pauses| as real;
      (forall i :: 0 <= i < |notes| && notes[i].HumongousNote? ==>
        n > 0.0 && notes[i] == HumongousNote(c.humongous as real / n * 100.0, c.humongousTotal,
          AdviseRegion(flags.regionSizeMb).value))
  {
    CountPausesBounded(pauses);
  }

  lemma FullGcFigure(flags: GcFlags, pauses: seq<GcPause>)
    requires Recommend(flags, pauses).Ok?
    ensures var c := CountPauses(pauses);
      var notes := Recommend(flags, pauses).value;
      var n := |pauses| as real;
      (forall i :: 0 <= i < |notes| && notes[i].FullGcNote? ==>
        n > 0.0 && notes[i] == FullGcNote(c.fullGcs as real / n, c.fullTotal, c.fullMax))
  {
    CountPausesBounded(pauses);
  }

  lemma ResizeFigure(flags: GcFlags, pauses: seq<GcPause>)
    requires Recommend(flags, pauses).Ok?
    ensures var c := CountPauses(pauses);
      var notes := Recommend(flags, pauses).value;
      var n := |pauses| as real;
      (forall i :: 0 <= i < |notes| && notes[i].ResizeNote? ==>
        n > 0.0 && notes[i] == ResizeNote((c.resizesUp + c.resizesDown) as real / n, c.resizesUp, c.resizesDown))
  {
    CountPausesBounded(pauses);
  }

  lemma CollectorFigure(flags: GcFlags, pauses: seq<GcPause>)
    requires Recommend(flags, pauses).Ok?
    ensures var c := CountPauses(pauses);
      var notes := Recommend(flags, pauses).value;
      var n := |pauses| as real;
      (forall i :: 0 <= i < |notes| && notes[i].CollectorNote? ==> notes[i] == CollectorNote(flags.collector))
  {
    CountPausesBounded(pauses);
  }

  // ---------------------------------------------------------------------
  // The text
  // ---------------------------------------------------------------------

  /** The output: nothing when no rule fires, otherwise a heading, an
      underline and the paragraphs, one per line.  `show` stands for the
      `format!` of each paragraph. */
  function RecommendationText(show: Note -> string, notes: seq<Note>): (r: string)
    ensures |notes| == 0 <==> r == ""
    ensures |notes| > 0 ==> StartsWith(r, HEADING + "\n" + UNDERLINE + "\n")
  {
    if |notes| == 0 then ""
    else
      var paragraphs := seq(|notes|, i requires 0 <= i < |notes| => show(notes[i]));
      var body := Join(paragraphs, "\n");
      var r := Join([HEADING, UNDERLINE, body], "\n");
      assert [HEADING, UNDERLINE, body][1..] == [UNDERLINE, body];
      assert [UNDERLINE, body][1..] == [body];
      assert Join([body], "\n") == body;
      assert Join([UNDERLINE, body], "\n") == UNDERLINE + "\n" + body;
      assert r == HEADING + "\n" + Join([UNDERLINE, body], "\n");
      assert r == HEADING + "\n" + (UNDERLINE + "\n" + body);
      assert r == (HEADING + "\n" + UNDERLINE + "\n") + body;
      r
  }

  /** `generate_recommendations` with the paragraph texts given by `show`. */
  function GenerateRecommendations(show: Note -> string, flags: GcFlags, pauses: seq<GcPause>): Result<string> {
    var notes :- Recommend(flags, pauses);
    Ok(RecommendationText(show, notes))
  }

  /** A G1 log without pauses gets no recommendations at all. */
  lemma G1WithoutPauses(show: Note -> string, flags: GcFlags)
    requires flags.collector == G1GC
    ensures GenerateRecommendations(show, flags, []) == Ok("")
  {
    assert CountPauses([]) == NoCounts;
  }

  /** Every other collector always gets its advisory, so the output is
      never empty. */
  lemma OtherCollectorsAdvised(show: Note -> string, flags: GcFlags, pauses: seq<GcPause>)
    requires flags.collector != G1GC
    ensures Recommend(flags, pauses).Ok?
    ensures Recommend(flags, pauses).value[0] == CollectorNote(flags.collector)
    ensures GenerateRecommendations(show, flags, pauses).Ok?
    ensures GenerateRecommendations(show, flags, pauses).value != ""
  {
    CountPausesBounded(pauses);
  }

  /** The region advice of the humongous-allocation cases: 1, 2, 4, 8 and
      16 MiB suggest the next power of two, 32 MiB is the maximum. */
  lemma RegionAdviceExamples()
    ensures AdviseRegion(1.0) == Ok(RaiseTo(1.0, 2))
    ensures AdviseRegion(2.0) == Ok(RaiseTo(2.0, 4))
    ensures AdviseRegion(4.0) == Ok(RaiseTo(4.0, 8))
    ensures AdviseRegion(8.0) == Ok(RaiseTo(8.0, 16))
    ensures AdviseRegion(16.0) == Ok(RaiseTo(16.0, 32))
    ensures AdviseRegion(32.0) == Ok(AlreadyMax)
  {
    assert NextPowerOfTwo(2) == 2 by { PowerExample(2, 2); }
    assert NextPowerOfTwo(3) == 4 by { PowerExample(3, 4); }
    assert NextPowerOfTwo(5) == 8 by { PowerExample(5, 8); }
    assert NextPowerOfTwo(9) == 16 by { PowerExample(9, 16); }
    assert NextPowerOfTwo(17) == 32 by { PowerExample(17, 32); }
  }

  lemma PowerExample(n: nat, p: nat)
    requires IsPowerOfTwo(p) && n <= p < 2 * n
    ensures NextPowerOfTwo(n) == p
  {
    PowerOfTwoBetween(n, p, NextPowerOfTwo(n));
  }

  /** Two 30-second pauses that exhausted to-space under G1: 100% of the
      pauses, 60 seconds in all, 30 at most. */
  lemma ToSpaceExample(flags: GcFlags)
    requires flags.collector == G1GC && flags.maxHeapSizeGb == flags.minHeapSizeGb
    ensures var p := GcPause(false, ["young", TO_SPACE_EXHAUSTED], "G1 Evacuation Pause", 30.0, 1658739348, NoChange);
      Recommend(flags, [p, p]) == Ok([ToSpaceNote(100.0, 60.0, 30.0)])
  {
    var p := GcPause(false, ["young", TO_SPACE_EXHAUSTED], "G1 Evacuation Pause", 30.0, 1658739348, NoChange);
    assert TO_SPACE_EXHAUSTED in p.attributes;
    assert [p, p][..1] == [p] && [p][..0] == [];
    assert CountPauses([p]) == CountPause(NoCounts, p);
    assert CountPauses([p, p]) == CountPause(CountPauses([p]), p);
    var c := CountPauses([p, p]);
    assert c == Counts(0, 0, 2, 60.0, 30.0, 0, 0.0, 0.0, 0, 0.0);
    CountPausesBounded([p, p]);
    assert CollectorNotes(flags, c, 2) == Ok([ToSpaceNote(100.0, 60.0, 30.0)]);
    assert [ToSpaceNote(100.0, 60.0, 30.0)] + [] + [] == [ToSpaceNote(100.0, 60.0, 30.0)];
    assert FullGcNotes(flags, c, 2) == [] && ResizeNotes(flags, c, 2) == [];
  }

  /** Two 3.1-second humongous allocations under G1 with 1 MiB regions:
      100% of the pauses, 6.2 seconds in all, and 2 MiB suggested. */
  lemma HumongousExample(flags: GcFlags)
    requires flags.collector == G1GC && flags.maxHeapSizeGb == flags.minHeapSizeGb
    requires flags.regionSizeMb == 1.0
    ensures var p := GcPause(false, ["young"], HUMONGOUS_ALLOCATION, 3.1, 1658739348, NoChange);
      Recommend(flags, [p, p]) == Ok([HumongousNote(100.0, 6.2, RaiseTo(1.0, 2))])
  {
    var p := GcPause(false, ["young"], HUMONGOUS_ALLOCATION, 3.1, 1658739348, NoChange);
    assert TO_SPACE_EXHAUSTED !in p.attributes;
    assert [p, p][..1] == [p] && [p][..0] == [];
    assert CountPauses([p]) == CountPause(NoCounts, p);
    assert CountPauses([p, p]) == CountPause(CountPauses([p]), p);
    var c := CountPauses([p, p]);
    assert c == Counts(0, 0, 0, 0.0, 0.0, 0, 0.0, 0.0, 2, 6.2);
    CountPausesBounded([p, p]);
    RegionAdviceExamples();
    assert AdviseRegion(flags.regionSizeMb) == Ok(RaiseTo(1.0, 2));
    var note := HumongousNote(100.0, 6.2, RaiseTo(1.0, 2));
    var none: seq<Note> := [];
    assert none + [note] == [note] && [note] + none + none == [note];
    assert G1Notes(flags.regionSizeMb, c, 2) == Ok(none + [note]);
    assert FullGcNotes(flags, c, 2) == [] && ResizeNotes(flags, c, 2) == [];
  }
}

=== FILE: string_order.dfy ===
/** Rust's `Ord` on `String` and `Vec::sort` over strings.  Strings compare
    by their UTF-8 bytes, which orders them as sequences of code points:
    the first differing character decides and a proper prefix comes first.
 */
module StringOrder {

  /** `a <= b` in Rust's string order. */
  predicate Below(a: string, b: string)
    decreases |a|
  {
    |a| == 0 || (|b| > 0 && (a[0] < b[0] || (a[0] == b[0] && Below(a[1..], b[1..]))))
  }

  lemma {:induction false} BelowReflexive(a: string)
    ensures Below(a, a)
    decreases |a|
  {
    if |a| > 0 {
      BelowReflexive(a[1..]);
    }
  }

  lemma {:induction false} BelowAntisymmetric(a: string, b: string)
    requires Below(a, b) && Below(b, a)
    ensures a == b
    decreases |a|
  {
    if |a| > 0 {
      assert |b| > 0 && a[0] == b[0];
      BelowAntisymmetric(a[1..], b[1..]);
      assert a == [a[0]] + a[1..] && b == [b[0]] + b[1..];
    }
  }

  lemma {:induction false} BelowTransitive(a: string, b: string, c: string)
    requires Below(a, b) && Below(b, c)
    ensures Below(a, c)
    decreases |a|
  {
    if |a| > 0 && a[0] == b[0] && b[0] == c[0] {
      BelowTransitive(a[1..], b[1..], c[1..]);
    }
  }

  lemma {:induction false} BelowTotal(a: string, b: string)
    ensures Below(a, b) || Below(b, a)
    decreases |a|
  {
    if |a| > 0 && |b| > 0 && a[0] == b[0] {
      BelowTotal(a[1..], b[1..]);
    }
  }

  /** Every earlier element is below every later one. */
  predicate Sorted(xs: seq<string>) {
    forall i, j :: 0 <= i < j < |xs| ==> Below(xs[i], xs[j])
  }

  /** `x` placed before the first element it is below. */
  function Insert(x: string, xs: seq<string>): (r: seq<string>)
    decreases |xs|
    ensures multiset(r) == multiset(xs) + multiset{x}
    ensures Sorted(xs) ==> Sorted(r)
  {
    if |xs| == 0 then [x]
    else if Below(x, xs[0]) then
      InsertFront(x, xs);
      [x] + xs
    else
      var rest := Insert(x, xs[1..]);
      InsertBehind(x, xs, rest);
      [xs[0]] + rest
  }

  lemma InsertFront(x: string, xs: seq<string>)
    requires |xs| > 0 && Below(x, xs[0])
    ensures multiset([x] + xs) == multiset(xs) + multiset{x}
    ensures Sorted(xs) ==> Sorted([x] + xs)
  {
    var r := [x] + xs;
    if Sorted(xs) {
      forall j | 0 < j < |r|
        ensures Below(x, r[j])
      {
        if j > 1 {
          BelowTransitive(x, xs[0], xs[j - 1]);
        }
      }
    }
  }

  lemma InsertBehind(x: string, xs: seq<string>, rest: seq<string>)
    requires |xs| > 0 && !Below(x, xs[0])
    requires multiset(rest) == multiset(xs[1..]) + multiset{x}
    requires Sorted(xs[1..]) ==> Sorted(rest)
    ensures multiset([xs[0]] + rest) == multiset(xs) + multiset{x}
    ensures Sorted(xs) ==> Sorted([xs[0]] + rest)
  {
    var r := [xs[0]] + rest;
    assert xs == [xs[0]] + xs[1..];
    if Sorted(xs) {
      BelowTotal(x, xs[0]);
      forall j | 0 < j < |r|
        ensures Below(xs[0], r[j])
      {
        assert r[j] in multiset(xs[1..]) + multiset{x} by {
          assert r[j] in rest;
        }
        if r[j] != x {
          var k :| 0 <= k < |xs[1..]| && xs[1..][k] == r[j];
          assert xs[k + 1] == r[j];
        }
      }
      SortedTail(xs);
    }
  }

  /** Insertion sort: a sorted permutation of `xs`. */
  function Sort(xs: seq<string>): (r: seq<string>)
    decreases |xs|
    ensures multiset(r) == multiset(xs)
    ensures Sorted(r)
  {
    if |xs| == 0 then []
    else
      var r := Insert(xs[0], Sort(xs[1..]));
      assert xs == [xs[0]] + xs[1..];
      r
  }

  /** The tail of a sorted list is sorted. */
  lemma SortedTail(xs: seq<string>)
    requires |xs| > 0 && Sorted(xs)
    ensures Sorted(xs[1..])
  {
    assert forall k :: 0 <= k < |xs[1..]| ==> xs[1..][k] == xs[k + 1];
  }

  /** The head of a sorted list is below every element of it. */
  lemma SortedHead(xs: seq<string>, x: string)
    requires |xs| > 0 && Sorted(xs) && x in multiset(xs)
    ensures Below(xs[0], x)
  {
    var i :| 0 <= i < |xs| && xs[i] == x;
    if i == 0 {
      BelowReflexive(x);
    }
  }

  /** A sorted list is determined by its elements: two sorted permutations
      of one multiset are equal. */
  lemma {:induction false} SortedUnique(a: seq<string>, b: seq<string>)
    requires Sorted(a) && Sorted(b) && multiset(a) == multiset(b)
    ensures a == b
    decreases |a|
  {
    if |a| == 0 {
      assert |b| == |multiset(b)| == 0;
    } else {
      SortedSameHead(a, b);
      SameTail(a, b);
      SortedTail(a);
      SortedTail(b);
      SortedUnique(a[1..], b[1..]);
      assert a == [a[0]] + a[1..] && b == [b[0]] + b[1..];
    }
  }

  /** Two sorted permutations start alike. */
  lemma SortedSameHead(a: seq<string>, b: seq<string>)
    requires Sorted(a) && Sorted(b) && multiset(a) == multiset(b) && |a| > 0
    ensures |b| > 0 && a[0] == b[0]
  {
    assert |b| == |multiset(b)| == |multiset(a)| == |a|;
    assert a[0] in multiset(b) && b[0] in multiset(a) by {
      assert a[0] in a && b[0] in b;
    }
    SortedHead(b, a[0]);
    SortedHead(a, b[0]);
    BelowAntisymmetric(a[0], b[0]);
  }

  /** Permutations with the same head have permuted tails. */
  lemma SameTail<T>(a: seq<T>, b: seq<T>)
    requires |a| > 0 && |b| > 0 && a[0] == b[0] && multiset(a) == multiset(b)
    ensures multiset(a[1..]) == multiset(b[1..])
  {
    assert a == [a[0]] + a[1..] && b == [b[0]] + b[1..];
    assert multiset(a) == multiset{a[0]} + multiset(a[1..]);
    assert multiset(b) == multiset{b[0]} + multiset(b[1..]);
    assert multiset(a[1..]) == multiset(a) - multiset{a[0]};
    assert multiset(b[1..]) == multiset(b) - multiset{b[0]};
  }

  /** Sorting forgets the original order: permutations sort alike. */
  lemma SortOrderFree(xs: seq<string>, ys: seq<string>)
    requires multiset(xs) == multiset(ys)
    ensures Sort(xs) == Sort(ys)
  {
    SortedUnique(Sort(xs), Sort(ys));
  }

  /** A sorted list is its own sort. */
  lemma SortSorted(xs: seq<string>)
    requires Sorted(xs)
    ensures Sort(xs) == xs
  {
    SortedUnique(Sort(xs), xs);
  }

  /** No element occurs twice. */
  predicate Distinct<T(==)>(xs: seq<T>) {
    forall i, j :: 0 <= i < j < |xs| ==> xs[i] != xs[j]
  }

  /** In a list without repeats every element occurs once. */
  lemma {:induction false} DistinctOnce<T>(xs: seq<T>, x: T)
    requires Distinct(xs)
    ensures multiset(xs)[x] == if x in xs then 1 else 0
    decreases |xs|
  {
    if |xs| > 0 {
      assert xs == [xs[0]] + xs[1..];
      assert Distinct(xs[1..]) by {
        assert forall k :: 0 <= k < |xs[1..]| ==> xs[1..][k] == xs[k + 1];
      }
      DistinctOnce(xs[1..], x);
      assert xs[0] !in xs[1..] by {
        assert forall k :: 0 <= k < |xs[1..]| ==> xs[1..][k] == xs[k + 1];
      }
    }
  }

  /** An element at two positions occurs at least twice. */
  lemma TwoPositions<T>(xs: seq<T>, i: nat, j: nat)
    requires i < j < |xs| && xs[i] == xs[j]
    ensures multiset(xs)[xs[i]] >= 2
  {
    assert xs == xs[..j] + xs[j..];
    assert xs[i] in xs[..j] && xs[j] in xs[j..];
  }

  /** Two repeat-free lists with the same elements are permutations. */
  lemma DistinctSameElements<T>(xs: seq<T>, ys: seq<T>)
    requires Distinct(xs) && Distinct(ys)
    requires forall x :: x in xs <==> x in ys
    ensures multiset(xs) == multiset(ys)
  {
    forall x
      ensures multiset(xs)[x] == multiset(ys)[x]
    {
      DistinctOnce(xs, x);
      DistinctOnce(ys, x);
    }
  }

  /** Sorting a repeat-free list keeps it repeat-free, so the result is
      strictly ascending. */
  lemma SortDistinct(xs: seq<string>)
    requires Distinct(xs)
    ensures Distinct(Sort(xs))
  {
    var r := Sort(xs);
    forall i, j | 0 <= i < j < |r|
      ensures r[i] != r[j]
    {
      if r[i] == r[j] {
        TwoPositions(r, i, j);
        DistinctOnce(xs, r[i]);
        assert false;
      }
    }
  }
}

=== FILE: strings.dfy ===
/** The string operations of Rust's `str` that the log analyser relies on,
    stated over `seq<char>`: substring search, prefix and suffix tests,
    splitting on a separator, joining, character counts, trimming and the
    decimal integer parser behind `str::parse`.
 */
module Strings {
  import opened Common

  /** `t` occurs in `s` starting at index `i`. */
  predicate OccursAt(s: string, t: string, i: int) {
    0 <= i && i + |t| <= |s| && s[i..i + |t|] == t
  }

  /** Rust's `str::contains` with a string pattern. */
  predicate Contains(s: string, t: string) {
    exists i | 0 <= i <= |s| - |t| :: OccursAt(s, t, i)
  }

  /** Rust's `str::starts_with`. */
  predicate StartsWith(s: string, p: string) {
    |p| <= |s| && s[..|p|] == p
  }

  /** Rust's `str::ends_with`. */
  predicate EndsWith(s: string, p: string) {
    |p| <= |s| && s[|s| - |p|..] == p
  }

  /** Number of occurrences of `c` in `s` (`s.matches(c).count()`). */
  function Count(s: string, c: char): nat {
    multiset(s)[c]
  }

  /** The first occurrence of `t` in `s` at or after index `from`. */
  function Find(s: string, t: string, from: nat): (r: Option<nat>)
    decreases |s| - from
    ensures r.Some? ==> from <= r.value && OccursAt(s, t, r.value)
    ensures r.Some? ==> forall j :: from <= j < r.value ==> !OccursAt(s, t, j)
    ensures r.None? ==> forall j :: from <= j ==> !OccursAt(s, t, j)
  {
    if from + |t| > |s| then None
    else if s[from..from + |t|] == t then Some(from)
    else Find(s, t, from + 1)
  }

  lemma FindIsContains(s: string, t: string)
    ensures Find(s, t, 0).Some? <==> Contains(s, t)
  {
    if Contains(s, t) {
      var i :| 0 <= i <= |s| - |t| && OccursAt(s, t, i);
    }
  }

  /** A substring of `s` is a substring of any string that contains `s`. */
  lemma {:induction false} ContainsWithin(a: string, s: string, b: string, t: string)
    requires Contains(s, t)
    ensures Contains(a + s + b, t)
  {
    var i :| 0 <= i <= |s| - |t| && OccursAt(s, t, i);
    var w := a + s + b;
    assert w[|a| + i..|a| + i + |t|] == s[i..i + |t|];
    assert OccursAt(w, t, |a| + i);
  }

  /** Rust's `str::split` with a non-empty string pattern: the pieces between
      successive non-overlapping occurrences of `sep`, scanning left to right.
      There is always at least one piece. */
  function Split(s: string, sep: string): (r: seq<string>)
    requires |sep| > 0
    decreases |s|
    ensures |r| > 0
  {
    match Find(s, sep, 0)
    case None => [s]
    case Some(i) => [s[..i]] + Split(s[i + |sep|..], sep)
  }

  /** Rust's `join`: the pieces with `sep` between neighbours. */
  function Join(xs: seq<string>, sep: string): string
    decreases |xs|
  {
    if |xs| == 0 then ""
    else if |xs| == 1 then xs[0]
    else xs[0] + sep + Join(xs[1..], sep)
  }

  /** Joining the pieces of a split restores the original text. */
  lemma {:induction false} JoinSplit(s: string, sep: string)
    requires |sep| > 0
    ensures Join(Split(s, sep), sep) == s
    decreases |s|
  {
    match Find(s, sep, 0)
    case None =>
    case Some(i) =>
      var rest := s[i + |sep|..];
      JoinSplit(rest, sep);
      assert Split(s, sep) == [s[..i]] + Split(rest, sep);
      assert s == s[..i] + sep + rest;
  }

  /** Splitting on one character undoes a join of pieces that do not contain it. */
  lemma {:induction false} SplitJoin(xs: seq<string>, c: char)
    requires |xs| > 0
    requires forall k :: 0 <= k < |xs| ==> c !in xs[k]
    ensures Split(Join(xs, [c]), [c]) == xs
    decreases |xs|
  {
    var s := Join(xs, [c]);
    if |xs| == 1 {
      NoFind(xs[0], c);
    } else {
      var head := xs[0];
      assert s == head + [c] + Join(xs[1..], [c]);
      SplitCons(head, c, Join(xs[1..], [c]));
      SplitJoin(xs[1..], c);
      assert xs == [head] + xs[1..];
    }
  }

  lemma NoFind(s: string, c: char)
    requires c !in s
    ensures Find(s, [c], 0).None?
  {
    forall j | 0 <= j < |s|
      ensures !OccursAt(s, [c], j)
    {
      assert s[j] in s;
      assert s[j..j + 1] == [s[j]];
    }
  }

  /** What follows the first occurrence of `sep`, or "" when `sep` does not occur. */
  function AfterFirst(s: string, sep: string): string {
    match Find(s, sep, 0)
    case None => ""
    case Some(i) => s[i + |sep|..]
  }

  /** Dropping the first piece of a split and joining the rest yields the text
      after the first separator. */
  lemma SplitTail(s: string, sep: string)
    requires |sep| > 0
    ensures Join(Split(s, sep)[1..], sep) == AfterFirst(s, sep)
  {
    match Find(s, sep, 0)
    case None =>
    case Some(i) =>
      JoinSplit(s[i + |sep|..], sep);
      assert Split(s, sep)[1..] == Split(s[i + |sep|..], sep);
  }

  /** Concatenation regroups freely. */
  lemma AppendAssoc<T>(x: seq<T>, y: seq<T>, z: seq<T>)
    ensures x + (y + z) == (x + y) + z
  {
  }

  function Last<T>(xs: seq<T>): T
    requires |xs| > 0
  {
    xs[|xs| - 1]
  }

  /** The Unicode White_Space property, which `char::is_whitespace` tests. */
  predicate IsWhitespace(c: char) {
    || ('\t' <= c <= '\r')
    || c == ' '
    || c == '\U{0085}'
    || c == '\U{00A0}'
    || c == '\U{1680}'
    || ('\U{2000}' <= c <= '\U{200A}')
    || c == '\U{2028}'
    || c == '\U{2029}'
    || c == '\U{202F}'
    || c == '\U{205F}'
    || c == '\U{3000}'
  }

  /** Rust's `str::trim_start`. */
  function TrimStart(s: string): (r: string)
    decreases |s|
    ensures |r| <= |s| && r == s[|s| - |r|..]
    ensures |r| > 0 ==> !IsWhitespace(r[0])
    ensures forall k :: 0 <= k < |s| - |r| ==> IsWhitespace(s[k])
  {
    if |s| > 0 && IsWhitespace(s[0]) then TrimStart(s[1..]) else s
  }

  /** Rust's `str::trim_end`. */
  function TrimEnd(s: string): (r: string)
    decreases |s|
    ensures |r| <= |s| && r == s[..|r|]
    ensures |r| > 0 ==> !IsWhitespace(r[|r| - 1])
    ensures forall k :: |r| <= k < |s| ==> IsWhitespace(s[k])
  {
    if |s| > 0 && IsWhitespace(s[|s| - 1]) then TrimEnd(s[..|s| - 1]) else s
  }

  /** Rust's `str::trim`. */
  function Trim(s: string): string {
    TrimEnd(TrimStart(s))
  }

  /** Rust's `str::trim_end_matches(c)`: every trailing `c` removed. */
  function TrimEndChar(s: string, c: char): (r: string)
    decreases |s|
    ensures |r| <= |s| && r == s[..|r|]
    ensures |r| > 0 ==> r[|r| - 1] != c
    ensures forall k :: |r| <= k < |s| ==> s[k] == c
  {
    if |s| > 0 && s[|s| - 1] == c then TrimEndChar(s[..|s| - 1], c) else s
  }

  predicate IsDigit(c: char) {
    '0' <= c <= '9'
  }

  predicate AllDigits(s: string) {
    forall k :: 0 <= k < |s| ==> IsDigit(s[k])
  }

  /** No digit string contains a non-digit. */
  lemma DigitsHaveNo(d: string, c: char)
    requires AllDigits(d)
    requires !IsDigit(c)
    ensures c !in d
  {
    forall j | 0 <= j < |d|
      ensures d[j] != c
    {
      assert IsDigit(d[j]);
    }
  }

  /** The value of a string of decimal digits, most significant first. */
  function DigitsValue(s: string): nat
    requires AllDigits(s)
    decreases |s|
  {
    if |s| == 0 then 0
    else
      assert IsDigit(s[|s| - 1]);
      DigitsValue(s[..|s| - 1]) * 10 + (s[|s| - 1] as int - '0' as int)
  }

  /** Rust's `str::parse` for an integer type whose values are `lo..=hi`:
      an optional `+` (or `-` when the type is signed, that is `lo < 0`),
      then at least one ASCII digit and nothing else; a value outside the
      range is an overflow error.  `None` is every error. */
  function ParseInt(s: string, lo: int, hi: int): (r: Option<int>)
    ensures r.Some? ==> lo <= r.value <= hi
  {
    var negative := |s| > 0 && s[0] == '-' && lo < 0;
    var digits := if |s| > 0 && (s[0] == '+' || negative) then s[1..] else s;
    if |digits| == 0 || !AllDigits(digits) then None
    else
      var v: int := if negative then -(DigitsValue(digits) as int) else DigitsValue(digits);
      if lo <= v <= hi then Some(v) else None
  }

  /** `s.parse::<u64>()` (also `usize` on a 64-bit target). */
  function ParseU64(s: string): Option<int> {
    ParseInt(s, 0, U64_MAX)
  }

  /** `s.parse::<i64>()`. */
  function ParseI64(s: string): Option<int> {
    ParseInt(s, I64_MIN, I64_MAX)
  }

  /** `s.parse::<i32>()`. */
  function ParseI32(s: string): Option<int> {
    ParseInt(s, I32_MIN, I32_MAX)
  }

  /** The decimal digits of `n` without leading zeros; the inverse of `DigitsValue`. */
  function Decimal(n: nat): (r: string)
    decreases n
    ensures |r| > 0 && AllDigits(r) && DigitsValue(r) == n
  {
    var last := [('0' as int + n % 10) as char];
    if n < 10 then last
    else
      var r := Decimal(n / 10) + last;
      assert r[..|r| - 1] == Decimal(n / 10);
      r
  }

  /** Parsing the decimal rendering of an in-range value gives the value back. */
  lemma ParseDecimal(n: nat, lo: int, hi: int)
    requires lo <= n <= hi
    ensures ParseInt(Decimal(n), lo, hi) == Some(n)
  {
    var d := Decimal(n);
    assert IsDigit(d[0]);
  }

  /** A piece free of the separator character is split off whole. */
  lemma {:induction false} SplitCons(a: string, c: char, b: string)
    requires c !in a
    ensures Split(a + [c] + b, [c]) == [a] + Split(b, [c])
  {
    var s := a + [c] + b;
    assert OccursAt(s, [c], |a|);
    forall j | 0 <= j < |a|
      ensures !OccursAt(s, [c], j)
    {
      assert s[j] == a[j];
    }
    assert Find(s, [c], 0) == Some(|a|);
    assert s[..|a|] == a;
    assert s[|a| + 1..] == b;
  }

  /** `SplitCons` with the concatenation grouped to the right. */
  lemma SplitConsRight(a: string, c: char, b: string)
    requires c !in a
    ensures Split(a + ([c] + b), [c]) == [a] + Split(b, [c])
  {
    assert a + ([c] + b) == a + [c] + b;
    SplitCons(a, c, b);
  }

  /** Text free of the separator character is a single piece. */
  lemma SplitWhole(a: string, c: char)
    requires c !in a
    ensures Split(a, [c]) == [a]
  {
    NoFind(a, c);
  }

  /** The first piece of `a + b` extends `a` when `a` is free of the separator. */
  lemma {:induction false} SplitHead(a: string, b: string, c: char)
    requires c !in a
    ensures Split(a + b, [c])[0] == a + Split(b, [c])[0]
  {
    var s := a + b;
    forall j | 0 <= j < |a|
      ensures !OccursAt(s, [c], j)
    {
      assert s[j] == a[j];
      assert s[j..j + 1] == [s[j]];
    }
    forall j | |a| <= j
      ensures OccursAt(s, [c], j) <==> OccursAt(b, [c], j - |a|)
    {
      if j + 1 <= |s| {
        assert s[j..j + 1] == b[j - |a|..j - |a| + 1];
      }
    }
    match Find(b, [c], 0)
    case None =>
    case Some(i) =>
      assert OccursAt(b, [c], (|a| + i) - |a|);
      forall j | |a| <= j < |a| + i
        ensures !OccursAt(s, [c], j)
      {
        assert !OccursAt(b, [c], j - |a|);
      }
      assert OccursAt(s, [c], |a| + i);
      var v := Find(s, [c], 0).value;
      assert v <= |a| + i;
      assert v == |a| + i;
      assert s[..|a| + i] == a + b[..i];
  }

  /** The index of the first element of `xs` that starts with `p`. */
  function FirstWithPrefix(xs: seq<string>, p: string): (r: Option<nat>)
    decreases |xs|
    ensures r.Some? ==> r.value < |xs| && StartsWith(xs[r.value], p)
    ensures r.Some? ==> forall k :: 0 <= k < r.value ==> !StartsWith(xs[k], p)
    ensures r.None? ==> forall k :: 0 <= k < |xs| ==> !StartsWith(xs[k], p)
  {
    if |xs| == 0 then None
    else if StartsWith(xs[0], p) then Some(0)
    else match FirstWithPrefix(xs[1..], p)
      case None => None
      case Some(i) => Some(i + 1)
  }

  /** What follows `p` in the first element of `xs` that starts with `p`
      (the `starts_with` loop and `strip_prefix` of the flag readers). */
  function PrefixedValue(xs: seq<string>, p: string): Option<string> {
    match FirstWithPrefix(xs, p)
    case None => None
    case Some(i) => Some(xs[i][|p|..])
  }

  /** The value of the first element starting with `p` is read from that element. */
  lemma {:induction false} PrefixedValueFirst(before: seq<string>, p: string, v: string, after: seq<string>)
    requires forall k :: 0 <= k < |before| ==> !StartsWith(before[k], p)
    ensures PrefixedValue(before + [p + v] + after, p) == Some(v)
  {
    var xs := before + [p + v] + after;
    assert xs[|before|] == p + v;
    assert (p + v)[..|p|] == p;
    assert forall k :: 0 <= k < |before| ==> xs[k] == before[k];
    var i := FirstWithPrefix(xs, p).value;
    assert i == |before|;
    assert (p + v)[|p|..] == v;
  }

  /** The signed decimal rendering Rust's `Display` gives an integer. */
  function IntText(n: int): (r: string)
    ensures |r| > 0
  {
    if n < 0 then "-" + Decimal(-n) else Decimal(n)
  }

  /** Parsing the rendering of an in-range signed value gives the value back. */
  lemma ParseIntText(n: int, lo: int, hi: int)
    requires lo <= n <= hi
    requires lo < 0
    ensures ParseInt(IntText(n), lo, hi) == Some(n)
  {
    if n < 0 {
      var d := Decimal(-n);
      assert ("-" + d)[1..] == d;
      assert IsDigit(d[0]);
    } else {
      ParseDecimal(n, lo, hi);
    }
  }

  /** A substring of a substring is a substring. */
  lemma ContainsTrans(s: string, t: string, u: string)
    requires Contains(s, t) && Contains(t, u)
    ensures Contains(s, u)
  {
    var i :| 0 <= i <= |s| - |t| && OccursAt(s, t, i);
    var j :| 0 <= j <= |t| - |u| && OccursAt(t, u, j);
    assert s[i..i + |t|] == t;
    forall k | 0 <= k < |u|
      ensures s[i + j + k] == u[k]
    {
      assert t[j + k] == u[k];
      assert s[i + (j + k)] == t[j + k];
    }
    assert s[i + j..i + j + |u|] == u;
    assert OccursAt(s, u, i + j);
  }

  /** A first piece free of the separator's first character is split off
      whole, whatever the separator's length. */
  lemma {:induction false} SplitAtFirst(a: string, sep: string, b: string)
    requires |sep| > 0 && sep[0] !in a
    ensures Split(a + sep + b, sep) == [a] + Split(b, sep)
  {
    var s := a + sep + b;
    assert s[|a|..|a| + |sep|] == sep;
    assert OccursAt(s, sep, |a|);
    forall j | 0 <= j < |a|
      ensures !OccursAt(s, sep, j)
    {
      assert s[j] == a[j];
      assert s[j..j + |sep|][0] == s[j];
    }
    assert Find(s, sep, 0) == Some(|a|);
    assert s[..|a|] == a;
    assert s[|a| + |sep|..] == b;
  }

  /** Text free of the separator's first character is a single piece. */
  lemma SplitNone(b: string, sep: string)
    requires |sep| > 0 && sep[0] !in b
    ensures Split(b, sep) == [b]
  {
    forall j | 0 <= j
      ensures !OccursAt(b, sep, j)
    {
      if j + |sep| <= |b| {
        assert b[j..j + |sep|][0] == b[j];
      }
    }
  }

  /** Text without a space holds no ": ". */
  lemma NoSpaceNoColonSpace(s: string)
    requires ' ' !in s
    ensures !Contains(s, ": ")
  {
    forall i | 0 <= i <= |s| - 2
      ensures !OccursAt(s, ": ", i)
    {
      assert s[i..i + 2][1] == s[i + 1];
    }
  }

  /** The first ": " of `head + ": " + rest` is the one after `head` when
      `head` holds no ": " itself. */
  lemma {:induction false} SplitAtColonSpace(head: string, rest: string)
    requires !Contains(head, ": ")
    ensures Split(head + ": " + rest, ": ")[0] == head
    ensures AfterFirst(head + ": " + rest, ": ") == rest
  {
    var s := head + ": " + rest;
    assert s[|head|..|head| + 2] == ": ";
    assert OccursAt(s, ": ", |head|);
    forall j | 0 <= j < |head|
      ensures !OccursAt(s, ": ", j)
    {
      if j + 2 <= |head| {
        assert s[j..j + 2] == head[j..j + 2];
        assert !OccursAt(head, ": ", j);
      } else {
        assert s[j..j + 2][1] == s[j + 1] == ':';
      }
    }
    assert Find(s, ": ", 0) == Some(|head|);
    assert s[..|head|] == head;
    assert s[|head| + 2..] == rest;
  }

  /** A separator whose last character occurs neither earlier in the
      separator nor in the first piece is split off right after that piece. */
  lemma {:induction false} SplitAtLastChar(a: string, sep: string, b: string)
    requires |sep| > 0 && Last(sep) !in a && Last(sep) !in sep[..|sep| - 1]
    ensures Split(a + sep + b, sep) == [a] + Split(b, sep)
  {
    var s := a + sep + b;
    var n := |sep| - 1;
    assert s[|a|..|a| + |sep|] == sep;
    assert OccursAt(s, sep, |a|);
    forall j | 0 <= j < |a|
      ensures !OccursAt(s, sep, j)
    {
      var p := j + n;
      if p < |a| {
        assert s[p] == a[p];
      } else {
        assert s[p] == sep[..n][p - |a|];
      }
      assert s[j..j + |sep|][n] == s[p];
    }
    assert Find(s, sep, 0) == Some(|a|);
    assert s[..|a|] == a;
    assert s[|a| + |sep|..] == b;
  }

  /** The pieces that are not empty, in order (`filter(|x| !x.is_empty())`). */
  function NonEmpty(xs: seq<string>): (r: seq<string>)
    decreases |xs|
    ensures |r| <= |xs|
    ensures forall i :: 0 <= i < |r| ==> r[i] != ""
    ensures forall x :: x in r <==> x in xs && x != ""
  {
    if |xs| == 0 then []
    else if xs[0] == "" then NonEmpty(xs[1..])
    else [xs[0]] + NonEmpty(xs[1..])
  }

  /** Trimming text that neither starts nor ends with whitespace changes nothing. */
  lemma TrimUntouched(s: string)
    requires |s| > 0 && !IsWhitespace(s[0]) && !IsWhitespace(s[|s| - 1])
    ensures Trim(s) == s
  {
  }

  lemma CountAppend(a: string, b: string, c: char)
    ensures Count(a + b, c) == Count(a, c) + Count(b, c)
  {
    assert multiset(a + b) == multiset(a) + multiset(b);
  }

  lemma ContainsLeft(a: string, b: string, t: string)
    requires Contains(a, t)
    ensures Contains(a + b, t)
  {
    ContainsWithin("", a, b, t);
    assert "" + a + b == a + b;
  }

  lemma ContainsRight(a: string, b: string, t: string)
    requires Contains(b, t)
    ensures Contains(a + b, t)
  {
    ContainsWithin(a, b, "", t);
    assert a + b + "" == a + b;
  }

  lemma StartsWithAppend(a: string, b: string, p: string)
    requires StartsWith(a, p)
    ensures StartsWith(a + b, p)
  {
    assert (a + b)[..|p|] == a[..|p|];
  }

  lemma EndsWithAppend(a: string, b: string, p: string)
    requires EndsWith(b, p)
    ensures EndsWith(a + b, p)
  {
    assert (a + b)[|a + b| - |p|..] == b[|b| - |p|..];
  }

  /** A text that ends with `p`, followed by one that starts with `q`,
      contains `p + q` across the seam. */
  lemma ContainsAcross(a: string, b: string, p: string, q: string)
    requires EndsWith(a, p) && StartsWith(b, q)
    ensures Contains(a + b, p + q)
  {
    var i := |a| - |p|;
    assert (a + b)[i..i + |p + q|] == a[i..] + b[..|q|];
    assert OccursAt(a + b, p + q, i);
  }

  /** An element of a joined list occurs in the joined text. */
  lemma {:induction false} JoinContains(xs: seq<string>, sep: string, i: nat)
    requires i < |xs|
    ensures Contains(Join(xs, sep), xs[i])
    decreases |xs|
  {
    if |xs| == 1 || i == 0 {
      assert OccursAt(xs[0], xs[0], 0);
      if |xs| > 1 {
        ContainsLeft(xs[0], sep + Join(xs[1..], sep), xs[0]);
        assert Join(xs, sep) == xs[0] + (sep + Join(xs[1..], sep));
      }
    } else {
      JoinContains(xs[1..], sep, i - 1);
      ContainsRight(xs[0] + sep, Join(xs[1..], sep), xs[i]);
    }
  }

  /** How often `c` occurs across all the lines. */
  function CountAll(lines: seq<string>, c: char): nat
    decreases |lines|
  {
    if |lines| == 0 then 0 else Count(lines[0], c) + CountAll(lines[1..], c)
  }

  lemma {:induction false} CountAllAppend(a: seq<string>, b: seq<string>, c: char)
    ensures CountAll(a + b, c) == CountAll(a, c) + CountAll(b, c)
    decreases |a|
  {
    if |a| == 0 {
      assert a + b == b;
    } else {
      assert (a + b)[0] == a[0];
      assert (a + b)[1..] == a[1..] + b;
      CountAllAppend(a[1..], b, c);
    }
  }

  /** Joining lines with newlines adds no other character. */
  lemma {:induction false} CountJoin(lines: seq<string>, c: char)
    requires c != '\n'
    ensures Count(Join(lines, "\n"), c) == CountAll(lines, c)
    decreases |lines|
  {
    if |lines| > 1 {
      CountJoin(lines[1..], c);
      CountAppend(lines[0], "\n", c);
      CountAppend(lines[0] + "\n", Join(lines[1..], "\n"), c);
      assert multiset("\n")[c] == 0;
    }
  }

  /** Appending a line to joined lines. */
  lemma {:induction false} JoinSnoc(lines: seq<string>, line: string, sep: string)
    requires |lines| > 0
    ensures Join(lines + [line], sep) == Join(lines, sep) + sep + line
    decreases |lines|
  {
    if |lines| == 1 {
      assert (lines + [line])[1..] == [line];
    } else {
      assert (lines + [line])[1..] == lines[1..] + [line];
      JoinSnoc(lines[1..], line, sep);
    }
  }
}
